=== FILE: README.md ===
# steam.exposed, modelled in Dafny

steam.exposed is a SvelteKit site that shows a Steam user's year in review. This project models
its server-side core and proves properties of it:

- **The cache-backed data layer** (`src/lib/server/data.ts`). Every getter reads a Redis key and
  answers from the cache when it holds a value: `getAppNames` serves any stored name (`!== null`,
  so a cached `""` too), and the other getters serve any truthy cached text, so only
  `getVanityResolution`, whose text is not JSON, refetches a cached `""`. Otherwise a getter asks
  the Steam Web API and writes what it computed, with an expiry for negative answers. Redis is a class with one map
  field per key prefix (`Store.Redis`). Each entry holds the document its JSON encodes and the
  `EX` seconds it was written with. The Steam answers form an `Upstream` value of total
  functions, and `Date.now()` is a `now` parameter.
- **The merges inside the data layer**, as pure functions:
  - game achievements (`GameAchievementsMerge`): nothing is ever dropped, removed entries get
    `removedAt`, `foundAt` and `percent` fall back to the cached values;
  - the batched year achievements (`YearAchievementsFold`);
  - the player unlock maps (`PlayerUnlocks`).
- **The refresh queue** (`src/lib/server/queue.ts`): a single-worker FIFO whose worker forces
  a refresh through the data layer for each of the four task kinds.
- **The server-sent-event fan-out** (`src/lib/server/sse/manager.ts`): classes for
  connections, groups and the manager, with the periodic sweep over the groups.
- **The codecs and validators**:
  - the invite-code codec and `clampYear` (`src/lib/util.ts`);
  - the `?year=` parser (`src/lib/server/util.ts`);
  - the five route matchers (`src/params/*.ts`);
  - the OpenID login callback (OpenID Authentication 2.0, sections 10.1 and 11.4.2).
- **Shared primitives** (`Text`): the JavaScript string and number primitives these rely on
  (`parseInt`, `toString(radix)`, `trim`, ASCII `toLowerCase`), written out.

Two defects of the source are recorded under "## Findings". For each, the code as written is
modelled next to the corrected definition, and the rest of the model uses the corrected one.

## Model

| member | source | states |
|---|---|---|
| Data.GetAppNames | src/lib/server/data.ts:28-74 | The pages fetched are exactly `AppPages` of the upstream and the uncached requested ids: the page after the smallest pending id less one, then the page after the smallest id above the last page's last id, until none is pending or a request goes unanswered. Only requested ids are answered. A cached requested id keeps its cached name unless a page lists it. An uncached requested id is answered exactly when some page lists it or some page ends at or above it, also when a later page request goes unanswered. A requested id some page lists gets the name the last such page gives it at its last entry. Any other answered id is `""`, stored as `""` for 86400 s. When every page request is answered, every requested id is answered. Every listed id is stored under its latest name, with an expiry only if it was requested and settled as missed. The cache gains exactly the listed and the answered ids and keeps every other entry unchanged. |
| Data.FetchPages | src/lib/server/data.ts:40-71 | The page loop fetches exactly `AppPages` of the ids pending after the first loop and keeps `Progress`. The ids still pending are exactly the uncached requested ids that no fetched page reaches (`Pending`). Nothing is pending at the end when every request is answered. |
| Data.AppPagesStep | src/lib/server/data.ts:40-52 | An answered request for the page after the smallest pending id less one is the next page, and the ids above that page's last id are what the later pages are fetched for. |
| Data.AppPagesStop | src/lib/server/data.ts:42-43 | An unanswered request ends the pages. |
| Data.PagesSoFarStep | src/lib/server/data.ts:41-70 | The pages fetched so far followed by those still to come stay all the pages when one more page is fetched. |
| Data.PagesSoFarStop | src/lib/server/data.ts:43 | When a request goes unanswered, the pages fetched so far are all the pages. |
| Data.PagesSoFarDone | src/lib/server/data.ts:41-69 | When nothing is pending, the pages fetched so far are all the pages. |
| Data.PendingStart | src/lib/server/data.ts:29-38 | The ids pending after the first loop are exactly the requested ids the cache does not name. |
| Data.ReadCachedNames | src/lib/server/data.ts:29-38 | After the first loop a requested id is still pending exactly when it is not cached, and every cached requested id is answered with its cached name. |
| Data.TakeNames | src/lib/server/data.ts:45-48 | Every requested id the page lists is answered with the name of its last entry in the page, which is a name the page gives it (`Store.LastNameMeaning`). Earlier answers for other ids are unchanged, and nothing else is added. |
| Data.SettlePending | src/lib/server/data.ts:52-62 | Pending ids up to the page's largest id leave the pending list, and exactly those larger stay. The settled ids that had no non-empty answer are answered `""` and reported as missed. Existing answers are unchanged. The pending list strictly shrinks when any id is settled. |
| Data.TakePage | src/lib/server/data.ts:45-67 | One iteration of the page loop keeps the loop invariant `Progress` (with the page logged) and the store's shape. It keeps `Pending`: the ids left are the uncached requested ids that no page up to this one reaches. It strictly shrinks the pending list. |
| Data.PageStep | src/lib/server/data.ts:45-50 | Taking a page's names and storing the page preserves `Progress`, with the page added to the log. |
| Data.PageAnswers | src/lib/server/data.ts:45-48 | After a page's names are taken, every answered id still has the answer `Progress` prescribes, with the page logged. |
| Data.PageStored | src/lib/server/data.ts:50 | After a page is stored, every listed id holds the latest page's name without expiry, every missed id `""` for 86400 s, and the other cached entries are unchanged. |
| Data.SettleStep | src/lib/server/data.ts:52-67 | Settling the pending ids and storing the missed ones as `""` preserves `Progress`, given that the page reaches every id up to its last appid. |
| Data.SettleAnswers | src/lib/server/data.ts:52-62 | Settling keeps the answers `Progress` prescribes. An id answered without a cached entry is one a page lists or reaches. |
| Data.SettleStored | src/lib/server/data.ts:52-67 | After the missed ids are stored as `""` for 86400 s, the store still satisfies `Stored`. |
| Data.ReachedExtend | src/lib/server/data.ts:52-55 | Adding a page to the log reaches exactly the ids reached before, plus those at or below the page's last appid. |
| Data.Settled | src/lib/server/data.ts:41-73 | At loop exit, `Progress` yields every answer and store postcondition of `GetAppNames`. With `Pending`, an uncached requested id is answered exactly when a page lists it or reaches it. With nothing pending, every requested id is answered. |
| Data.MinOf | src/lib/server/data.ts:40 | The smallest pending id: it is in the list and no element is smaller. |
| Data.SetMin | src/lib/server/data.ts:40 | The smallest id of a non-empty set of pending ids: it is in the set and no element is smaller. |
| Data.Remove | src/lib/server/data.ts:35 | `Set.delete`: the result holds exactly the elements other than the removed one. |
| Store.Redis.SetAppNames | src/lib/server/data.ts:50 | `MSET` of a page: every listed id takes the name of its last entry in the page, without expiry. Ids not listed keep their entries, and the store's shape is kept. |
| Store.LastNameMeaning | src/lib/server/data.ts:45-50 | The name kept for an id is the one at the last index of the page listing it, and it is a name the page gives that id. |
| Store.Redis.SetMissedApps | src/lib/server/data.ts:64-67 | Every missed id is stored as `""` with an 86400 s expiry. Other entries are unchanged. |
| Data.GetTags | src/lib/server/data.ts:130-139 | A cached list is returned and nothing is written. Otherwise a fetched list is returned and cached for 86400 s. A failed fetch returns `[]` and writes nothing. |
| Data.GetUser | src/lib/server/data.ts:141-162 | Unless skipped, a cached value is returned unchanged. Otherwise: an undefined answer stores and returns `0` with a 3600 s expiry; a failed answer returns `null` and writes nothing; a found summary is stamped with `now`, stored without expiry and returned. |
| Data.GetYearInReview | src/lib/server/data.ts:173-191 | A cached document is returned. Otherwise the fetched one is returned; it is stored for 60 s when empty and without expiry otherwise. A failed fetch writes nothing. |
| Data.GetVanityResolution | src/lib/server/data.ts:193-202 | A cached non-empty SteamID is returned (a cached `""` is refetched). Otherwise the answer is present exactly when Steam reports `success` 1; it is then the resolved SteamID, cached for 86400 s. Nothing is written otherwise. |
| Data.GetProfileItems | src/lib/server/data.ts:204-219 | Unless skipped, the cached value is returned (a cached `null` as `None`). Otherwise a failed fetch stores `null` for 60 s and returns `None`, and a fetched document is stamped, stored without expiry and returned. |
| Data.GetGameAchievements | src/lib/server/data.ts:238-296 | Unless forced, a cached document (a stored `null` included) is returned unchanged. Otherwise the result is `Refresh` of the cached copy, stored without expiry. |
| Data.GetUserYearAchievements | src/lib/server/data.ts:311-354 | Unless skipped, a cached document is returned. Otherwise the loop over the batches computes the fold of every batch's answer (loop invariant), and the result is stored without expiry. |
| Data.GetPlayerAchievements | src/lib/server/data.ts:363-396 | When `UseCached` allows it, the cached document is returned unchanged. Otherwise `RefreshPlayer` of the cached copy and the fetched answer is returned and stored without expiry. |
| GameAchievementsMerge.Refresh | src/lib/server/data.ts:241-292 | The document a refetch computes: the cached copy re-stamped, or `null`, without a schema, and otherwise the merge, with percentages read only when the game has achievements. Its properties are stated by `SchemaFailureKeepsCache` and by the merge lemmas below. |
| GameAchievementsMerge.LegacyFetch | src/lib/server/data.ts:255-260 | `xmlData`: no fetch unless a hidden achievement lacks a description, then the caller's page unless the caller is the reference account, falling back to the reference account's. Stated by `LegacyMissingIff`. |
| GameAchievementsMerge.MergeWith | src/lib/server/data.ts:262-292 | The merged document, with the `removedAt` lookup key as a parameter. Stated by `MergeShape`, `NoAchievementDropped`, `FreshFields`, `RetainShape`, `RetainOrigin` and `CompleteIff`. |
| GameAchievementsMerge.Merge | src/lib/server/data.ts:262-292 | The merge with `removedAt` looked up by id, which the data layer uses. `MergeIdempotent` states it keeps every stamp when repeated. |
| GameAchievementsMerge.MergeAsWritten | src/lib/server/data.ts:262-292 | The merge with `removedAt` looked up by display name, as `data.ts:288` is written. `RemovedAtResetAsWritten` exhibits the reset. |
| GameAchievementsMerge.FindById | src/lib/server/data.ts:279 | `find` by id: a result is the first entry of the list with that id, so no entry before it has the id; no result means no entry has that id. |
| GameAchievementsMerge.FindPercent | src/lib/server/data.ts:277 | A found percentage is that of the first listed entry with the achievement's name; none means no entry has that name. |
| GameAchievementsMerge.FindLegacy | src/lib/server/data.ts:271 | A found legacy entry is the first in the list whose trimmed apiname is the key; none means no trimmed apiname equals the key. |
| GameAchievementsMerge.FindLegacyFrom | src/lib/server/data.ts:271 | The same search from index `k` on: the entry found is the first at or after `k` that matches, and none means no entry from `k` on matches. |
| GameAchievementsMerge.RetainShape | src/lib/server/data.ts:286-289 | Every retained entry is marked removed and absent from the schema. Every cached entry absent from the schema is retained, with its looked-up `removedAt`. |
| GameAchievementsMerge.RetainOrigin | src/lib/server/data.ts:286-289 | Every retained entry is a cached entry with only `removedAt` replaced. |
| GameAchievementsMerge.MergeShape | src/lib/server/data.ts:262-290 | With either `removedAt` lookup, by id or by display name as written, the output starts with the schema's achievements in schema order: same ids, display names as names, none marked removed. Then come only cached achievements the schema does not list, each marked removed and otherwise unchanged. |
| GameAchievementsMerge.NoAchievementDropped | src/lib/server/data.ts:286-289 | With either `removedAt` lookup, every previously cached achievement id is still in the merged output. |
| GameAchievementsMerge.FreshFields | src/lib/server/data.ts:266-284 | For each schema achievement, `foundAt` is the first cached entry's with that id, else now. `percent` is the fetched percentage, else that cached entry's, else -1. The description is the schema's when non-empty, empty for a visible one without it, and for a hidden one the trimmed legacy description matched by lower-cased name, or `""` when there is no legacy page or no match. |
| GameAchievementsMerge.CompleteIff | src/lib/server/data.ts:255-264 | The result is incomplete exactly when some hidden achievement lacks a description and no legacy page was obtained. |
| GameAchievementsMerge.LegacyMissingIff | src/lib/server/data.ts:259 | The legacy page is missing exactly when it was needed and neither the caller's page nor the reference account's could be read. The caller's page is not tried when the caller is the reference account. |
| GameAchievementsMerge.SchemaFailureKeepsCache | src/lib/server/data.ts:244-251 | Without a schema the result is the cached copy with a new fetch stamp, and `null` exactly when nothing was cached. |
| GameAchievementsMerge.MergeIdempotent | src/lib/server/data.ts:262-292 | Merging the same answers into a merged document changes only the fetch stamp: `foundAt`, `percent` and `removedAt` all survive (corrected lookup). |
| GameAchievementsMerge.RemovedAtResetAsWritten | src/lib/server/data.ts:288 | Counterexample for the lookup as written: a removed achievement whose display name differs from its id gets `removedAt` reset to the refetch time. The corrected merge keeps the original time. |
| YearAchievementsFold.Batches | src/lib/server/data.ts:318 | `split([...new Set(appids)], 300)`. Stated by `BatchesAskEachAppOnce`. |
| YearAchievementsFold.Fold | src/lib/server/data.ts:328-350 | The loop over the batch answers, with totals summed. Stated by `CompleteIff`, `AppsFromBatches`, `FetchStampKept` and `TotalsAreSums`. |
| YearAchievementsFold.FoldAsWritten | src/lib/server/data.ts:328-350 | The same loop with `=+` as written. Stated by `TotalsAsWrittenAreLast` and `TotalsOverwrittenAsWritten`. |
| YearAchievementsFold.Dedup | src/lib/server/data.ts:318 | `[...new Set(xs)]`: the same elements, each once. |
| YearAchievementsFold.DedupFirstOccurrenceOrder | src/lib/server/data.ts:318 | `new Set` keeps the order of first occurrence: an element whose first occurrence comes earlier comes earlier in the result. |
| YearAchievementsFold.Chunks | src/lib/server/data.ts:318 | `split(xs, n)`: every piece is non-empty and at most n long, and every piece but the last is exactly n long. |
| YearAchievementsFold.ChunksFlatten | src/lib/server/data.ts:318 | The pieces concatenate back to the input: nothing is lost, repeated or reordered. |
| YearAchievementsFold.ChunksCount | src/lib/server/data.ts:318 | There are ceil(length / n) pieces. |
| YearAchievementsFold.ThreeHundredOne | src/lib/server/data.ts:318 | With the batch size of 300 (`data.ts:26`), 301 ids are asked for in two batches, of 300 and of 1. |
| YearAchievementsFold.BatchesAskEachAppOnce | src/lib/server/data.ts:318-329 | Put together, the batches list each requested app id exactly once, in the order of its first request, in ceil(distinct ids / 300) non-empty batches of at most 300. |
| YearAchievementsFold.AppsOf | src/lib/server/data.ts:334-341 | The `reduce` over a batch's games has an entry for exactly the app ids the batch lists, and each app takes the entry of the last game listing it. |
| YearAchievementsFold.CompleteIff | src/lib/server/data.ts:330 | The result is complete iff it started complete and no batch answered null or an empty object. |
| YearAchievementsFold.AppsFromBatches | src/lib/server/data.ts:332-342 | The result's apps are the starting ones plus those some answered batch lists. An app some batch lists takes the entry of the latest batch listing it; every other app keeps its starting entry. |
| YearAchievementsFold.FetchStampKept | src/lib/server/data.ts:325 | The loop never changes `_fetchedAt`. |
| YearAchievementsFold.TotalsAreSums | src/lib/server/data.ts:343-348 | With the corrected `+=`, each of the three totals is the starting value plus the sum of what the answered batches report. |
| YearAchievementsFold.TotalsAsWrittenAreLast | src/lib/server/data.ts:343-348 | As written (`=+`), each total is the value the last reporting batch gave, or the starting value. |
| YearAchievementsFold.TotalsOverwrittenAsWritten | src/lib/server/data.ts:344 | Counterexample: two batches reporting 5 and 3 give a total of 3 as written and 8 summed. |
| PlayerUnlocks.UseCached | src/lib/server/data.ts:367 | The condition under which the cached copy is served. `RefreshedServedUntilLaterYear` states what it means for a refreshed copy. |
| PlayerUnlocks.RefreshPlayer | src/lib/server/data.ts:369-393 | The document written when the cached copy is not served. Stated by `RefreshShape` and `RefreshIdempotent`. |
| PlayerUnlocks.UnlocksOf | src/lib/server/data.ts:385-388 | The unlock map has exactly the apinames of the fetched list as keys. |
| PlayerUnlocks.LastUnlockWins | src/lib/server/data.ts:385-388 | A repeated apiname takes the unlock time of its last occurrence. |
| PlayerUnlocks.RefreshedServedUntilLaterYear | src/lib/server/data.ts:367-393 | A refreshed copy, stamped with the year it was fetched for, is served to a later unforced request exactly when either year is zero or the request is not for a later year. |
| PlayerUnlocks.RefreshShape | src/lib/server/data.ts:369-393 | The refreshed document carries the requested year and now, and succeeds exactly when Steam answered with success. The unlock map never loses a cached key. On failure it is the cached map. On success the fetched entries override, other cached entries are kept, and there are no other keys. |
| PlayerUnlocks.RefreshIdempotent | src/lib/server/data.ts:382-393 | Refreshing again with the same answer leaves the unlock map unchanged. |
| RefreshQueue.Plan | src/lib/server/queue.ts:28-51 | A profile task makes two data-layer calls, `getUser` then `getProfileItems`; every other task makes one. |
| RefreshQueue.Effect | src/lib/server/queue.ts:28-51 | What running a task does to each key family of the cache. Stated by `EffectFollowsPlan` and `EffectConfined`; `Queue.Step`, `Work` and `WorkProfile` are proved to produce it. |
| RefreshQueue.AllForced | src/lib/server/queue.ts:32-48 | Every call the worker makes bypasses the cache. |
| RefreshQueue.ReasonIgnored | src/lib/server/queue.ts:24 | The `reason` of a task never changes the calls made. |
| RefreshQueue.EffectFollowsPlan | src/lib/server/queue.ts:28-51 | Each call the plan makes leaves at its own key what that call computes from its arguments: a user stamped now (or nothing new when the summary request fails), profile items stamped now, `Refresh` of the cached game achievements for the task's appid and SteamID, player unlocks stamped with the call's `forYear` and now, and the fold of the year batches for the task's SteamID, year and appids. |
| RefreshQueue.EffectConfined | src/lib/server/queue.ts:28-51 | Running a task changes the cache only at the keys its planned calls name; every other key of every family keeps its entry. |
| RefreshQueue.Queue.constructor | src/lib/server/queue.ts:26 | The queue starts empty, with a concurrency of exactly one. |
| RefreshQueue.Queue.Push | src/lib/server/queue.ts:26 | A pushed task joins the end of the waiting tasks. |
| RefreshQueue.Queue.Step | src/lib/server/queue.ts:28-53 | The oldest task is taken. The calls `Work` reports making for it are logged, and they are exactly `Plan` of it. Its callback runs once, and the cache changes as `Effect` says. |
| RefreshQueue.Work | src/lib/server/queue.ts:28-51 | The calls made, listed with the arguments passed, are exactly `Plan` of the task. Each task kind replaces the cache entries it names with freshly fetched documents and leaves the other key families unchanged (`Effect`). |
| RefreshQueue.WorkProfile | src/lib/server/queue.ts:30-34 | The calls made are `getUser` then `getProfileItems`, both skipping the cache (`Plan`). A profile refresh updates the user entry as a forced `getUser` does and the profile-items entry as a forced `getProfileItems` does. |
| SseManager.UpTo | src/lib/server/sse/manager.ts:15 | The text before the first separator: a prefix of the input without the separator, followed in the input by the separator unless it is all of it. |
| SseManager.FindTask | src/lib/server/sse/manager.ts:17 | `findIndex` answers -1 or an index of the queue. |
| SseManager.FindTaskFirst | src/lib/server/sse/manager.ts:17 | The answer is the first matching task's index, and -1 exactly when no task matches. |
| SseManager.SweepAction | src/lib/server/sse/manager.ts:13-20 | What the sweep does with one group. Stated by `SweepActionIff`. |
| SseManager.SweepActionIff | src/lib/server/sse/manager.ts:13-20 | A group is destroyed iff it has no client, or its job is not running and no queued task matches its SteamID and year. It is sent a position iff it has a client and a task matches. The position is the 1-based index of the first match. |
| SseManager.JobIdSplits | src/lib/server/sse/manager.ts:15 | `split('-')` of `"<steamid>-<year>"` gives back the SteamID and the year text when neither contains a dash. |
| SseManager.JobIdRoundTrip | src/lib/server/sse/manager.ts:15-16 | The job id built at `src/routes/u/[id=id]/[year=year]/_sse/+server.ts:41` reads back as its SteamID and the decimal value of its year. |
| SseManager.SSEGroup.constructor | src/lib/server/sse/manager.ts:41-46 | A new group belongs to its manager, has its id and no client. |
| SseManager.SSEGroup.Add | src/lib/server/sse/manager.ts:48-64 | A connection that is not ready is ignored. A ready one first receives `init{id, streaming: true}`, is then registered under its id, and the id is returned. |
| SseManager.SSEGroup.OnClose | src/lib/server/sse/manager.ts:58-61 | The close handler removes exactly that connection's id from the group. |
| SseManager.SSEGroup.Close | src/lib/server/sse/manager.ts:66-72 | The answer is `true` iff the id is a client. The connection is then closed and leaves the group. Other clients keep their state and nothing is sent. |
| SseManager.SSEGroup.Send | src/lib/server/sse/manager.ts:74-76 | Every client currently in the group receives the event, and the membership is unchanged. |
| SseManager.SSEGroup.Destroy | src/lib/server/sse/manager.ts:78-82 | Every client is closed and leaves the group, and the group leaves its manager's `jobGroups`. |
| SseManager.SSEManager.constructor | src/lib/server/sse/manager.ts:6-8 | A new manager has no group. |
| SseManager.SSEManager.Push | src/lib/server/sse/manager.ts:25-29 | The group for the job id is reused, or created fresh with no event sent and registered, so there is one group per id; no other group changes. A ready connection receives `init{id, streaming: true}` and joins the group under its id; any other connection is ignored and receives nothing. |
| SseManager.SSEManager.GroupFor | src/lib/server/sse/manager.ts:26-27 | `get(jobId) ?? new SSEGroup` then `set`: the existing group, or a fresh empty one now registered under the id; no other registration changes. |
| SseManager.SSEManager.Join | src/lib/server/sse/manager.ts:28 | `group.add(connection)` for a registered group: a ready connection joins its clients and receives `init`; otherwise the group and the connection are unchanged. |
| SseManager.SSEManager.DestroyGroup | src/lib/server/sse/manager.ts:13-18 | The manager's view takes one `Step` dropping that group: it leaves `jobGroups` with no client, its clients are closed and receive nothing, and every other group and connection is unchanged. |
| SseManager.SSEManager.NotifyGroup | src/lib/server/sse/manager.ts:19-20 | The manager's view takes one `Step` notifying that group: it and each of its clients receive exactly the `In queue` update, and every other group and connection is unchanged. |
| SseManager.SSEManager.SweepGroup | src/lib/server/sse/manager.ts:12-21 | One group of the sweep is destroyed, told its queue position or left alone, exactly as `SweepAction` decides on its clients, and the manager's view takes that one `Step`. |
| SseManager.SSEManager.SweepAll | src/lib/server/sse/manager.ts:11-22 | The loop over the groups sweeps each registered group once, in some order, with the action its clients before the sweep decide; the manager's view is the `Fold` of those steps. |
| SseManager.SSEManager.OnIntervalTick | src/lib/server/sse/manager.ts:10-23 | The groups left are exactly those `SweepAction` keeps, unchanged as objects. Each destroyed group has no client left and its clients are closed and receive nothing. Each client of a queued group receives exactly its position update, and each group exactly the events its action sends. A connection in no group is unchanged. |
| SseManager.SSEManager.SweepOutcome | src/lib/server/sse/manager.ts:10-23 | Once every group was swept once, the registry, the groups' views and the connections' views are what each group's own action makes of them, and the manager is valid again. |
| SseManager.SSEManager.Destroy | src/lib/server/sse/manager.ts:31-34 | Every group is destroyed and no group is left. Every client of a group is closed and receives nothing, and a connection in no group is unchanged. |
| SseManager.SSEManager.DestroyAll | src/lib/server/sse/manager.ts:33 | The loop of `destroy()` drops each registered group once, in some order; the manager's view is the `Fold` of those drops. |
| SseManager.FoldAll | src/lib/server/sse/manager.ts:12-33 | After every group is swept once, in any order, with disjoint clients: the dropped jobs leave the registry, each group is what its action makes of it, each client is what its group's action makes of it, and other connections are unchanged. |
| SseManager.CoherentDisjoint | src/lib/server/sse/manager.ts:55 | Groups that store each client under its own id, with no id shared across jobs, share no connection. |
| Util.ClampYear | src/lib/util.ts:9-14 | A year that is NaN or 0 gives the latest year. A year within [MIN_YEAR, latest] is kept, a nonzero year below MIN_YEAR gives MIN_YEAR, and a year above latest gives latest (MIN_YEAR when latest is below MIN_YEAR, as `Math.max` is applied last). The result lies in [MIN_YEAR, latest] whenever latest >= MIN_YEAR. |
| Util.DictionaryShape | src/lib/util.ts:16-33 | The dictionary pairs the 16 consonants `bcdfghjkmnpqrtvw` in order with the hex digits `0-9a-f`; letters and digits are each distinct. |
| Util.DictionaryIsBijection | src/lib/util.ts:16-33 | A letter decodes iff it is one of the 16 consonants, and a digit encodes iff it is a lower-case hex digit. Decoding and encoding are inverse both ways. |
| Util.HexForLetterIsHex | src/lib/util.ts:37 | Every letter decodes to a lower-case hex digit. |
| Util.FindEntry | src/lib/util.ts:49 | A found dictionary entry has the searched key or value; none means no entry has it. |
| Util.MappedDigits | src/lib/util.ts:37 | Mapping and filtering never lengthens the code. |
| Util.MappedDigitsAreHex | src/lib/util.ts:37 | What the mapped digits hold is a hex digit string. |
| Util.OrDisjoint | src/lib/util.ts:38 | OR-ing a value below 2^k into a multiple of 2^k adds it. |
| Util.SteamIdBaseOr | src/lib/util.ts:38 | OR-ing an account id below 2^32 into the fixed high bits is their sum. |
| Util.LettersOf | src/lib/util.ts:49 | Encoding never lengthens the text. |
| Util.LettersRoundTrip | src/lib/util.ts:49 | Hex digits encode to as many dictionary letters, which decode back to the same digits. |
| Util.DigitsRoundTrip | src/lib/util.ts:37 | Dictionary letters decode to as many digits, each the letter's own, which encode back to the same letters. |
| Util.CanonicalDigits | src/lib/util.ts:37 | The digits of a code of dictionary letters are canonical lower-case hex, with no leading zero unless the code starts with `b`. |
| Util.InviteUrlToSteamID | src/lib/util.ts:35-42 | The SteamID an invite code denotes, exactly (see `Util.InviteUrlToSteamID` under "## Left out" for the source's rounding), `None` when no character maps to a digit. Stated by `CodeRoundTrip`, `IdRoundTrip` and `InviteCodeParam.DashesOnly`. |
| Util.SteamIdToInviteUrl | src/lib/util.ts:44-53 | The invite code of a SteamID, `None` when `BigInt` rejects it. Stated by `IdRoundTrip` and `CodeRoundTrip`. |
| Util.IdRoundTrip | src/lib/util.ts:35-53 | Encoding any id and decoding the code gives the fixed high bits plus the id's low 32 bits. |
| Util.CodeRoundTrip | src/lib/util.ts:35-53 | A non-empty code of dictionary letters that does not start with `b` and whose value fits in 32 bits decodes, and re-encodes to itself. |
| ServerUtil.ParseYear | src/lib/server/util.ts:3-17 | Without `?year=20` in the raw URL, or without a `year` value, the result is the latest year. Any other result is a `20dd` value within [MIN_YEAR, latest], and such a value is always taken. The result lies in [MIN_YEAR, latest] whenever latest >= MIN_YEAR. |
| ServerUtil.MalformedIgnored | src/lib/server/util.ts:10 | A value other than `20dd` never changes the result. |
| ServerUtil.QueryNeedsMarker | src/lib/server/util.ts:7 | A URL without the text `?year=20` yields the latest year, whatever the query holds. |
| YearParam.YearOf | src/params/year.ts:5 | A `20dd` string denotes a year from 2000 to 2099. |
| YearParam.YearString | src/params/year.ts:5 | Every year from 2000 to 2099 has a `20dd` spelling that denotes it. |
| YearParam.FullYearValue | src/params/year.ts:5 | The four digits of a `20dd` string denote its year. |
| YearParam.ParseFullYear | src/params/year.ts:5 | `parseInt` reads a `20dd` string as its year. |
| YearParam.Match | src/params/year.ts:5 | The route matcher `match`. Stated by `MatchIff`, `AcceptedIsYearString` and `YearStringAccepted`. |
| YearParam.MatchIff | src/params/year.ts:5 | A segment is accepted iff it is exactly `20dd` and its year lies within [MIN_YEAR, CURRENT_YEAR]. |
| YearParam.AcceptedIsYearString | src/params/year.ts:5 | An accepted segment is the spelling of a year from max(MIN_YEAR, 2000) to min(CURRENT_YEAR, 2099). |
| YearParam.SpellingUnique | src/params/year.ts:5 | Two `20dd` strings of the same year are equal. |
| YearParam.YearStringAccepted | src/params/year.ts:5 | The spelling of every year in that range is accepted, so the accepted set is the whole contiguous range. |
| ShortYearParam.ParseLeadingY | src/params/shortyear.ts:5 | `parseInt` of text starting with `y` is NaN. |
| ShortYearParam.Match | src/params/shortyear.ts:5 | The route matcher `match`. Stated by `MatchIff`. |
| ShortYearParam.MatchIff | src/params/shortyear.ts:5 | A segment is accepted iff it is one `y` and two digits dd with MIN_YEAR - 2000 <= dd and 2000 + dd <= CURRENT_YEAR. Hence `yy23`, `Y23`, `y2` and `y202` are rejected. |
| ShortYearParam.ParseTwoDigits | src/params/shortyear.ts:5 | `parseInt` reads two digits dd as dd. |
| ShortYearParam.TwoDigitValue | src/params/shortyear.ts:5 | Two digits denote the number 10 times the first plus the second. |
| IdParam.DecimalDigits | src/params/id.ts:4 | A non-empty ASCII digit string is a decimal digit string. |
| IdParam.TrimDigits | src/params/id.ts:4 | `BigInt`'s trim leaves a digit string unchanged. |
| IdParam.LiteralOfDigits | src/params/id.ts:4 | `BigInt` reads an untrimmed digit string as its decimal value. |
| IdParam.BigIntOfDigits | src/params/id.ts:4 | `BigInt` reads a digit string as its decimal value. |
| IdParam.Match | src/params/id.ts:4 | The route matcher `match`. Stated by `MatchIff`, `LeadingZeroIgnored` and `ShortIdsRejected`. |
| IdParam.MatchIff | src/params/id.ts:4 | A segment is accepted iff it is a non-empty digit string whose value is at least 76561197962146232. |
| IdParam.LeadingZeroIgnored | src/params/id.ts:4 | Prefixing a zero never changes the verdict. |
| IdParam.ShortIdsRejected | src/params/id.ts:4 | Every digit string of 16 or fewer digits is rejected. |
| VanityUrlParam.Match | src/params/vanityurl.ts:4 | The route matcher `match`. Stated by `MatchIff` and `CaseInsensitive`. |
| VanityUrlParam.MatchIff | src/params/vanityurl.ts:4 | A segment is accepted iff it has 2 to 32 characters, each an ASCII letter of either case or a digit. Lower-casing is ASCII only here, so the few non-ASCII characters that `toLowerCase` maps to an ASCII letter are rejected (see `VanityUrlParam.MatchIff` under "## Left out"). |
| VanityUrlParam.CaseInsensitive | src/params/vanityurl.ts:4 | A segment and its lower-cased form get the same verdict. |
| InviteCodeParam.Match | src/params/invitecode.ts:4 | The route matcher `match`. Stated by `AlphabetIsDictionary`, `AcceptedDecodable` and `DashesOnly`. |
| InviteCodeParam.AlphabetIsDictionary | src/params/invitecode.ts:4 | The characters the pattern allows are the dash and exactly the letters the invite-code dictionary decodes. |
| InviteCodeParam.AcceptedDecodable | src/params/invitecode.ts:4 | Every non-dash character of an accepted code decodes to a hex digit. |
| InviteCodeParam.NoDigits | src/lib/util.ts:37 | A code maps to no digit iff none of its characters is a dictionary letter. |
| InviteCodeParam.DashesOnly | src/params/invitecode.ts:4 | An accepted code fails to decode exactly when it consists of dashes only. |
| InviteCodeParam.AllDashesExample | src/params/invitecode.ts:4 | `----` is accepted by the matcher, yet decodes to nothing. |
| LoginCallback.VerificationQuery | src/routes/login/callback/+server.ts:35-46 | The `check_authentication` query has the ten required fields, in the order of `REQUIRED_PARAMS`. |
| LoginCallback.QueryCopiesAssertion | src/routes/login/callback/+server.ts:35-46 | The query sets `mode` to `check_authentication`, `return_to` to the configured callback, and the fixed namespace and endpoint. The six other fields are copied verbatim from the request. |
| LoginCallback.RequiredIffPresent | src/routes/login/callback/+server.ts:23 | The `map(...).includes(false)` test passes exactly when all ten required parameters are present. |
| LoginCallback.AcceptedIffNotRejected | src/routes/login/callback/+server.ts:22-33 | The early-rejection test fails exactly when the assertion is `Accepted`: every required parameter is present, the namespace, mode, endpoint and `return_to` have their fixed values, and `claimed_id` starts with the Steam prefix and equals `identity`. |
| LoginCallback.Callback | src/routes/login/callback/+server.ts:21-58 | A session is created iff the assertion is `Accepted` and Steam answers 200 with `is_valid:true`. Failure redirects 302 to `/#login_fail`. On success the SteamID is the identity after the prefix, the cookie lives 7 days on path `/`, and the redirect is 307 to `/u/<steamid>/<latest>`. |
| LoginCallback.InvalidVerificationFails | src/routes/login/callback/+server.ts:48-50 | An answer without `is_valid:true` never logs in, however well-formed the assertion. |
| Text.ParseInt | src/lib/server/sse/manager.ts:16 | `parseInt(s, radix)` as JavaScript defines it. Stated by `ParseIntDecimal` and `ParseIntUnsigned`, and by the `parseInt` lemmas of the matchers. |
| Text.ParseIntDecimal | src/lib/server/sse/manager.ts:16 | `parseInt`, with or without radix 10, reads a non-empty decimal digit string as its value. |
| Text.ParseIntUnsigned | src/lib/server/sse/manager.ts:16 | `parseInt` reads text without leading space, sign or hex prefix as its decimal digit prefix. |
| Text.Digits | src/lib/util.ts:49 | `toString(radix)` prints a non-empty digit string without a leading zero (`0` for zero), in lower-case digits. |
| Text.ValueOfDigits | src/lib/util.ts:49 | The printed digits read back as the number printed. |
| Text.DigitsOfValue | src/lib/util.ts:49 | Printing the value of a canonical digit string gives the string back. |
| Text.ValueLeadingZero | src/params/id.ts:4 | A leading zero does not change a digit string's value. |
| Text.ValueBound | src/params/id.ts:4 | A k-digit string denotes a number below radix^k. |

## Left out

- `getAppInfo`, `getCachedYearInReview` and `getCachedAchievementData` of `data.ts` are not part of this model. The first reads the product-info client of a foreign library.
- JSON encoding: each Redis key holds the typed document its JSON text encodes, so parsing what was written gives back the document. The `"null"` text a failed fetch stores is `None`.
- Expiry is recorded with each write but entries never expire. The Redis client and HTTP calls are abstracted as an `Upstream` value; `Date.now()` is the `now` parameter, one instant per call.
- Data.GetAppNames: requires that every answered app-list page is non-empty and ends above the id it was asked to start after (`PagesAdvance`). Without this the source throws on an empty page or asks for the same page forever.
- Data.GetUser: the effect of `loggedInUser` on the fetch is inside the fetch, which is an input here.
- Data.GetGameAchievements: computes the corrected merge, where a retained achievement's `removedAt` is looked up by id. The code as written looks it up by display name (`data.ts:288`); that version is `GameAchievementsMerge.MergeAsWritten`, see "## Findings".
- Data.GetUserYearAchievements: computes the corrected fold, which sums each total over the batches. The code as written keeps the last batch's value (`data.ts:344-348`); that version is `YearAchievementsFold.FoldAsWritten`, see "## Findings".
- RefreshQueue.Work: the effect it and `RefreshQueue.Queue.Step` state (`Effect`, and `RefreshQueue.EffectFollowsPlan` about it) uses the two corrected definitions above, not the code as written.
- GameAchievementsMerge.Merge: a schema with `availableGameStats` but no `achievements` list makes the source's filter throw. The model treats it like a schema without achievements.
- PlayerUnlocks.RefreshPlayer: a successful answer without an achievements list makes the source throw. The model always has a (possibly empty) list.
- YearAchievementsFold.EmptyPart: an answer whose only keys are ones the model does not name counts as empty here, but is non-empty to `Object.keys`.
- RefreshQueue.Queue.Step: the fastq library's scheduling is assumed FIFO with one task at a time. Logging of `reason` is left out.
- SseManager: the connection class of `./client` is not part of this model. A connection is abstract: an id, a ready state, and the log of events sent to it. `close` fires the close handler at once.
- SseManager.SSEGroup.Close: a connection shared by two groups has only this group's close handler run.
- SseManager.SSEManager.Push: requires that no other job's group already holds a client under the connection's id, which keeps client ids unique across groups. The route creates a fresh connection for every request (`src/routes/u/[id=id]/[year=year]/_sse/+server.ts:71-72`), so the source never breaks this.
- SseManager.SSEManager.OnIntervalTick: the aggregation queue `achQ` and the `runningAchJob` marker are not part of this model. They are inputs here: the queued tasks, and the running job id (`None` when nothing runs). The `setInterval` timer, `clearInterval` and the unused `subscribed` flag are left out.
- SseManager.SSEManager.OnIntervalTick: groups are visited in an unspecified order rather than Map insertion order. In the model one group's step never affects another group.
- Text.Lower: only ASCII letters are lower-cased; full Unicode case mapping is left out.
- VanityUrlParam.MatchIff: the source lower-cases with full Unicode case mapping, so it also accepts a segment holding the Kelvin sign U+212A, which `toLowerCase` maps to `k`. The model, lower-casing ASCII only, rejects it.
- Text.ParseInt: exact integers; the precision of JavaScript numbers beyond 2^53 is left out.
- Util.InviteUrlToSteamID: the decoded value is exact. The source reads the hex digits with `parseInt(…, 16)`, a JavaScript number, before `BigInt`. From 14 mapped letters on, the value can exceed 2^53 and the source rounds it (`cbbbbbbbbbbbbbc` reads as the account id 2^56 there, 2^56 + 1 here). From 257 significant hex digits on, `parseInt` gives `Infinity`, `BigInt` throws, and the source returns `null` where the model returns a value. Neither case is reachable through the routes, whose matcher (src/params/invitecode.ts:4) admits at most 9 letters.
- Util.ClampYear: a number argument is integral here; `Math.round` of a fraction, and infinities, are left out.
- LoginCallback.Callback: a repeated query parameter is represented by its first value. URL encoding of the query, signing of the session token, and logging are left out.
- `getLatestYear`, `MIN_YEAR`/`CURRENT_YEAR` of `$lib/constants` and the configured callback URL are parameters, and `relativeTime` is left out.

## Findings

| source | as written | input that shows it | evidently intended | confidence | as-written member | corrected member |
|---|---|---|---|---|---|---|
| src/lib/server/data.ts:288 | the `removedAt` of a retained achievement is looked up with `a.id === ach.name`, i.e. by display name | cached {id "A", name "Alpha", removedAt 100}, absent from the schema, refetched at 200: kept with removedAt 200 | look up by `ach.id`, so the first removal time survives refetches | not executed | GameAchievementsMerge.RemovedAtResetAsWritten | GameAchievementsMerge.MergeIdempotent |
| src/lib/server/data.ts:344-348 | `result.total =+ x` parses as `result.total = +x`, so each total is the last reporting batch's value | two batches reporting 5 and 3 achievements: total 3 | `+=`, summing over the batches | not executed | YearAchievementsFold.TotalsOverwrittenAsWritten | YearAchievementsFold.TotalsAreSums |

=== FILE: data.dfy ===
/**
 * The read-or-fetch operations of `src/lib/server/data.ts`. Each reads its Redis key, answers
 * from the cache when there is a cached value, and otherwise asks the Steam Web API (an
 * `Upstream`) and writes what it computed. `getAppNames` serves any stored name, `""` included;
 * the other getters test the cached text for truthiness, so only `getVanityResolution`, whose
 * text is not JSON, refetches a cached `""`. `now` stands for `Date.now()`.
 */
module Data {
  import opened Wrappers
  import opened Documents
  import opened Store
  import GameAchievementsMerge
  import YearAchievementsFold
  import PlayerUnlocks

  // ---------------------------------------------------------------------------------------------
  // getAppNames

  /**
   * What `getAppNames` relies on from `GetAppList`: an answered page is non-empty and ends with
   * an id above the one it was asked to start after. Without it the source throws on an empty
   * page or asks for the same page forever.
   */
  ghost predicate PagesAdvance(up: Upstream) {
    forall after :: up.appList(after).Some? ==>
      |up.appList(after).value| > 0 && up.appList(after).value[|up.appList(after).value| - 1].appid > after
  }

  /** Every app-list request is answered. */
  ghost predicate ListingAnswers(up: Upstream) {
    forall after :: up.appList(after).Some?
  }

  function Ids(page: seq<SteamApp>): set<nat> {
    set a | a in page :: a.appid
  }

  /** Some fetched page lists `id`. */
  predicate Listed(pages: seq<seq<SteamApp>>, id: nat) {
    exists p :: p in pages && id in Ids(p)
  }

  /** The name the last page listing `id` gives it, at its last entry there. */
  function LatestName(pages: seq<seq<SteamApp>>, id: nat): string {
    if pages == [] then ""
    else if id in Ids(pages[|pages| - 1]) then LastName(pages[|pages| - 1], id)
    else LatestName(pages[..|pages| - 1], id)
  }

  /** Some fetched page ends at or above `id`: `getAppNames` has settled it. */
  predicate Reached(pages: seq<seq<SteamApp>>, id: nat) {
    exists p: seq<SteamApp> :: p in pages && p != [] && p[|p| - 1].appid >= id
  }

  /** The smallest element of a set of ids. */
  ghost function SetMin(s: set<nat>): (m: nat)
    requires s != {}
    ensures m in s && forall x :: x in s ==> m <= x
    decreases |s|
  {
    var y :| y in s;
    if s == {y} then y
    else
      var m := SetMin(s - {y});
      assert forall x :: x in s ==> x == y || x in s - {y};
      if y < m then y else m
  }

  /**
   * The pages `getAppNames` fetches while the ids `pending` are neither cached nor settled: the
   * page after the smallest pending id less one, then the pages for the ids above that page's
   * last id, until none is pending or a request goes unanswered.
   */
  ghost function AppPages(up: Upstream, pending: set<nat>): seq<seq<SteamApp>>
    requires PagesAdvance(up)
    decreases pending
  {
    if pending == {} then []
    else
      match up.appList(SetMin(pending) - 1)
      case None => []
      case Some(page) =>
        var rest := set x | x in pending && x > page[|page| - 1].appid;
        assert SetMin(pending) !in rest;
        [page] + AppPages(up, rest)
  }

  /** The ids of a pending list. */
  function SetOf(s: seq<nat>): set<nat> { set x | x in s }

  /** An answered page is the next one, and the ids above its last one are what remains pending. */
  lemma AppPagesStep(up: Upstream, idsLeft: seq<nat>, page: seq<SteamApp>, kept: seq<nat>)
    requires PagesAdvance(up) && idsLeft != []
    requires up.appList(MinOf(idsLeft) - 1) == Some(page)
    requires forall x :: x in kept <==> x in idsLeft && x > page[|page| - 1].appid
    ensures AppPages(up, SetOf(idsLeft)) == [page] + AppPages(up, SetOf(kept))
  {
    var left := SetOf(idsLeft);
    assert MinOf(idsLeft) in left;
    assert SetMin(left) in idsLeft;
    assert SetMin(left) == MinOf(idsLeft);
    assert up.appList(SetMin(left) - 1) == Some(page);
    var above := set x | x in left && x > page[|page| - 1].appid;
    assert AppPages(up, left) == [page] + AppPages(up, above);
    assert SetOf(kept) == above;
  }

  /** An unanswered request ends the pages. */
  lemma AppPagesStop(up: Upstream, idsLeft: seq<nat>)
    requires PagesAdvance(up) && idsLeft != []
    requires up.appList(MinOf(idsLeft) - 1).None?
    ensures AppPages(up, SetOf(idsLeft)) == []
  {
    var left := SetOf(idsLeft);
    assert MinOf(idsLeft) in left;
    assert SetMin(left) in idsLeft;
    assert SetMin(left) == MinOf(idsLeft);
  }

  /** The requested ids the cache does not name. */
  function Uncached(appids: seq<nat>, cache: map<nat, Entry<string>>): set<nat> {
    set id | id in appids && id !in cache
  }

  /** The smallest id still pending. */
  function MinOf(s: seq<nat>): (m: nat)
    requires s != []
    ensures m in s && forall x :: x in s ==> m <= x
  {
    if |s| == 1 then s[0]
    else
      var t := MinOf(s[1..]);
      assert forall x :: x in s ==> x == s[0] || x in s[1..];
      if s[0] <= t then s[0] else t
  }

  /** `Set.delete`. */
  function Remove(s: seq<nat>, x: nat): (r: seq<nat>)
    ensures forall y :: y in r <==> y in s && y != x
  {
    if s == [] then [] else if s[0] == x then Remove(s[1..], x) else [s[0]] + Remove(s[1..], x)
  }

  /**
   * The loop over a fetched page: every requested id it lists takes the name of its last entry
   * there.
   */
  method TakeNames(results: map<nat, string>, page: seq<SteamApp>, appids: seq<nat>) returns (r: map<nat, string>)
    ensures forall id :: id in r <==> id in results || (id in appids && id in Ids(page))
    ensures forall id :: id in appids && id in Ids(page) ==> r[id] == LastName(page, id)
    ensures forall id :: id in results && !(id in appids && id in Ids(page)) ==> r[id] == results[id]
  {
    r := results;
    for j := 0 to |page|
      invariant forall id :: id in r <==> id in results || (id in appids && id in Ids(page[..j]))
      invariant forall id :: id in appids && id in Ids(page[..j]) ==> r[id] == LastName(page[..j], id)
      invariant forall id :: id in results && !(id in appids && id in Ids(page[..j])) ==> r[id] == results[id]
    {
      assert Ids(page[..j + 1]) == Ids(page[..j]) + {page[j].appid} by {
        assert page[..j + 1] == page[..j] + [page[j]];
      }
      assert page[..j + 1][..j] == page[..j];
      if page[j].appid in appids {
        r := r[page[j].appid := page[j].name];
      }
    }
    assert page[..|page|] == page;
  }

  /**
   * The `forEach` over the pending ids once a page ending at `largest` is in: ids up to `largest`
   * leave the pending list, and those without a (non-empty) name become `""` and are reported
   * as missed.
   */
  method SettlePending(results: map<nat, string>, idsLeft: seq<nat>, largest: nat)
    returns (r: map<nat, string>, kept: seq<nat>, missed: seq<nat>)
    ensures forall id :: id in r <==> id in results || (id in idsLeft && id <= largest)
    ensures forall id :: id in results ==> r[id] == results[id]
    ensures forall id :: id in r && id !in results ==> r[id] == ""
    ensures forall x :: x in kept <==> x in idsLeft && x > largest
    ensures forall x :: x in missed <==> x in idsLeft && x <= largest && (x !in results || results[x] == "")
    ensures |kept| <= |idsLeft| && ((exists x :: x in idsLeft && x <= largest) ==> |kept| < |idsLeft|)
  {
    r, kept, missed := results, [], [];
    ghost var dropped := 0;
    for k := 0 to |idsLeft|
      invariant forall id :: id in r <==> id in results || (id in idsLeft[..k] && id <= largest)
      invariant forall id :: id in results ==> r[id] == results[id]
      invariant forall id :: id in r && id !in results ==> r[id] == ""
      invariant forall x :: x in kept <==> x in idsLeft[..k] && x > largest
      invariant forall x :: x in missed <==> x in idsLeft[..k] && x <= largest && (x !in results || results[x] == "")
      invariant |kept| + dropped == k
      invariant (exists x :: x in idsLeft[..k] && x <= largest) ==> dropped > 0
    {
      var id := idsLeft[k];
      assert idsLeft[..k + 1] == idsLeft[..k] + [id];
      if id <= largest {
        if id !in r || r[id] == "" {
          r := r[id := ""];
          missed := missed + [id];
        }
        dropped := dropped + 1;
      } else {
        kept := kept + [id];
      }
    }
    assert idsLeft[..|idsLeft|] == idsLeft;
  }

  /**
   * What holds of the answers of `getAppNames` between pages, against the cache `cache0` it
   * started from and the pages `pages` fetched so far: answers are for requested ids only and
   * include every cached one; a requested id is answered or pending; pending ids are requested
   * and were not cached; an answered id that was not cached was listed by a page or settled by
   * one; a cached name stands until a page lists the id; and a listed id has the name of its
   * latest listing.
   */
  ghost predicate Answers(appids: seq<nat>, cache0: map<nat, Entry<string>>, results: map<nat, string>,
                          idsLeft: seq<nat>, pages: seq<seq<SteamApp>>)
  {
    (forall id :: id in results ==> id in appids) &&
    (forall id :: id in appids && id in cache0 ==> id in results) &&
    (forall id :: id in appids ==> id in results || id in idsLeft) &&
    (forall id :: id in idsLeft ==> id in appids && id !in cache0) &&
    (forall id :: id in results && id !in cache0 ==> Listed(pages, id) || Reached(pages, id)) &&
    (forall id :: id in appids && id in cache0 && !Listed(pages, id) ==>
      id in results && results[id] == cache0[id].value) &&
    (forall id :: id in appids && Listed(pages, id) ==> id in results && results[id] == LatestName(pages, id))
  }

  /**
   * What holds of the store between pages: an id neither cached nor listed is answered `""` and
   * cached as such for a day; a listed id is stored under the name of its latest listing, with an
   * expiry only if it was requested (and settled as missed); and the store holds exactly what it
   * held, every listed id and every answered id, with the entries of ids no page lists unchanged.
   */
  ghost predicate Stored(appids: seq<nat>, cache0: map<nat, Entry<string>>, store: map<nat, Entry<string>>,
                         results: map<nat, string>, pages: seq<seq<SteamApp>>)
  {
    (forall id :: id in results && id !in cache0 && !Listed(pages, id) ==>
      results[id] == "" && id in store && store[id] == Entry("", Some(MissedAppTtl))) &&
    cache0.Keys <= store.Keys &&
    (forall id :: Listed(pages, id) ==>
      id in store && store[id].value == LatestName(pages, id) && (store[id].ttl.Some? ==> id in appids)) &&
    (forall id :: id in results ==> id in store) &&
    (forall id :: id in store ==> id in cache0 || Listed(pages, id) || id in results) &&
    (forall id :: id in cache0 && !Listed(pages, id) ==> store[id] == cache0[id])
  }

  /** The loop invariant of `getAppNames`. */
  ghost predicate Progress(appids: seq<nat>, cache0: map<nat, Entry<string>>, store: map<nat, Entry<string>>,
                           results: map<nat, string>, idsLeft: seq<nat>, pages: seq<seq<SteamApp>>)
  {
    Answers(appids, cache0, results, idsLeft, pages) && Stored(appids, cache0, store, results, pages)
  }

  /** Between pages, the pending ids are the requested ids neither cached nor reached by a page. */
  ghost predicate Pending(appids: seq<nat>, cache0: map<nat, Entry<string>>, idsLeft: seq<nat>, pages: seq<seq<SteamApp>>) {
    forall id :: id in idsLeft <==> id in appids && id !in cache0 && !Reached(pages, id)
  }

  /** Taking the names of a page and storing it keeps `Progress`, with the page logged. */
  lemma PageStep(appids: seq<nat>, cache0: map<nat, Entry<string>>, store: map<nat, Entry<string>>, store1: map<nat, Entry<string>>,
                 results: map<nat, string>, named: map<nat, string>, idsLeft: seq<nat>, pages: seq<seq<SteamApp>>, apps: seq<SteamApp>)
    requires Progress(appids, cache0, store, results, idsLeft, pages)
    requires forall id :: id in named <==> id in results || (id in appids && id in Ids(apps))
    requires forall id :: id in appids && id in Ids(apps) ==> named[id] == LastName(apps, id)
    requires forall id :: id in results && !(id in appids && id in Ids(apps)) ==> named[id] == results[id]
    requires store1.Keys == store.Keys + Ids(apps)
    requires forall id :: id in store && id !in Ids(apps) ==> store1[id] == store[id]
    requires forall a :: a in apps ==> store1[a.appid] == Entry(LastName(apps, a.appid), None)
    ensures Progress(appids, cache0, store1, named, idsLeft, pages + [apps])
  {
    ListedExtend(pages, apps);
    ReachedExtend(pages, apps);
    PageAnswers(appids, cache0, results, named, idsLeft, pages, apps);
    PageStored(appids, cache0, store, store1, results, named, pages, apps);
  }

  lemma PageAnswers(appids: seq<nat>, cache0: map<nat, Entry<string>>, results: map<nat, string>, named: map<nat, string>,
                    idsLeft: seq<nat>, pages: seq<seq<SteamApp>>, apps: seq<SteamApp>)
    requires Answers(appids, cache0, results, idsLeft, pages)
    requires forall id :: Listed(pages + [apps], id) <==> Listed(pages, id) || id in Ids(apps)
    requires forall id :: Reached(pages, id) ==> Reached(pages + [apps], id)
    requires forall id :: LatestName(pages + [apps], id) == if id in Ids(apps) then LastName(apps, id) else LatestName(pages, id)
    requires forall id :: id in named <==> id in results || (id in appids && id in Ids(apps))
    requires forall id :: id in appids && id in Ids(apps) ==> named[id] == LastName(apps, id)
    requires forall id :: id in results && !(id in appids && id in Ids(apps)) ==> named[id] == results[id]
    ensures Answers(appids, cache0, named, idsLeft, pages + [apps])
  {
  }

  lemma PageStored(appids: seq<nat>, cache0: map<nat, Entry<string>>, store: map<nat, Entry<string>>, store1: map<nat, Entry<string>>,
                   results: map<nat, string>, named: map<nat, string>, pages: seq<seq<SteamApp>>, apps: seq<SteamApp>)
    requires Stored(appids, cache0, store, results, pages)
    requires forall id :: Listed(pages + [apps], id) <==> Listed(pages, id) || id in Ids(apps)
    requires forall id :: LatestName(pages + [apps], id) == if id in Ids(apps) then LastName(apps, id) else LatestName(pages, id)
    requires forall id :: id in named <==> id in results || (id in appids && id in Ids(apps))
    requires forall id :: id in results && !(id in appids && id in Ids(apps)) ==> named[id] == results[id]
    requires store1.Keys == store.Keys + Ids(apps)
    requires forall id :: id in store && id !in Ids(apps) ==> store1[id] == store[id]
    requires forall a :: a in apps ==> store1[a.appid] == Entry(LastName(apps, a.appid), None)
    ensures Stored(appids, cache0, store1, named, pages + [apps])
  {
    var all := pages + [apps];
    forall id | id in named && id !in cache0 && !Listed(all, id)
      ensures named[id] == "" && id in store1 && store1[id] == Entry("", Some(MissedAppTtl))
    {
      assert id !in Ids(apps) && id in results;
    }
    forall id | Listed(all, id)
      ensures id in store1 && store1[id].value == LatestName(all, id) && (store1[id].ttl.Some? ==> id in appids)
    {
      if id in Ids(apps) {
        var a :| a in apps && a.appid == id;
      } else {
        assert Listed(pages, id);
      }
    }
    forall id | id in cache0 && !Listed(all, id) ensures store1[id] == cache0[id] {
      assert id !in Ids(apps);
    }
    assert forall id :: id in named ==> id in store1;
    assert forall id :: id in store1 ==> id in cache0 || Listed(all, id) || id in named;
  }

  /** Settling the pending ids up to `largest` and storing the missed ones keeps `Progress`. */
  lemma SettleStep(appids: seq<nat>, cache0: map<nat, Entry<string>>, store: map<nat, Entry<string>>, store2: map<nat, Entry<string>>,
                   results: map<nat, string>, r: map<nat, string>, idsLeft: seq<nat>, kept: seq<nat>, missed: seq<nat>,
                   largest: nat, pages: seq<seq<SteamApp>>)
    requires Progress(appids, cache0, store, results, idsLeft, pages)
    requires forall id: nat :: id <= largest ==> Reached(pages, id)
    requires forall id :: id in r <==> id in results || (id in idsLeft && id <= largest)
    requires forall id :: id in results ==> r[id] == results[id]
    requires forall id :: id in r && id !in results ==> r[id] == ""
    requires forall x :: x in kept <==> x in idsLeft && x > largest
    requires forall x :: x in missed <==> x in idsLeft && x <= largest && (x !in results || results[x] == "")
    requires store2.Keys == store.Keys + set id | id in missed
    requires forall id :: id in missed ==> store2[id] == Entry("", Some(MissedAppTtl))
    requires forall id :: id in store && id !in missed ==> store2[id] == store[id]
    ensures Progress(appids, cache0, store2, r, kept, pages)
  {
    SettleAnswers(appids, cache0, results, r, idsLeft, kept, largest, pages);
    SettleStored(appids, cache0, store, store2, results, r, idsLeft, missed, largest, pages);
  }

  lemma SettleAnswers(appids: seq<nat>, cache0: map<nat, Entry<string>>, results: map<nat, string>, r: map<nat, string>,
                      idsLeft: seq<nat>, kept: seq<nat>, largest: nat, pages: seq<seq<SteamApp>>)
    requires Answers(appids, cache0, results, idsLeft, pages)
    requires forall id: nat :: id <= largest ==> Reached(pages, id)
    requires forall id :: id in r <==> id in results || (id in idsLeft && id <= largest)
    requires forall id :: id in results ==> r[id] == results[id]
    requires forall x :: x in kept <==> x in idsLeft && x > largest
    ensures Answers(appids, cache0, r, kept, pages)
  {
  }

  lemma SettleStored(appids: seq<nat>, cache0: map<nat, Entry<string>>, store: map<nat, Entry<string>>, store2: map<nat, Entry<string>>,
                     results: map<nat, string>, r: map<nat, string>, idsLeft: seq<nat>, missed: seq<nat>,
                     largest: nat, pages: seq<seq<SteamApp>>)
    requires Stored(appids, cache0, store, results, pages)
    requires forall id :: id in idsLeft ==> id in appids && id !in cache0
    requires forall id :: id in appids && Listed(pages, id) ==> id in results && results[id] == LatestName(pages, id)
    requires forall id :: id in r <==> id in results || (id in idsLeft && id <= largest)
    requires forall id :: id in results ==> r[id] == results[id]
    requires forall id :: id in r && id !in results ==> r[id] == ""
    requires forall x :: x in missed <==> x in idsLeft && x <= largest && (x !in results || results[x] == "")
    requires store2.Keys == store.Keys + set id | id in missed
    requires forall id :: id in missed ==> store2[id] == Entry("", Some(MissedAppTtl))
    requires forall id :: id in store && id !in missed ==> store2[id] == store[id]
    ensures Stored(appids, cache0, store2, r, pages)
  {
  }

  /** The first loop of `getAppNames`: cached names are answered and leave the pending ids. */
  method ReadCachedNames(redis: Redis, appids: seq<nat>) returns (results: map<nat, string>, idsLeft: seq<nat>)
    ensures Progress(appids, redis.appNames, redis.appNames, results, idsLeft, [])
    ensures forall id :: id in appids ==> (id in idsLeft <==> id !in redis.appNames)
  {
    results := map[];
    idsLeft := YearAchievementsFold.Dedup(appids);
    for i := 0 to |appids|
      invariant forall id :: id in results <==> id in appids[..i] && id in redis.appNames
      invariant forall id :: id in results ==> results[id] == redis.appNames[id].value
      invariant forall id :: id in idsLeft <==> id in appids && !(id in appids[..i] && id in redis.appNames)
    {
      assert appids[..i + 1] == appids[..i] + [appids[i]];
      var id := appids[i];
      if id in redis.appNames {
        idsLeft := Remove(idsLeft, id);
        results := results[id := redis.appNames[id].value];
      }
    }
    assert appids[..|appids|] == appids;
  }

  /**
   * The body of the `while` loop of `getAppNames` for a fetched page that ends above the
   * smallest pending id: names are taken, the page is stored, pending ids up to its end are
   * settled and the missed ones stored as `""`.
   */
  method TakePage(redis: Redis, appids: seq<nat>, results: map<nat, string>, idsLeft: seq<nat>,
                  ghost cache0: map<nat, Entry<string>>, ghost pages: seq<seq<SteamApp>>, apps: seq<SteamApp>)
    returns (r: map<nat, string>, kept: seq<nat>)
    requires redis.Valid()
    requires Progress(appids, cache0, redis.appNames, results, idsLeft, pages)
    requires Pending(appids, cache0, idsLeft, pages)
    requires idsLeft != [] && apps != [] && apps[|apps| - 1].appid >= MinOf(idsLeft)
    modifies redis`appNames
    ensures redis.Valid()
    ensures Progress(appids, cache0, redis.appNames, r, kept, pages + [apps])
    ensures Pending(appids, cache0, kept, pages + [apps])
    ensures forall x :: x in kept <==> x in idsLeft && x > apps[|apps| - 1].appid
    ensures |kept| < |idsLeft|
  {
    ghost var store := redis.appNames;
    var named := TakeNames(results, apps, appids);
    redis.SetAppNames(apps);
    PageStep(appids, cache0, store, redis.appNames, results, named, idsLeft, pages, apps);

    var largest := apps[|apps| - 1].appid;
    var missed;
    store := redis.appNames;
    r, kept, missed := SettlePending(named, idsLeft, largest);
    redis.SetMissedApps(missed);
    ReachedExtend(pages, apps);
    SettleStep(appids, cache0, store, redis.appNames, named, r, idsLeft, kept, missed, largest, pages + [apps]);
  }

  /**
   * `getAppNames(appids)`: the names of the requested apps, from the cache where present and
   * otherwise from successive pages of the app list, each page stored as it arrives. `pages`
   * records the pages fetched, which are those `AppPages` determines from the upstream and the
   * requested ids the cache does not name.
   */
  method GetAppNames(redis: Redis, appids: seq<nat>, up: Upstream) returns (results: map<nat, string>, ghost pages: seq<seq<SteamApp>>)
    requires redis.Valid()
    requires PagesAdvance(up)
    modifies redis`appNames
    ensures redis.Valid()
    ensures pages == AppPages(up, Uncached(appids, old(redis.appNames)))
    // only requested ids are answered, every cached one is, and all are when the app list answers
    ensures forall id :: id in results ==> id in appids
    ensures forall id :: id in appids && id in old(redis.appNames) ==> id in results
    ensures ListingAnswers(up) ==> forall id :: id in appids ==> id in results
    // an uncached id is answered exactly when a page lists it or a page ends at or above it, even
    // when a later request goes unanswered
    ensures forall id :: id in appids && id !in old(redis.appNames) ==>
      (id in results <==> Listed(pages, id) || Reached(pages, id))
    // a cached name stands unless a page lists the id, a listed id takes the name of its latest
    // listing, and an id neither cached nor listed is answered and cached as "" for a day
    ensures forall id :: id in appids && id in old(redis.appNames) && !Listed(pages, id) ==>
      id in results && results[id] == old(redis.appNames)[id].value
    ensures forall id :: id in appids && Listed(pages, id) ==> id in results && results[id] == LatestName(pages, id)
    ensures forall id :: id in results && id !in old(redis.appNames) && !Listed(pages, id) ==>
      results[id] == "" && id in redis.appNames && redis.appNames[id] == Entry("", Some(MissedAppTtl))
    // every listed app is stored under its latest name, expiring only if it was requested (and
    // settled as missed); the cache gains exactly the listed and the answered ids, and an entry
    // no page lists is unchanged
    ensures forall id :: Listed(pages, id) ==>
      id in redis.appNames && redis.appNames[id].value == LatestName(pages, id) &&
      (redis.appNames[id].ttl.Some? ==> id in appids)
    ensures forall id :: id in redis.appNames <==> id in old(redis.appNames) || Listed(pages, id) || id in results
    ensures forall id :: id in old(redis.appNames) && !Listed(pages, id) ==> redis.appNames[id] == old(redis.appNames)[id]
  {
    ghost var cache0 := redis.appNames;
    var found, idsLeft := ReadCachedNames(redis, appids);
    PendingStart(appids, cache0, found, idsLeft);
    assert Pending(appids, cache0, idsLeft, []);
    results, idsLeft, pages := FetchPages(redis, appids, up, found, idsLeft, cache0);
    Settled(appids, cache0, redis.appNames, results, idsLeft, pages);
  }

  /**
   * The `while` loop of `getAppNames`: pages are fetched after the smallest pending id less one
   * and taken in, until nothing is pending or a request goes unanswered. The pages fetched are
   * those `AppPages` determines from the ids pending at the start, and with every request
   * answered nothing stays pending.
   */
  method FetchPages(redis: Redis, appids: seq<nat>, up: Upstream, results0: map<nat, string>, idsLeft0: seq<nat>,
                    ghost cache0: map<nat, Entry<string>>)
    returns (results: map<nat, string>, idsLeft: seq<nat>, ghost pages: seq<seq<SteamApp>>)
    requires redis.Valid()
    requires PagesAdvance(up)
    requires Progress(appids, cache0, redis.appNames, results0, idsLeft0, [])
    requires Pending(appids, cache0, idsLeft0, [])
    modifies redis`appNames
    ensures redis.Valid()
    ensures Progress(appids, cache0, redis.appNames, results, idsLeft, pages)
    ensures Pending(appids, cache0, idsLeft, pages)
    ensures pages == AppPages(up, SetOf(idsLeft0))
    ensures ListingAnswers(up) ==> idsLeft == []
  {
    results, idsLeft, pages := results0, idsLeft0, [];
    var after: int := if idsLeft != [] then MinOf(idsLeft) - 1 else -1;
    var failed := false;
    while idsLeft != []
      invariant redis.Valid()
      invariant idsLeft != [] ==> after == MinOf(idsLeft) - 1
      invariant Progress(appids, cache0, redis.appNames, results, idsLeft, pages)
      invariant Pending(appids, cache0, idsLeft, pages)
      invariant PagesSoFar(up, idsLeft0, pages, idsLeft)
      invariant !failed
      decreases |idsLeft|
    {
      var page := up.appList(after);
      if page.None? {
        PagesSoFarStop(up, idsLeft0, pages, idsLeft);
        failed := true;
        break;
      }
      ghost var prior, left := pages, idsLeft;
      results, idsLeft := TakePage(redis, appids, results, idsLeft, cache0, pages, page.value);
      pages := pages + [page.value];
      PagesSoFarStep(up, idsLeft0, prior, left, page.value, idsLeft);
      if idsLeft == [] {
        break;
      }
      after := MinOf(idsLeft) - 1;
    }
    if !failed {
      PagesSoFarDone(up, idsLeft0, pages);
    }
    assert ListingAnswers(up) ==> up.appList(after).Some?;
  }

  /** The pages fetched so far, followed by those still to come, are all the pages. */
  ghost predicate PagesSoFar(up: Upstream, idsLeft0: seq<nat>, pages: seq<seq<SteamApp>>, idsLeft: seq<nat>)
    requires PagesAdvance(up)
  {
    pages + AppPages(up, SetOf(idsLeft)) == AppPages(up, SetOf(idsLeft0))
  }

  lemma PagesSoFarStep(up: Upstream, idsLeft0: seq<nat>, pages: seq<seq<SteamApp>>, idsLeft: seq<nat>,
                       page: seq<SteamApp>, kept: seq<nat>)
    requires PagesAdvance(up) && PagesSoFar(up, idsLeft0, pages, idsLeft) && idsLeft != []
    requires up.appList(MinOf(idsLeft) - 1) == Some(page)
    requires forall x :: x in kept <==> x in idsLeft && x > page[|page| - 1].appid
    ensures PagesSoFar(up, idsLeft0, pages + [page], kept)
  {
    AppPagesStep(up, idsLeft, page, kept);
    assert (pages + [page]) + AppPages(up, SetOf(kept)) == pages + AppPages(up, SetOf(idsLeft));
  }

  lemma PagesSoFarStop(up: Upstream, idsLeft0: seq<nat>, pages: seq<seq<SteamApp>>, idsLeft: seq<nat>)
    requires PagesAdvance(up) && PagesSoFar(up, idsLeft0, pages, idsLeft) && idsLeft != []
    requires up.appList(MinOf(idsLeft) - 1).None?
    ensures pages == AppPages(up, SetOf(idsLeft0))
  {
    AppPagesStop(up, idsLeft);
  }

  lemma PagesSoFarDone(up: Upstream, idsLeft0: seq<nat>, pages: seq<seq<SteamApp>>)
    requires PagesAdvance(up) && PagesSoFar(up, idsLeft0, pages, [])
    ensures pages == AppPages(up, SetOf(idsLeft0))
  {
    assert SetOf([]) == {};
  }

  /** The ids pending after the first loop are the requested ids the cache does not name. */
  lemma PendingStart(appids: seq<nat>, cache0: map<nat, Entry<string>>, results: map<nat, string>, idsLeft: seq<nat>)
    requires Answers(appids, cache0, results, idsLeft, [])
    requires forall id :: id in appids ==> (id in idsLeft <==> id !in cache0)
    ensures SetOf(idsLeft) == Uncached(appids, cache0)
  {
  }

  /** What `Progress` says once the loop is over; with nothing pending, every requested id is answered. */
  lemma Settled(appids: seq<nat>, cache0: map<nat, Entry<string>>, store: map<nat, Entry<string>>,
                results: map<nat, string>, idsLeft: seq<nat>, pages: seq<seq<SteamApp>>)
    requires Progress(appids, cache0, store, results, idsLeft, pages)
    requires Pending(appids, cache0, idsLeft, pages)
    ensures forall id :: id in results ==> id in appids
    ensures forall id :: id in appids && id in cache0 ==> id in results
    ensures idsLeft == [] ==> forall id :: id in appids ==> id in results
    ensures forall id :: id in appids && id !in cache0 ==> (id in results <==> Listed(pages, id) || Reached(pages, id))
    ensures forall id :: id in appids && id in cache0 && !Listed(pages, id) ==>
      id in results && results[id] == cache0[id].value
    ensures forall id :: id in appids && Listed(pages, id) ==> id in results && results[id] == LatestName(pages, id)
    ensures forall id :: id in results && id !in cache0 && !Listed(pages, id) ==>
      results[id] == "" && id in store && store[id] == Entry("", Some(MissedAppTtl))
    ensures forall id :: Listed(pages, id) ==>
      id in store && store[id].value == LatestName(pages, id) && (store[id].ttl.Some? ==> id in appids)
    ensures forall id :: id in store <==> id in cache0 || Listed(pages, id) || id in results
    ensures forall id :: id in cache0 && !Listed(pages, id) ==> store[id] == cache0[id]
  {
  }

  /**
   * A page added to the log lists its ids, which take the names of their last entries there, and
   * nothing else changes.
   */
  lemma ListedExtend(pages: seq<seq<SteamApp>>, page: seq<SteamApp>)
    ensures forall id :: Listed(pages + [page], id) <==> Listed(pages, id) || id in Ids(page)
    ensures forall id :: LatestName(pages + [page], id) == if id in Ids(page) then LastName(page, id) else LatestName(pages, id)
  {
    var all := pages + [page];
    assert page in all;
    assert all[..|all| - 1] == pages;
    forall id | Listed(pages, id) ensures Listed(all, id) {
      var p :| p in pages && id in Ids(p);
      assert p in all;
    }
  }

  /** A page added to the log reaches the ids up to its last one, and nothing else changes. */
  lemma ReachedExtend(pages: seq<seq<SteamApp>>, page: seq<SteamApp>)
    ensures forall id :: Reached(pages + [page], id) <==> Reached(pages, id) || (page != [] && page[|page| - 1].appid >= id)
  {
    var all := pages + [page];
    assert page in all;
    forall id | Reached(pages, id) ensures Reached(all, id) {
      var p: seq<SteamApp> :| p in pages && p != [] && p[|p| - 1].appid >= id;
      assert p in all;
    }
  }

  // ---------------------------------------------------------------------------------------------
  // The simple read-or-fetch helpers

  /** `getTags(lang)`: the cached list, else the fetched one (cached for a day), else `[]`. */
  method GetTags(redis: Redis, lang: string, up: Upstream) returns (r: seq<SteamTag>)
    requires redis.Valid()
    modifies redis`tags
    ensures redis.Valid()
    ensures lang in old(redis.tags) ==> r == old(redis.tags)[lang].value && redis.tags == old(redis.tags)
    ensures lang !in old(redis.tags) && up.tags(lang).None? ==> r == [] && redis.tags == old(redis.tags)
    ensures lang !in old(redis.tags) && up.tags(lang).Some? ==>
      r == up.tags(lang).value && redis.tags == old(redis.tags)[lang := Entry(r, Some(TagsTtl))]
  {
    if lang in redis.tags {
      return redis.tags[lang].value;
    }
    var tags := up.tags(lang);
    if tags.None? {
      return [];
    }
    redis.tags := redis.tags[lang := Entry(tags.value, Some(TagsTtl))];
    r := tags.value;
  }

  /**
   * `getUser(steamid, loggedInUser, skipCache)`: `None` is `null`. A user Steam does not list is
   * remembered as `0` for an hour; a failed fetch writes nothing.
   */
  method GetUser(redis: Redis, steamid: string, loggedInUser: bool, skipCache: bool, up: Upstream, now: int)
    returns (r: Option<UserDoc>)
    requires redis.Valid()
    modifies redis`users
    ensures redis.Valid()
    ensures !skipCache && steamid in old(redis.users) ==>
      r == Some(old(redis.users)[steamid].value) && redis.users == old(redis.users)
    ensures (skipCache || steamid !in old(redis.users)) ==>
      match up.summary(steamid)
      case Undefined => r == Some(Zero) && redis.users == old(redis.users)[steamid := Entry(Zero, Some(MissingUserTtl))]
      case Failed => r == None && redis.users == old(redis.users)
      case Found(s) => r == Some(Summary(Stamped(s, now))) && redis.users == old(redis.users)[steamid := Entry(r.value, None)]
  {
    if !skipCache && steamid in redis.users {
      return Some(redis.users[steamid].value);
    }
    var summary := up.summary(steamid);
    if summary.Undefined? {
      redis.users := redis.users[steamid := Entry(Zero, Some(MissingUserTtl))];
      return Some(Zero);
    }
    if summary.Failed? {
      return None;
    }
    var doc := Summary(Stamped(summary.summary, now));
    redis.users := redis.users[steamid := Entry(doc, None)];
    r := Some(doc);
  }

  /**
   * `getYearInReview(steamid, year)`: an empty answer (not yet available) is cached for a
   * minute, any other for good; a failed fetch writes nothing.
   */
  method GetYearInReview(redis: Redis, steamid: string, year: int, up: Upstream) returns (r: Option<Json>)
    requires redis.Valid()
    modifies redis`yearInReview
    ensures redis.Valid()
    ensures (steamid, year) in old(redis.yearInReview) ==>
      r == Some(old(redis.yearInReview)[(steamid, year)].value) && redis.yearInReview == old(redis.yearInReview)
    ensures (steamid, year) !in old(redis.yearInReview) ==>
      r == up.yearInReview(steamid, year) &&
      (r.None? ==> redis.yearInReview == old(redis.yearInReview)) &&
      (r.Some? ==>
        redis.yearInReview ==
          old(redis.yearInReview)[(steamid, year) := Entry(r.value, if r.value == map[] then Some(EmptyReviewTtl) else None)])
  {
    if (steamid, year) in redis.yearInReview {
      return Some(redis.yearInReview[(steamid, year)].value);
    }
    var data := up.yearInReview(steamid, year);
    if data.None? {
      return None;
    }
    if data.value == map[] {
      redis.yearInReview := redis.yearInReview[(steamid, year) := Entry(data.value, Some(EmptyReviewTtl))];
      return data;
    }
    redis.yearInReview := redis.yearInReview[(steamid, year) := Entry(data.value, None)];
    r := data;
  }

  /**
   * `getVanityResolution(vanity)`: a cached non-empty SteamID, else the resolved one when Steam
   * reports `success` 1 (cached for a day), else `None`.
   */
  method GetVanityResolution(redis: Redis, vanity: string, up: Upstream) returns (r: Option<string>)
    requires redis.Valid()
    modifies redis`vanity
    ensures redis.Valid()
    ensures vanity in old(redis.vanity) && old(redis.vanity)[vanity].value != "" ==>
      r == Some(old(redis.vanity)[vanity].value) && redis.vanity == old(redis.vanity)
    ensures !(vanity in old(redis.vanity) && old(redis.vanity)[vanity].value != "") ==>
      (r.Some? <==> up.vanity(vanity).Some? && up.vanity(vanity).value.success == 1) &&
      (r.None? ==> redis.vanity == old(redis.vanity)) &&
      (r.Some? ==> r.value == up.vanity(vanity).value.steamid &&
                   redis.vanity == old(redis.vanity)[vanity := Entry(r.value, Some(VanityTtl))])
  {
    if vanity in redis.vanity && redis.vanity[vanity].value != "" {
      return Some(redis.vanity[vanity].value);
    }
    var data := up.vanity(vanity);
    if data.None? || data.value.success != 1 {
      return None;
    }
    redis.vanity := redis.vanity[vanity := Entry(data.value.steamid, Some(VanityTtl))];
    r := Some(data.value.steamid);
  }

  /**
   * `getProfileItems(steamid, skipCache)`: a failed fetch stores `null` for a minute and yields
   * `None`; a cached `null` is served as `None` too.
   */
  method GetProfileItems(redis: Redis, steamid: string, skipCache: bool, up: Upstream, now: int) returns (r: Option<Stamped>)
    requires redis.Valid()
    modifies redis`profileItems
    ensures redis.Valid()
    ensures !skipCache && steamid in old(redis.profileItems) ==>
      r == old(redis.profileItems)[steamid].value && redis.profileItems == old(redis.profileItems)
    ensures (skipCache || steamid !in old(redis.profileItems)) ==>
      (r.Some? <==> up.profileItems(steamid).Some?) &&
      (r.None? ==> redis.profileItems == old(redis.profileItems)[steamid := Entry(None, Some(MissingItemsTtl))]) &&
      (r.Some? ==> r.value == Stamped(up.profileItems(steamid).value, now) &&
                   redis.profileItems == old(redis.profileItems)[steamid := Entry(r, None)])
  {
    if !skipCache && steamid in redis.profileItems {
      return redis.profileItems[steamid].value;
    }
    var items := up.profileItems(steamid);
    if items.None? {
      redis.profileItems := redis.profileItems[steamid := Entry(None, Some(MissingItemsTtl))];
      return None;
    }
    var doc := Stamped(items.value, now);
    redis.profileItems := redis.profileItems[steamid := Entry(Some(doc), None)];
    r := Some(doc);
  }

  // ---------------------------------------------------------------------------------------------
  // The achievement documents

  /**
   * `getGameAchievements(appid, steamid, forceFetch)`: the cached document unless forced;
   * otherwise the refreshed one, which is stored (a `null` included) without expiry.
   */
  method GetGameAchievements(redis: Redis, appid: nat, steamid: string, forceFetch: bool, up: Upstream, now: int)
    returns (r: Option<GameAchievements>)
    requires redis.Valid()
    modifies redis`gameAch
    ensures redis.Valid()
    ensures appid in old(redis.gameAch) && !forceFetch ==>
      r == old(redis.gameAch)[appid].value && redis.gameAch == old(redis.gameAch)
    ensures !(appid in old(redis.gameAch) && !forceFetch) ==>
      r == GameAchievementsMerge.Refresh(if appid in old(redis.gameAch) then old(redis.gameAch)[appid].value else None,
                                         up, appid, steamid, now) &&
      redis.gameAch == old(redis.gameAch)[appid := Entry(r, None)]
  {
    if appid in redis.gameAch && !forceFetch {
      return redis.gameAch[appid].value;
    }
    var cachedGame := if appid in redis.gameAch then redis.gameAch[appid].value else None;
    r := GameAchievementsMerge.Refresh(cachedGame, up, appid, steamid, now);
    redis.gameAch := redis.gameAch[appid := Entry(r, None)];
  }

  /**
   * `getUserYearAchievements(steamid, year, appids, skipCache)`: the cached document unless
   * skipped; otherwise the distinct app ids are asked for in batches of 300 and every answer is
   * folded into the result, which is stored without expiry.
   */
  method GetUserYearAchievements(redis: Redis, steamid: string, year: int, appids: seq<nat>, skipCache: bool,
                                 up: Upstream, now: int)
    returns (r: YearAchievements)
    requires redis.Valid()
    modifies redis`yearAch
    ensures redis.Valid()
    ensures !skipCache && (steamid, year) in old(redis.yearAch) ==>
      r == old(redis.yearAch)[(steamid, year)].value && redis.yearAch == old(redis.yearAch)
    ensures (skipCache || (steamid, year) !in old(redis.yearAch)) ==>
      r == YearAchievementsFold.Fold(YearAchievementsFold.Initial(now),
             YearAchievementsFold.Parts(up, steamid, year, YearAchievementsFold.Batches(appids))) &&
      redis.yearAch == old(redis.yearAch)[(steamid, year) := Entry(r, None)]
  {
    if !skipCache && (steamid, year) in redis.yearAch {
      return redis.yearAch[(steamid, year)].value;
    }
    var batches := YearAchievementsFold.Batches(appids);
    ghost var parts := YearAchievementsFold.Parts(up, steamid, year, batches);
    r := YearAchievementsFold.Initial(now);
    for i := 0 to |batches|
      invariant r == YearAchievementsFold.Fold(YearAchievementsFold.Initial(now), parts[..i])
    {
      assert parts[..i + 1][..i] == parts[..i];
      var part := up.yearAchievements(steamid, year, batches[i]);
      if part.None? || YearAchievementsFold.EmptyPart(part.value) {
        r := r.(complete := false);
      } else {
        var p := part.value;
        if p.games.Some? {
          r := r.(apps := r.apps + YearAchievementsFold.AppsOf(p.games.value));
        }
        if p.totalAchievements.Some? {
          r := r.(total := r.total + p.totalAchievements.value);
        }
        if p.totalRare.Some? {
          r := r.(totalRare := r.totalRare + p.totalRare.value);
        }
        if p.gamesWithAchievements.Some? {
          r := r.(gamesWithAchievements := r.gamesWithAchievements + p.gamesWithAchievements.value);
        }
      }
    }
    assert parts[..|batches|] == parts;
    redis.yearAch := redis.yearAch[(steamid, year) := Entry(r, None)];
  }

  /**
   * `getPlayerAchievements(steamid, appid, forYear, forceFetch)`: the cached document when it
   * may be served; otherwise the refreshed one, stored without expiry.
   */
  method GetPlayerAchievements(redis: Redis, steamid: string, appid: nat, forYear: int, forceFetch: bool,
                               up: Upstream, now: int)
    returns (r: PlayerAchievements)
    requires redis.Valid()
    modifies redis`playerAch
    ensures redis.Valid()
    ensures var cached := if (steamid, appid) in old(redis.playerAch) then Some(old(redis.playerAch)[(steamid, appid)].value) else None;
      if PlayerUnlocks.UseCached(cached, forYear, forceFetch) then
        r == cached.value && redis.playerAch == old(redis.playerAch)
      else
        r == PlayerUnlocks.RefreshPlayer(cached, up.playerAchievements(steamid, appid), forYear, now) &&
        redis.playerAch == old(redis.playerAch)[(steamid, appid) := Entry(r, None)]
  {
    var cached := if (steamid, appid) in redis.playerAch then Some(redis.playerAch[(steamid, appid)].value) else None;
    if PlayerUnlocks.UseCached(cached, forYear, forceFetch) {
      return cached.value;
    }
    r := PlayerUnlocks.RefreshPlayer(cached, up.playerAchievements(steamid, appid), forYear, now);
    redis.playerAch := redis.playerAch[(steamid, appid) := Entry(r, None)];
  }
}

=== FILE: documents.dfy ===
/**
 * The documents `src/lib/server/data.ts` caches and the answers of the Steam Web API it reads.
 * Every cached value is kept as the typed document its JSON text encodes; a JSON object whose
 * fields the code never inspects is a `Json` map.
 */
module Documents {
  import opened Wrappers

  /** A JSON object passed through without inspection. */
  type Json = map<string, string>

  /** A fetched document stamped with the instant it was fetched (`{ ...doc, _fetchedAt }`). */
  datatype Stamped = Stamped(payload: Json, fetchedAt: int)

  /** What `user:<steamid>` holds: `0` for a confirmed missing user, or a stamped summary. */
  datatype UserDoc = Zero | Summary(summary: Stamped)

  /** `fetchSteamSummary`: `null` on an HTTP failure, `undefined` when Steam lists no player. */
  datatype SummaryAnswer = Failed | Undefined | Found(summary: Json)

  datatype SteamApp = SteamApp(appid: nat, name: string)
  datatype SteamTag = SteamTag(tagid: int, name: string)
  datatype VanityAnswer = VanityAnswer(success: int, steamid: string)

  /** One achievement of `GetSchemaForGame`; `description` is absent or empty for many hidden ones. */
  datatype SchemaAchievement = SchemaAchievement(
    name: string, displayName: string, description: Option<string>, hidden: bool,
    icon: string, iconGray: string)

  /**
   * `GetSchemaForGame`: `achievements` is `None` when the game has no `availableGameStats`
   * (and so no achievement list).
   */
  datatype Schema = Schema(gameVersion: Option<string>, achievements: Option<seq<SchemaAchievement>>)

  datatype GlobalPercent = GlobalPercent(name: string, percent: real)

  /** An achievement of the legacy XML stats page, which has descriptions of hidden achievements. */
  datatype LegacyAchievement = LegacyAchievement(apiname: string, description: string)

  /** An achievement as the site keeps it; `removedAt` is set once the schema no longer lists it. */
  datatype Achievement = Achievement(
    id: string, name: string, description: string, hidden: bool, icon: string, iconGray: string,
    percent: real, foundAt: int, removedAt: Option<int>)

  /** `GameAchievements`, cached under `gameach:<appid>`. */
  datatype GameAchievements = GameAchievements(
    gameVersion: string, complete: bool, achievements: seq<Achievement>, fetchedAt: int)

  /** One game of a `GetUserYearAchievements` answer. */
  datatype GameYear = GameYear(appid: nat, achievements: Option<seq<string>>, allTimeUnlocked: int, futureUnlocks: bool)

  /** One `GetUserYearAchievements` answer; an absent field is `None`. */
  datatype YearPart = YearPart(
    games: Option<seq<GameYear>>, totalAchievements: Option<int>, totalRare: Option<int>,
    gamesWithAchievements: Option<int>)

  datatype AppYear = AppYear(achievements: seq<string>, allTimeUnlocked: int, futureUnlocks: bool)

  /** `YearAchievements`, cached under `yearach:<steamid>:<year>`. */
  datatype YearAchievements = YearAchievements(
    apps: map<nat, AppYear>, total: int, totalRare: int, gamesWithAchievements: int,
    complete: bool, fetchedAt: int)

  datatype Unlock = Unlock(apiname: string, unlocktime: int)

  /** `GetPlayerAchievements`' `playerstats`. */
  datatype PlayerStats = PlayerStats(success: bool, achievements: seq<Unlock>)

  /** `PlayerAchievements`, cached under `playerach:<steamid>:<appid>`. */
  datatype PlayerAchievements = PlayerAchievements(
    achievements: map<string, int>, success: bool, forYear: int, fetchedAt: int)

  /**
   * The Steam Web API as the data layer sees it: each call's answer as a function of its
   * arguments, `None` where the call yields a falsy value.
   */
  datatype Upstream = Upstream(
    summary: string -> SummaryAnswer,
    appList: int -> Option<seq<SteamApp>>,
    tags: string -> Option<seq<SteamTag>>,
    yearInReview: (string, int) -> Option<Json>,
    vanity: string -> Option<VanityAnswer>,
    profileItems: string -> Option<Json>,
    schema: nat -> Option<Schema>,
    percentages: nat -> Option<seq<GlobalPercent>>,
    legacy: (string, nat) -> Option<seq<LegacyAchievement>>,
    yearAchievements: (string, int, seq<nat>) -> Option<YearPart>,
    playerAchievements: (string, nat) -> Option<PlayerStats>)
}

=== FILE: game_achievements.dfy ===
/**
 * The merge at the heart of `getGameAchievements`: a fresh schema answer combined with the cached
 * copy, so that no achievement the site has seen is ever dropped (one the schema no longer lists
 * is kept and marked with `removedAt`), `foundAt` survives refetches and `percent` falls back to
 * the cached value and then to -1.
 */
module GameAchievementsMerge {
  import opened Wrappers
  import opened Text
  import opened Documents

  /** The account whose stats page is read when the caller's own is unavailable. */
  const WendySteamId: string := "76561198074261126"

  function SchemaList(schema: Schema): seq<SchemaAchievement> {
    schema.achievements.GetOr([])
  }

  predicate HasAchievements(schema: Schema) {
    |SchemaList(schema)| > 0
  }

  /** A hidden achievement without a (non-empty) description. */
  predicate LacksDescription(a: SchemaAchievement) {
    a.hidden && (a.description.None? || a.description.value == "")
  }

  /** `needsXML`: the legacy stats page is needed for some hidden achievement's description. */
  predicate NeedsLegacy(schema: Schema) {
    HasAchievements(schema) && exists i :: 0 <= i < |SchemaList(schema)| && LacksDescription(SchemaList(schema)[i])
  }

  /** `achievements.find((a) => a.id === id)`. */
  function FindById(xs: seq<Achievement>, id: string): (r: Option<Achievement>)
    ensures r.Some? ==> r.value in xs && r.value.id == id
    ensures r.None? ==> forall x :: x in xs ==> x.id != id
    // the first entry with that id: none before it has the id
    ensures r.Some? ==> exists i :: 0 <= i < |xs| && xs[i] == r.value && forall j :: 0 <= j < i ==> xs[j].id != id
  {
    if xs == [] then None else if xs[0].id == id then Some(xs[0]) else FindById(xs[1..], id)
  }

  /** The fetched global percentage of the achievement named `name`, if listed (`find` by name). */
  function FindPercent(ps: seq<GlobalPercent>, name: string): (r: Option<real>)
    ensures r.Some? ==> exists g :: g in ps && g.name == name && g.percent == r.value
    ensures r.None? ==> forall g :: g in ps ==> g.name != name
    // the first listing of that name gives the percentage
    ensures r.Some? ==> exists i :: 0 <= i < |ps| && ps[i].name == name && ps[i].percent == r.value &&
                                    forall j :: 0 <= j < i ==> ps[j].name != name
  {
    if ps == [] then None else if ps[0].name == name then Some(ps[0].percent) else FindPercent(ps[1..], name)
  }

  /** The first legacy entry whose trimmed `apiname` is `key` (`find`). */
  function FindLegacy(ls: seq<LegacyAchievement>, key: string): (r: Option<LegacyAchievement>)
    ensures r.Some? ==> r.value in ls && Trim(r.value.apiname) == key
    ensures r.None? ==> forall l :: l in ls ==> Trim(l.apiname) != key
    // the first matching entry: none before it matches
    ensures r.Some? ==> exists i :: 0 <= i < |ls| && ls[i] == r.value && forall j :: 0 <= j < i ==> LegacyKey(ls[j]) != key
  {
    FindLegacyFrom(ls, key, 0)
  }

  /** The key a legacy entry is matched by: its trimmed `apiname`. */
  function LegacyKey(l: LegacyAchievement): string {
    Trim(l.apiname)
  }

  /** The search of `FindLegacy` from index `k` on. */
  function FindLegacyFrom(ls: seq<LegacyAchievement>, key: string, k: nat): (r: Option<LegacyAchievement>)
    requires k <= |ls|
    ensures r.Some? ==> exists i :: k <= i < |ls| && ls[i] == r.value && LegacyKey(ls[i]) == key &&
                                    forall j :: k <= j < i ==> LegacyKey(ls[j]) != key
    ensures r.None? ==> forall j :: k <= j < |ls| ==> LegacyKey(ls[j]) != key
    decreases |ls| - k
  {
    if k == |ls| then None
    else if LegacyKey(ls[k]) == key then Some(ls[k])
    else
      var r := FindLegacyFrom(ls, key, k + 1);
      assert r.Some? ==> exists i :: k <= i < |ls| && ls[i] == r.value && LegacyKey(ls[i]) == key &&
                                     forall j :: k <= j < i ==> LegacyKey(ls[j]) != key by {
        if r.Some? {
          var i :| k + 1 <= i < |ls| && ls[i] == r.value && LegacyKey(ls[i]) == key &&
                   forall j :: k + 1 <= j < i ==> LegacyKey(ls[j]) != key;
          assert forall j :: k <= j < i ==> LegacyKey(ls[j]) != key;
        }
      }
      r
  }

  /**
   * The description: the schema's own when non-empty; for a hidden achievement, the trimmed
   * legacy description whose apiname matches the lower-cased name; otherwise empty.
   */
  function Description(a: SchemaAchievement, legacy: Option<seq<LegacyAchievement>>): string {
    if a.description.Some? && a.description.value != "" then a.description.value
    else if !a.hidden || legacy.None? then ""
    else
      match FindLegacy(legacy.value, Lower(a.name))
      case Some(l) => Trim(l.description)
      case None => ""
  }

  /** The fetched percentage, else the cached one, else -1. */
  function Percent(name: string, percentages: Option<seq<GlobalPercent>>, cached: seq<Achievement>): real {
    var fetched := if percentages.Some? then FindPercent(percentages.value, name) else None;
    if fetched.Some? then fetched.value
    else if FindById(cached, name).Some? then FindById(cached, name).value.percent
    else -1.0
  }

  /** When the achievement was first seen: the cached `foundAt`, else now. */
  function FoundAt(name: string, cached: seq<Achievement>, now: int): int {
    if FindById(cached, name).Some? then FindById(cached, name).value.foundAt else now
  }

  /** A schema achievement as the site keeps it. */
  function Fresh(a: SchemaAchievement, cached: seq<Achievement>, percentages: Option<seq<GlobalPercent>>,
                 legacy: Option<seq<LegacyAchievement>>, now: int): Achievement
  {
    Achievement(a.name, a.displayName, Description(a, legacy), a.hidden, a.icon, a.iconGray,
                Percent(a.name, percentages, cached), FoundAt(a.name, cached, now), None)
  }

  function FreshAll(s: seq<SchemaAchievement>, cached: seq<Achievement>, percentages: Option<seq<GlobalPercent>>,
                    legacy: Option<seq<LegacyAchievement>>, now: int): seq<Achievement>
  {
    seq(|s|, i requires 0 <= i < |s| => Fresh(s[i], cached, percentages, legacy, now))
  }

  /** Whether the schema lists an achievement with this id (never, when it has no achievement list). */
  predicate InSchema(schema: Schema, id: string) {
    schema.achievements.Some? && exists a :: a in schema.achievements.value && a.name == id
  }

  /** The `removedAt` of the cached entry found under `key`, else now. */
  function RemovedAt(cached: seq<Achievement>, key: string, now: int): int {
    var found := FindById(cached, key);
    if found.Some? && found.value.removedAt.Some? then found.value.removedAt.value else now
  }

  /**
   * The cached achievements of `rest` the schema no longer lists, each marked removed; the
   * `removedAt` lookup in `cached` uses `key` of the entry.
   */
  function RetainWith(rest: seq<Achievement>, cached: seq<Achievement>, schema: Schema, now: int,
                      key: Achievement -> string): seq<Achievement>
  {
    if rest == [] then []
    else
      (if InSchema(schema, rest[0].id) then []
       else [rest[0].(removedAt := Some(RemovedAt(cached, key(rest[0]), now)))])
      + RetainWith(rest[1..], cached, schema, now, key)
  }

  /** The key the corrected lookup uses (`a.id`) and the one the source uses (`ach.name`). */
  function IdKey(a: Achievement): string { a.id }
  function NameKey(a: Achievement): string { a.name }

  /** The merged document, with the `removedAt` lookup keyed by `key`. */
  function MergeWith(cachedGame: Option<GameAchievements>, schema: Schema, percentages: Option<seq<GlobalPercent>>,
                     legacy: Option<seq<LegacyAchievement>>, now: int, key: Achievement -> string): GameAchievements
  {
    var cached := if cachedGame.Some? then cachedGame.value.achievements else [];
    GameAchievements(
      schema.gameVersion.GetOr(""),
      !NeedsLegacy(schema) || legacy.Some?,
      FreshAll(SchemaList(schema), cached, percentages, legacy, now) + RetainWith(cached, cached, schema, now, key),
      now)
  }

  /**
   * The merge as written: the `removedAt` of a retained entry is looked up with `a.id === ach.name`,
   * i.e. by its display name.
   */
  function MergeAsWritten(cachedGame: Option<GameAchievements>, schema: Schema, percentages: Option<seq<GlobalPercent>>,
                          legacy: Option<seq<LegacyAchievement>>, now: int): GameAchievements
  {
    MergeWith(cachedGame, schema, percentages, legacy, now, NameKey)
  }

  /** The merge with the `removedAt` lookup by id, as evidently intended; the data layer uses this one. */
  function Merge(cachedGame: Option<GameAchievements>, schema: Schema, percentages: Option<seq<GlobalPercent>>,
                 legacy: Option<seq<LegacyAchievement>>, now: int): GameAchievements
  {
    MergeWith(cachedGame, schema, percentages, legacy, now, IdKey)
  }

  /**
   * `xmlData`: no fetch unless needed; otherwise the caller's stats page (unless the caller is the
   * reference account), falling back to the reference account's.
   */
  function LegacyFetch(up: Upstream, steamid: string, appid: nat, needed: bool): Option<seq<LegacyAchievement>> {
    if !needed then None
    else
      var own := if steamid != WendySteamId then up.legacy(steamid, appid) else None;
      if own.Some? then own else up.legacy(WendySteamId, appid)
  }

  /**
   * The document `getGameAchievements` computes and stores once it fetches: with no schema, the
   * cached copy re-stamped (or nothing); with a schema, the merge, reading percentages only when
   * the game has achievements.
   */
  function Refresh(cachedGame: Option<GameAchievements>, up: Upstream, appid: nat, steamid: string, now: int): Option<GameAchievements> {
    match up.schema(appid)
    case None => if cachedGame.Some? then Some(cachedGame.value.(fetchedAt := now)) else None
    case Some(schema) =>
      var percentages := if HasAchievements(schema) then up.percentages(appid) else None;
      Some(Merge(cachedGame, schema, percentages, LegacyFetch(up, steamid, appid, NeedsLegacy(schema)), now))
  }

  // ---------------------------------------------------------------------------------------------
  // Properties of the merge.

  function CachedList(cachedGame: Option<GameAchievements>): seq<Achievement> {
    if cachedGame.Some? then cachedGame.value.achievements else []
  }

  lemma {:induction false} RetainShape(rest: seq<Achievement>, cached: seq<Achievement>, schema: Schema, now: int,
                                       key: Achievement -> string)
    ensures var r := RetainWith(rest, cached, schema, now, key);
      (forall y :: y in r ==> y.removedAt.Some? && !InSchema(schema, y.id)) &&
      (forall x :: x in rest && !InSchema(schema, x.id) ==> x.(removedAt := Some(RemovedAt(cached, key(x), now))) in r)
  {
    if rest != [] {
      RetainShape(rest[1..], cached, schema, now, key);
      assert forall x :: x in rest ==> x == rest[0] || x in rest[1..];
    }
  }

  /** Each retained entry is an entry of `rest` with only `removedAt` replaced. */
  lemma {:induction false} RetainOrigin(rest: seq<Achievement>, cached: seq<Achievement>, schema: Schema, now: int,
                                        key: Achievement -> string)
    ensures forall y :: y in RetainWith(rest, cached, schema, now, key) ==>
      exists x :: x in rest && y == x.(removedAt := y.removedAt)
  {
    if rest != [] {
      RetainOrigin(rest[1..], cached, schema, now, key);
      forall y | y in RetainWith(rest, cached, schema, now, key)
        ensures exists x :: x in rest && y == x.(removedAt := y.removedAt)
      {
        if y in RetainWith(rest[1..], cached, schema, now, key) {
          var x :| x in rest[1..] && y == x.(removedAt := y.removedAt);
          assert x in rest;
        } else {
          assert y == rest[0].(removedAt := y.removedAt);
        }
      }
    }
  }

  /**
   * The output lists the schema's achievements in schema order, none marked removed, followed by
   * the cached achievements the schema no longer lists, all marked removed; this holds whichever
   * key the `removedAt` lookup uses, so for the merge as written too.
   */
  lemma MergeShape(cachedGame: Option<GameAchievements>, schema: Schema, percentages: Option<seq<GlobalPercent>>,
                   legacy: Option<seq<LegacyAchievement>>, now: int, key: Achievement -> string)
    ensures var r := MergeWith(cachedGame, schema, percentages, legacy, now, key).achievements;
      var s := SchemaList(schema);
      |s| <= |r| &&
      (forall i :: 0 <= i < |s| ==> r[i].id == s[i].name && r[i].name == s[i].displayName && r[i].removedAt.None?) &&
      (forall i :: |s| <= i < |r| ==>
         (r[i].removedAt.Some? && !InSchema(schema, r[i].id) &&
          exists x :: x in CachedList(cachedGame) && r[i] == x.(removedAt := r[i].removedAt)))
  {
    var c := CachedList(cachedGame);
    RetainShape(c, c, schema, now, key);
    RetainOrigin(c, c, schema, now, key);
    var freshPart := FreshAll(SchemaList(schema), c, percentages, legacy, now);
    var kept := RetainWith(c, c, schema, now, key);
    assert forall i :: |freshPart| <= i < |freshPart + kept| ==> (freshPart + kept)[i] in kept;
  }

  /**
   * No previously cached achievement is ever dropped: every cached id is still in the output,
   * whichever key the `removedAt` lookup uses.
   */
  lemma NoAchievementDropped(cachedGame: Option<GameAchievements>, schema: Schema, percentages: Option<seq<GlobalPercent>>,
                             legacy: Option<seq<LegacyAchievement>>, now: int, key: Achievement -> string)
    ensures forall x :: x in CachedList(cachedGame) ==>
      exists y :: y in MergeWith(cachedGame, schema, percentages, legacy, now, key).achievements && y.id == x.id
  {
    var c := CachedList(cachedGame);
    var s := SchemaList(schema);
    var freshPart := FreshAll(s, c, percentages, legacy, now);
    var kept := RetainWith(c, c, schema, now, key);
    var r := MergeWith(cachedGame, schema, percentages, legacy, now, key).achievements;
    assert r == freshPart + kept;
    RetainShape(c, c, schema, now, key);
    forall x | x in c ensures exists y :: y in r && y.id == x.id {
      if InSchema(schema, x.id) {
        var a :| a in s && a.name == x.id;
        var i :| 0 <= i < |s| && s[i] == a;
        assert r[i] == freshPart[i] && r[i].id == x.id;
      } else {
        var y := x.(removedAt := Some(RemovedAt(c, key(x), now)));
        assert y in kept;
      }
    }
  }

  /**
   * Each schema achievement keeps the `foundAt` of the first cached achievement with its id (now
   * when there is none), takes the fetched percentage, else that cached entry's, else -1, and
   * takes its description from the schema, else (when hidden) from the legacy stats page, else
   * the empty string.
   */
  lemma FreshFields(cachedGame: Option<GameAchievements>, schema: Schema, percentages: Option<seq<GlobalPercent>>,
                    legacy: Option<seq<LegacyAchievement>>, now: int, i: nat)
    requires i < |SchemaList(schema)|
    ensures var a := SchemaList(schema)[i];
      var y := Merge(cachedGame, schema, percentages, legacy, now).achievements[i];
      var prior := FindById(CachedList(cachedGame), a.name);
      var fetched := if percentages.Some? then FindPercent(percentages.value, a.name) else None;
      (prior.Some? ==> y.foundAt == prior.value.foundAt) &&
      (prior.None? ==> y.foundAt == now) &&
      (fetched.Some? ==> y.percent == fetched.value) &&
      (fetched.None? && prior.Some? ==> y.percent == prior.value.percent) &&
      (fetched.None? && prior.None? ==> y.percent == -1.0) &&
      (a.description.Some? && a.description.value != "" ==> y.description == a.description.value) &&
      (!a.hidden && (a.description.None? || a.description.value == "") ==> y.description == "") &&
      (LacksDescription(a) && legacy.Some? && FindLegacy(legacy.value, Lower(a.name)).Some? ==>
         y.description == Trim(FindLegacy(legacy.value, Lower(a.name)).value.description)) &&
      (LacksDescription(a) && (legacy.None? || FindLegacy(legacy.value, Lower(a.name)).None?) ==> y.description == "")
  {
    var c := CachedList(cachedGame);
    var freshPart := FreshAll(SchemaList(schema), c, percentages, legacy, now);
    assert Merge(cachedGame, schema, percentages, legacy, now).achievements[i] == freshPart[i];
  }

  /**
   * The result is incomplete exactly when the legacy page was needed and could not be read.
   */
  lemma CompleteIff(cachedGame: Option<GameAchievements>, schema: Schema, percentages: Option<seq<GlobalPercent>>,
                    legacy: Option<seq<LegacyAchievement>>, now: int)
    ensures !Merge(cachedGame, schema, percentages, legacy, now).complete <==> NeedsLegacy(schema) && legacy.None?
  {
  }

  /**
   * The legacy page is missing exactly when it was needed and neither the caller's page (not
   * tried for the reference account itself) nor the reference account's could be read.
   */
  lemma LegacyMissingIff(up: Upstream, steamid: string, appid: nat, needed: bool)
    ensures LegacyFetch(up, steamid, appid, needed).None? <==>
      !needed || ((steamid == WendySteamId || up.legacy(steamid, appid).None?) && up.legacy(WendySteamId, appid).None?)
  {
  }

  /** Without a schema the result is the cached copy with a new fetch stamp, or nothing. */
  lemma SchemaFailureKeepsCache(cachedGame: Option<GameAchievements>, up: Upstream, appid: nat, steamid: string, now: int)
    requires up.schema(appid).None?
    ensures Refresh(cachedGame, up, appid, steamid, now).None? <==> cachedGame.None?
    ensures cachedGame.Some? ==> Refresh(cachedGame, up, appid, steamid, now) == Some(cachedGame.value.(fetchedAt := now))
  {
  }

  // ---------------------------------------------------------------------------------------------
  // Idempotence of the corrected merge, and the counterexample for the merge as written.

  lemma {:induction false} FindByIdAppend(xs: seq<Achievement>, ys: seq<Achievement>, id: string)
    ensures FindById(xs + ys, id) == if FindById(xs, id).Some? then FindById(xs, id) else FindById(ys, id)
  {
    if xs != [] {
      assert (xs + ys)[0] == xs[0] && (xs + ys)[1..] == xs[1..] + ys;
      FindByIdAppend(xs[1..], ys, id);
    } else {
      assert xs + ys == ys;
    }
  }

  /** Looking up a schema name among the fresh entries finds one with the same `foundAt` and `percent`. */
  lemma {:induction false} FindInFresh(s: seq<SchemaAchievement>, c: seq<Achievement>, p: Option<seq<GlobalPercent>>,
                                       l: Option<seq<LegacyAchievement>>, now: int, name: string)
    ensures var f := FindById(FreshAll(s, c, p, l, now), name);
      (f.Some? <==> exists a :: a in s && a.name == name) &&
      (f.Some? ==> f.value.foundAt == FoundAt(name, c, now) && f.value.percent == Percent(name, p, c))
  {
    var freshPart := FreshAll(s, c, p, l, now);
    if s != [] {
      assert freshPart == [freshPart[0]] + FreshAll(s[1..], c, p, l, now);
      FindInFresh(s[1..], c, p, l, now, name);
      assert forall a :: a in s ==> a == s[0] || a in s[1..];
    }
  }

  /** Looking up the id of a retained entry among the retained entries finds one with the same `removedAt`. */
  lemma {:induction false} FindInRetained(rest: seq<Achievement>, c: seq<Achievement>, schema: Schema, now: int, id: string)
    ensures var f := FindById(RetainWith(rest, c, schema, now, IdKey), id);
      f.Some? ==> f.value.removedAt == Some(RemovedAt(c, id, now))
  {
    if rest != [] {
      FindInRetained(rest[1..], c, schema, now, id);
      var head := if InSchema(schema, rest[0].id) then [] else [rest[0].(removedAt := Some(RemovedAt(c, rest[0].id, now)))];
      assert RetainWith(rest, c, schema, now, IdKey) == head + RetainWith(rest[1..], c, schema, now, IdKey);
      FindByIdAppend(head, RetainWith(rest[1..], c, schema, now, IdKey), id);
    }
  }

  lemma {:induction false} RetainAppend(xs: seq<Achievement>, ys: seq<Achievement>, c: seq<Achievement>, schema: Schema,
                                        now: int, key: Achievement -> string)
    ensures RetainWith(xs + ys, c, schema, now, key) == RetainWith(xs, c, schema, now, key) + RetainWith(ys, c, schema, now, key)
  {
    if xs != [] {
      assert (xs + ys)[0] == xs[0] && (xs + ys)[1..] == xs[1..] + ys;
      RetainAppend(xs[1..], ys, c, schema, now, key);
    } else {
      assert xs + ys == ys;
    }
  }

  /** Fresh entries all carry schema names, so a second pass retains none of them. */
  lemma {:induction false} FreshNotRetained(s: seq<SchemaAchievement>, c: seq<Achievement>, p: Option<seq<GlobalPercent>>,
                                            l: Option<seq<LegacyAchievement>>, now: int, full: seq<Achievement>,
                                            schema: Schema, now2: int)
    requires forall a :: a in s ==> a in SchemaList(schema)
    requires schema.achievements.Some? || s == []
    ensures RetainWith(FreshAll(s, c, p, l, now), full, schema, now2, IdKey) == []
  {
    if s != [] {
      var freshPart := FreshAll(s, c, p, l, now);
      assert freshPart == [freshPart[0]] + FreshAll(s[1..], c, p, l, now);
      assert s[0] in s;
      assert s[0] in schema.achievements.value;
      assert InSchema(schema, freshPart[0].id);
      FreshNotRetained(s[1..], c, p, l, now, full, schema, now2);
    }
  }

  /** Retained entries whose `removedAt` is what a lookup by id in `full` finds are retained unchanged. */
  lemma {:induction false} RetainedStable(kept: seq<Achievement>, full: seq<Achievement>, schema: Schema, now2: int)
    requires forall y :: y in kept ==> !InSchema(schema, y.id) && y.removedAt.Some? && RemovedAt(full, y.id, now2) == y.removedAt.value
    ensures RetainWith(kept, full, schema, now2, IdKey) == kept
  {
    if kept != [] {
      RetainedStable(kept[1..], full, schema, now2);
      assert kept[0].(removedAt := Some(RemovedAt(full, kept[0].id, now2))) == kept[0];
      assert kept == [kept[0]] + kept[1..];
    }
  }

  /**
   * Refetching with the same answers changes nothing but the fetch stamp: `foundAt`, `percent`
   * and `removedAt` all survive a second merge.
   */
  lemma MergeIdempotent(cachedGame: Option<GameAchievements>, schema: Schema, p: Option<seq<GlobalPercent>>,
                        l: Option<seq<LegacyAchievement>>, now1: int, now2: int)
    ensures var g1 := Merge(cachedGame, schema, p, l, now1);
      Merge(Some(g1), schema, p, l, now2) == g1.(fetchedAt := now2)
  {
    var c := CachedList(cachedGame);
    var s := SchemaList(schema);
    var freshPart := FreshAll(s, c, p, l, now1);
    var kept := RetainWith(c, c, schema, now1, IdKey);
    FreshRecomputed(s, c, p, l, now1, kept, now2);
    KeptRecomputed(c, schema, p, l, now1, now2);
  }

  /** A second pass over a merged list recomputes its schema entries identically. */
  lemma FreshRecomputed(s: seq<SchemaAchievement>, c: seq<Achievement>, p: Option<seq<GlobalPercent>>,
                        l: Option<seq<LegacyAchievement>>, now1: int, kept: seq<Achievement>, now2: int)
    ensures FreshAll(s, FreshAll(s, c, p, l, now1) + kept, p, l, now2) == FreshAll(s, c, p, l, now1)
  {
    var freshPart := FreshAll(s, c, p, l, now1);
    var r := freshPart + kept;
    forall i | 0 <= i < |s| ensures Fresh(s[i], r, p, l, now2) == freshPart[i] {
      FindByIdAppend(freshPart, kept, s[i].name);
      FindInFresh(s, c, p, l, now1, s[i].name);
      assert s[i] in s;
    }
  }

  /** A second pass over a merged list retains exactly its retained entries, unchanged. */
  lemma KeptRecomputed(c: seq<Achievement>, schema: Schema, p: Option<seq<GlobalPercent>>,
                       l: Option<seq<LegacyAchievement>>, now1: int, now2: int)
    ensures var s := SchemaList(schema);
      var r := FreshAll(s, c, p, l, now1) + RetainWith(c, c, schema, now1, IdKey);
      RetainWith(r, r, schema, now2, IdKey) == RetainWith(c, c, schema, now1, IdKey)
  {
    var s := SchemaList(schema);
    var freshPart := FreshAll(s, c, p, l, now1);
    var kept := RetainWith(c, c, schema, now1, IdKey);
    var r := freshPart + kept;
    RetainAppend(freshPart, kept, r, schema, now2, IdKey);
    FreshNotRetained(s, c, p, l, now1, r, schema, now2);
    RetainShape(c, c, schema, now1, IdKey);
    forall y | y in kept
      ensures !InSchema(schema, y.id) && y.removedAt.Some? && RemovedAt(r, y.id, now2) == y.removedAt.value
    {
      FindByIdAppend(freshPart, kept, y.id);
      FindInFresh(s, c, p, l, now1, y.id);
      assert !exists a :: a in s && a.name == y.id;
      FindInRetained(c, c, schema, now1, y.id);
      RetainYield(c, c, schema, now1, y);
    }
    RetainedStable(kept, r, schema, now2);
  }

  /** Every retained entry carries the `removedAt` a lookup of its id in the cache gives. */
  lemma {:induction false} RetainYield(rest: seq<Achievement>, c: seq<Achievement>, schema: Schema, now: int, y: Achievement)
    requires y in RetainWith(rest, c, schema, now, IdKey)
    ensures y.removedAt == Some(RemovedAt(c, y.id, now))
  {
    if rest != [] {
      if y !in RetainWith(rest[1..], c, schema, now, IdKey) {
        assert y == rest[0].(removedAt := Some(RemovedAt(c, rest[0].id, now)));
      } else {
        RetainYield(rest[1..], c, schema, now, y);
      }
    }
  }

  /**
   * As written, a removed achievement whose display name differs from its id loses its
   * `removedAt` on the next refetch: cached {id "A", name "Alpha", removedAt 100}, absent from
   * the schema, refetched at 200 is kept with removedAt 200. The corrected merge keeps 100.
   */
  lemma RemovedAtResetAsWritten()
    ensures var x := Achievement("A", "Alpha", "", false, "", "", 0.0, 50, Some(100));
      var cached := Some(GameAchievements("", true, [x], 150));
      var schema := Schema(None, Some([]));
      MergeAsWritten(cached, schema, None, None, 200).achievements == [x.(removedAt := Some(200))] &&
      Merge(cached, schema, None, None, 200).achievements == [x]
  {
    var x := Achievement("A", "Alpha", "", false, "", "", 0.0, 50, Some(100));
    assert FindById([x], "Alpha") == None;
    assert FindById([x], "A") == Some(x);
    assert !InSchema(Schema(None, Some([])), "A");
  }
}

=== FILE: login_callback.dfy ===
/**
 * The Steam OpenID login callback (`src/routes/login/callback/+server.ts`): the check of a
 * positive assertion (OpenID Authentication 2.0, section 10.1), the direct verification query
 * sent back to Steam (section 11.4.2) and the SteamID taken from the claimed identifier.
 */
module LoginCallback {
  import opened Wrappers
  import opened Text

  const OpenIdNs: string := "http://specs.openid.net/auth/2.0"
  const SteamLogin: string := "https://steamcommunity.com/openid/login"
  /** The claimed-identifier prefix Steam uses; the SteamID follows it. */
  const IdPrefix: string := "https://steamcommunity.com/openid/id/"
  const LoginFail: string := "/#login_fail"
  /** Seven days, in seconds. */
  const SessionMaxAge: nat := 60 * 60 * 24 * 7

  /** `REQUIRED_PARAMS`. */
  const RequiredParams: seq<string> := [
    "openid.ns", "openid.mode", "openid.op_endpoint", "openid.claimed_id", "openid.identity",
    "openid.return_to", "openid.response_nonce", "openid.assoc_handle", "openid.signed", "openid.sig"]

  /** The query parameters of the callback URL (the first value of each name). */
  type Params = map<string, string>

  /** `url.searchParams.get(name)`: `None` for a missing parameter. */
  function Get(params: Params, name: string): Option<string> {
    if name in params then Some(params[name]) else None
  }

  /** `s.slice(k)`. */
  function Slice(s: string, k: nat): string {
    if k <= |s| then s[k..] else []
  }

  /** The answer of Steam to the verification request. */
  datatype Response = Response(status: int, body: string)

  /** The `session` cookie: the session token is signed over the SteamID claim. */
  datatype Session = Session(steamid: string, maxAge: nat, path: string)

  /** The redirect the handler throws, with the cookie it sets first, if any. */
  datatype Outcome = Outcome(status: int, location: string, session: Option<Session>)

  /** `REQUIRED_PARAMS.map((p) => url.searchParams.has(p)).includes(false)`. */
  predicate MissesRequired(params: Params) {
    false in seq(|RequiredParams|, i requires 0 <= i < |RequiredParams| => RequiredParams[i] in params)
  }

  /** The pre-check of the assertion: `true` when the handler redirects to the failure page at once. */
  predicate AssertionRejected(params: Params, callbackUrl: string) {
    MissesRequired(params) ||
    Get(params, "openid.ns") != Some(OpenIdNs) ||
    Get(params, "openid.mode") != Some("id_res") ||
    Get(params, "openid.op_endpoint") != Some(SteamLogin) ||
    !StartsWith(Get(params, "openid.claimed_id").GetOr(""), IdPrefix) ||
    Get(params, "openid.claimed_id") != Get(params, "openid.identity") ||
    Get(params, "openid.return_to") != Some(callbackUrl)
  }

  /** The `check_authentication` query, in the order its fields are written. */
  function VerificationQuery(params: Params, callbackUrl: string): (q: seq<(string, string)>)
    ensures |q| == |RequiredParams| && forall i :: 0 <= i < |q| ==> q[i].0 == RequiredParams[i]
  {
    [("openid.ns", OpenIdNs),
     ("openid.mode", "check_authentication"),
     ("openid.op_endpoint", SteamLogin),
     ("openid.claimed_id", Get(params, "openid.claimed_id").GetOr("")),
     ("openid.identity", Get(params, "openid.identity").GetOr("")),
     ("openid.return_to", callbackUrl),
     ("openid.response_nonce", Get(params, "openid.response_nonce").GetOr("")),
     ("openid.assoc_handle", Get(params, "openid.assoc_handle").GetOr("")),
     ("openid.signed", Get(params, "openid.signed").GetOr("")),
     ("openid.sig", Get(params, "openid.sig").GetOr(""))]
  }

  /**
   * A positive assertion the handler accepts before asking Steam: every required parameter is
   * present, the namespace is OpenID 2.0, the mode is `id_res`, the endpoint is Steam's, the
   * claimed identifier is a Steam identity equal to `openid.identity`, and `return_to` is the
   * configured callback URL.
   */
  predicate Accepted(params: Params, callbackUrl: string) {
    (forall p :: p in RequiredParams ==> p in params) &&
    params["openid.ns"] == OpenIdNs && params["openid.mode"] == "id_res" &&
    params["openid.op_endpoint"] == SteamLogin &&
    StartsWith(params["openid.claimed_id"], IdPrefix) &&
    params["openid.claimed_id"] == params["openid.identity"] &&
    params["openid.return_to"] == callbackUrl
  }

  /** The pre-check lets through exactly the accepted assertions. */
  lemma AcceptedIffNotRejected(params: Params, callbackUrl: string)
    ensures !AssertionRejected(params, callbackUrl) <==> Accepted(params, callbackUrl)
  {
    RequiredIffPresent(params);
  }

  /**
   * The `GET` handler, with the configured callback URL, Steam's answer to a verification query
   * and the latest year as inputs.
   */
  function Callback(params: Params, callbackUrl: string, verify: seq<(string, string)> -> Response, latest: nat): (o: Outcome)
    ensures o.session.Some? <==>
      Accepted(params, callbackUrl) &&
      verify(VerificationQuery(params, callbackUrl)).status == 200 &&
      Contains(verify(VerificationQuery(params, callbackUrl)).body, "is_valid:true")
    ensures match o.session
      case None => o == Outcome(302, LoginFail, None)
      case Some(Session(id, maxAge, path)) =>
        "openid.claimed_id" in params && "openid.identity" in params &&
        params["openid.claimed_id"] == IdPrefix + id && params["openid.identity"] == IdPrefix + id &&
        maxAge == 604800 && path == "/" &&
        o == Outcome(307, "/u/" + id + "/" + NatToString(latest), o.session)
  {
    AcceptedIffNotRejected(params, callbackUrl);
    if AssertionRejected(params, callbackUrl) then
      Outcome(302, LoginFail, None)
    else
      var response := verify(VerificationQuery(params, callbackUrl));
      if response.status != 200 || !Contains(response.body, "is_valid:true") then
        Outcome(302, LoginFail, None)
      else
        var identity := Get(params, "openid.identity").GetOr("");
        assert |IdPrefix| == 37;
        var steamid := Slice(identity, 37);
        assert identity == IdPrefix + steamid;
        Outcome(307, "/u/" + steamid + "/" + NatToString(latest), Some(Session(steamid, SessionMaxAge, "/")))
  }

  /** The `map(...).includes(false)` test fails exactly when every required parameter is present. */
  lemma RequiredIffPresent(params: Params)
    ensures !MissesRequired(params) <==> forall p :: p in RequiredParams ==> p in params
  {
    var present := seq(|RequiredParams|, i requires 0 <= i < |RequiredParams| => RequiredParams[i] in params);
    if forall p :: p in RequiredParams ==> p in params {
      assert forall i :: 0 <= i < |present| ==> present[i];
    } else {
      var p :| p in RequiredParams && p !in params;
      var i :| 0 <= i < |RequiredParams| && RequiredParams[i] == p;
      assert !present[i];
    }
  }

  /** The parameters the verification query copies from the assertion. */
  const CopiedParams: set<string> := {
    "openid.claimed_id", "openid.identity", "openid.response_nonce", "openid.assoc_handle",
    "openid.signed", "openid.sig"}

  /**
   * The verification query repeats the assertion with `mode` set to `check_authentication`:
   * each copied field carries the request's value verbatim, `return_to` is the configured
   * callback and the namespace and endpoint are the fixed ones.
   */
  lemma QueryCopiesAssertion(params: Params, callbackUrl: string)
    requires forall p :: p in RequiredParams ==> p in params
    ensures var q := VerificationQuery(params, callbackUrl);
      (forall i :: 0 <= i < |q| && q[i].0 in CopiedParams ==> q[i].1 == params[q[i].0]) &&
      (forall i :: 0 <= i < |q| && q[i].0 == "openid.mode" ==> q[i].1 == "check_authentication") &&
      (forall i :: 0 <= i < |q| && q[i].0 == "openid.return_to" ==> q[i].1 == callbackUrl) &&
      (forall i :: 0 <= i < |q| && q[i].0 == "openid.ns" ==> q[i].1 == OpenIdNs) &&
      (forall i :: 0 <= i < |q| && q[i].0 == "openid.op_endpoint" ==> q[i].1 == SteamLogin)
  {
    var q := VerificationQuery(params, callbackUrl);
    forall i | 3 <= i < |q| && i != 5 ensures q[i].1 == params[q[i].0] {
      assert q[i].0 == RequiredParams[i];
    }
    assert q[0].0 !in CopiedParams && q[1].0 !in CopiedParams && q[2].0 !in CopiedParams && q[5].0 !in CopiedParams;
  }

  /** A failed verification never logs in, however well-formed the assertion. */
  lemma InvalidVerificationFails(params: Params, callbackUrl: string, verify: seq<(string, string)> -> Response, latest: nat)
    requires !Contains(verify(VerificationQuery(params, callbackUrl)).body, "is_valid:true")
    ensures Callback(params, callbackUrl, verify, latest) == Outcome(302, LoginFail, None)
  {
  }
}

=== FILE: params.dfy ===
/**
 * The route parameter matchers of `src/params/`: each decides whether a path segment may fill
 * a route's `[name=matcher]` slot. The regular expressions are written out as predicates.
 */
module YearParam {
  import opened Wrappers
  import opened Text

  /** `/^20[0-9]{2}$/`: exactly "20" followed by two ASCII digits. */
  predicate FullYear(s: string) {
    |s| == 4 && s[0] == '2' && s[1] == '0' && IsDigit(s[2]) && IsDigit(s[3])
  }

  function DigitValue(c: char): int {
    (c as int) - ('0' as int)
  }

  /** The year a `FullYear` string denotes. */
  function YearOf(s: string): (y: int)
    requires FullYear(s)
    ensures 2000 <= y <= 2099
  {
    2000 + 10 * DigitValue(s[2]) + DigitValue(s[3])
  }

  /** The four-character spelling of a year between 2000 and 2099. */
  function YearString(y: int): (s: string)
    requires 2000 <= y <= 2099
    ensures FullYear(s) && YearOf(s) == y
  {
    var d := y - 2000;
    ['2', '0', ('0' as int + d / 10) as char, ('0' as int + d % 10) as char]
  }

  /** `match(param)` of `src/params/year.ts`, with `MIN_YEAR` and `CURRENT_YEAR` as parameters. */
  predicate Match(param: string, minYear: int, currentYear: int) {
    FullYear(param) &&
    var v := ParseInt(param, None);
    v.Some? && v.value >= minYear && v.value <= currentYear
  }

  /** The four digits of a `FullYear` string denote its year. */
  lemma FullYearValue(s: string)
    requires FullYear(s)
    ensures AllDigits(s, 10) && Value(s, 10) == YearOf(s)
  {
    assert AllDigits(s[..1], 10) && Value(s[..1], 10) == 2;
    ValueAppend(s[..1], s[1], 10);
    assert s[..1] + [s[1]] == s[..2];
    ValueAppend(s[..2], s[2], 10);
    assert s[..2] + [s[2]] == s[..3];
    ValueAppend(s[..3], s[3], 10);
    assert s[..3] + [s[3]] == s;
  }

  /** `parseInt` reads a four-digit year string as the year it spells. */
  lemma ParseFullYear(s: string)
    requires FullYear(s)
    ensures ParseInt(s, None) == Some(YearOf(s))
  {
    ParseIntDecimal(s);
    FullYearValue(s);
  }

  /** A segment is accepted iff it is "20dd" and its year lies within the bounds. */
  lemma MatchIff(param: string, minYear: int, currentYear: int)
    ensures Match(param, minYear, currentYear) <==>
      FullYear(param) && minYear <= YearOf(param) <= currentYear
  {
    if FullYear(param) {
      ParseFullYear(param);
    }
  }

  /**
   * The accepted segments are exactly the spellings of the years from max(minYear, 2000) to
   * min(currentYear, 2099): an accepted segment is such a spelling ...
   */
  lemma AcceptedIsYearString(param: string, minYear: int, currentYear: int)
    requires Match(param, minYear, currentYear)
    ensures 2000 <= YearOf(param) <= 2099 && minYear <= YearOf(param) <= currentYear
    ensures param == YearString(YearOf(param))
  {
    MatchIff(param, minYear, currentYear);
    SpellingUnique(param, YearString(YearOf(param)));
  }

  /** Two four-digit year strings of the same year are equal. */
  lemma SpellingUnique(s: string, t: string)
    requires FullYear(s) && FullYear(t) && YearOf(s) == YearOf(t)
    ensures s == t
  {
    assert DigitValue(s[2]) == DigitValue(t[2]);
    assert s[2] == t[2] && s[3] == t[3];
  }

  /** ... and every such spelling is accepted. */
  lemma YearStringAccepted(y: int, minYear: int, currentYear: int)
    requires 2000 <= y <= 2099 && minYear <= y <= currentYear
    ensures Match(YearString(y), minYear, currentYear)
  {
    MatchIff(YearString(y), minYear, currentYear);
  }
}

module ShortYearParam {
  import opened Wrappers
  import opened Text
  import YearParam

  /** `/^y+\d{2}$/`: one or more 'y' followed by exactly two ASCII digits. */
  predicate ShortYearShape(s: string) {
    |s| >= 3 && IsDigit(s[|s| - 2]) && IsDigit(s[|s| - 1]) &&
    forall i :: 0 <= i < |s| - 2 ==> s[i] == 'y'
  }

  /**
   * `match(param)` of `src/params/shortyear.ts`: the shape test, then `parseInt(param.slice(1))`
   * compared against `MIN_YEAR - 2000` and, plus 2000, against `CURRENT_YEAR` (NaN compares false).
   */
  predicate Match(param: string, minYear: int, currentYear: int) {
    ShortYearShape(param) &&
    var v := ParseInt(param[1..], None);
    v.Some? && v.value >= minYear - 2000 && 2000 + v.value <= currentYear
  }

  /** The two-digit number `dd`. */
  function TwoDigits(a: char, b: char): int {
    10 * YearParam.DigitValue(a) + YearParam.DigitValue(b)
  }

  /** `parseInt` of a string that starts with 'y' is NaN. */
  lemma ParseLeadingY(s: string)
    requires |s| > 0 && s[0] == 'y'
    ensures ParseInt(s, None) == None
  {
    assert !IsSpace(s[0]);
    assert TrimStart(s) == s;
    assert !HasHexPrefix(s);
    assert DigitOf('y', 10).None?;
  }

  /**
   * A segment is accepted iff it is a single 'y' and two digits dd with
   * minYear - 2000 <= dd and 2000 + dd <= currentYear; in particular "yy23" (whose slice
   * starts with 'y'), "Y23", "y2" and "y202" are all rejected.
   */
  lemma MatchIff(param: string, minYear: int, currentYear: int)
    ensures Match(param, minYear, currentYear) <==>
      |param| == 3 && param[0] == 'y' && IsDigit(param[1]) && IsDigit(param[2]) &&
      minYear - 2000 <= TwoDigits(param[1], param[2]) && 2000 + TwoDigits(param[1], param[2]) <= currentYear
  {
    if ShortYearShape(param) {
      if |param| == 3 {
        ParseTwoDigits(param[1..]);
      } else {
        assert param[1] == 'y';
        ParseLeadingY(param[1..]);
      }
    }
  }

  /** `parseInt` reads two digits dd as the number dd. */
  lemma ParseTwoDigits(t: string)
    requires |t| == 2 && IsDigit(t[0]) && IsDigit(t[1])
    ensures ParseInt(t, None) == Some(TwoDigits(t[0], t[1]))
  {
    ParseIntDecimal(t);
    TwoDigitValue(t);
  }

  lemma TwoDigitValue(t: string)
    requires |t| == 2 && IsDigit(t[0]) && IsDigit(t[1])
    ensures AllDigits(t, 10) && Value(t, 10) == TwoDigits(t[0], t[1])
  {
    assert AllDigits(t[..1], 10) && Value(t[..1], 10) == YearParam.DigitValue(t[0]);
    ValueAppend(t[..1], t[1], 10);
    assert t[..1] + [t[1]] == t;
  }
}

module IdParam {
  import opened Wrappers
  import opened Text
  import opened Util

  /** The smallest SteamID64 the id route accepts. */
  const MinSteamId: nat := 76561197962146232

  /** `/^[0-9]+$/`. */
  predicate AllDecimal(s: string) {
    |s| > 0 && forall i :: 0 <= i < |s| ==> IsDigit(s[i])
  }

  /** `match(param)` of `src/params/id.ts`: a digit string whose `BigInt` is at least `MinSteamId`. */
  predicate Match(param: string) {
    AllDecimal(param) &&
    var b := ParseBigInt(param);
    b.Some? && b.value >= MinSteamId
  }

  lemma DecimalDigits(s: string)
    requires AllDecimal(s)
    ensures AllDigits(s, 10)
  {
    forall i | 0 <= i < |s| ensures DigitOf(s[i], 10).Some? {
      assert IsDigit(s[i]);
    }
  }

  /** `BigInt` reads a decimal digit string as its value. */
  lemma BigIntOfDigits(s: string)
    requires AllDecimal(s)
    ensures AllDigits(s, 10) && ParseBigInt(s) == Some(Value(s, 10))
  {
    TrimDigits(s);
    LiteralOfDigits(s);
  }

  lemma LiteralOfDigits(s: string)
    requires AllDecimal(s)
    ensures AllDigits(s, 10) && ParseBigIntLiteral(s) == Some(Value(s, 10))
  {
    DecimalDigits(s);
    assert IsDigit(s[0]) && s[0] != '-' && s[0] != '+';
    assert !(|s| >= 2 && s[0] == '0' && PrefixRadix(s[1]).Some?) by {
      if |s| >= 2 { assert IsDigit(s[1]); }
    }
  }

  lemma TrimDigits(s: string)
    requires AllDecimal(s)
    ensures Trim(s) == s
  {
    assert !IsSpace(s[0]) && TrimStart(s) == s;
    assert !IsSpace(s[|s| - 1]) && TrimEnd(s) == s;
  }

  /** A segment is accepted iff it is a non-empty digit string whose value is at least `MinSteamId`. */
  lemma MatchIff(param: string)
    ensures Match(param) <==> AllDecimal(param) && AllDigits(param, 10) && Value(param, 10) >= MinSteamId
  {
    if AllDecimal(param) {
      BigIntOfDigits(param);
    }
  }

  /** Leading zeros do not change the verdict. */
  lemma LeadingZeroIgnored(param: string)
    requires AllDecimal(param)
    ensures Match("0" + param) == Match(param)
  {
    var z := "0" + param;
    assert AllDecimal(z) by {
      forall i | 0 <= i < |z| ensures IsDigit(z[i]) {
        if i > 0 { assert z[i] == param[i - 1]; }
      }
    }
    MatchIff(param);
    MatchIff(z);
    ValueLeadingZero(param, 10);
  }

  lemma {:induction false} PowMonotone(b: nat, m: nat, n: nat)
    requires b > 0 && m <= n
    ensures Pow(b, m) <= Pow(b, n)
  {
    if m < n {
      PowMonotone(b, m, n - 1);
      MulMonotone(1, b, Pow(b, n - 1));
    }
  }

  /** Every digit string of at most 16 digits is below 10^16 and so below `MinSteamId`: rejected. */
  lemma ShortIdsRejected(param: string)
    requires AllDecimal(param) && |param| <= 16
    ensures !Match(param)
  {
    MatchIff(param);
    ValueBound(param, 10);
    PowMonotone(10, |param|, 16);
    PowAdd(10, 8, 8);
    PowAdd(10, 4, 4);
    PowAdd(10, 2, 2);
    assert Pow(10, 2) == 100;
  }
}

module VanityUrlParam {
  import opened Text

  predicate IsLowerAlnum(c: char) {
    'a' <= c <= 'z' || IsDigit(c)
  }

  predicate IsAsciiAlnum(c: char) {
    'a' <= c <= 'z' || 'A' <= c <= 'Z' || IsDigit(c)
  }

  /** `/^[a-z0-9]{2,32}$/`. */
  predicate VanityPattern(s: string) {
    2 <= |s| <= 32 && forall i :: 0 <= i < |s| ==> IsLowerAlnum(s[i])
  }

  /** `match(param)` of `src/params/vanityurl.ts`: the pattern tested on the lower-cased segment. */
  predicate Match(param: string) {
    VanityPattern(Lower(param))
  }

  /** Accepted segments are 2 to 32 ASCII letters (either case) and digits, and all such are accepted. */
  lemma MatchIff(param: string)
    ensures Match(param) <==> 2 <= |param| <= 32 && forall i :: 0 <= i < |param| ==> IsAsciiAlnum(param[i])
  {
    var l := Lower(param);
    assert forall i :: 0 <= i < |param| ==> (IsLowerAlnum(l[i]) <==> IsAsciiAlnum(param[i]));
  }

  /** A segment and its lower-cased form get the same verdict. */
  lemma CaseInsensitive(param: string)
    ensures Match(Lower(param)) == Match(param)
  {
    assert Lower(Lower(param)) == Lower(param);
  }
}

module InviteCodeParam {
  import opened Wrappers
  import opened Util

  /** The character class of `/^[bcdfghjkmnpqrtvw-]{4,9}$/`. */
  const CodeAlphabet: string := "bcdfghjkmnpqrtvw-"

  /** `match(param)` of `src/params/invitecode.ts`. */
  predicate Match(param: string) {
    4 <= |param| <= 9 && forall i :: 0 <= i < |param| ==> param[i] in CodeAlphabet
  }

  /** The letters of the character class are exactly the keys of the invite-code dictionary. */
  lemma AlphabetIsDictionary(c: char)
    ensures c in CodeAlphabet <==> c == '-' || HexForLetter(c).Some?
  {
    DictionaryIsBijection(c);
    assert c in CodeAlphabet <==> c == '-' || c in InviteLetters;
  }

  /** Every character of an accepted code other than '-' decodes to a hex digit. */
  lemma AcceptedDecodable(param: string)
    requires Match(param)
    ensures forall i :: 0 <= i < |param| && param[i] != '-' ==> HexForLetter(param[i]).Some?
  {
    forall i | 0 <= i < |param| && param[i] != '-' ensures HexForLetter(param[i]).Some? {
      AlphabetIsDictionary(param[i]);
    }
  }

  /** The digits of a code are empty iff none of its characters is a dictionary letter. */
  lemma {:induction false} NoDigits(code: string)
    ensures MappedDigits(code) == [] <==> forall i :: 0 <= i < |code| ==> HexForLetter(code[i]).None?
  {
    if code != [] {
      NoDigits(code[1..]);
      assert forall i :: 1 <= i < |code| ==> code[i] == code[1..][i - 1];
      if HexForLetter(code[0]).None? {
        assert forall i :: 0 <= i < |code| ==> (HexForLetter(code[i]).None? <==> (i == 0 || HexForLetter(code[1..][i - 1]).None?));
      }
    }
  }

  /**
   * An accepted code fails to decode exactly when it is made of dashes only; "----" is such a
   * code, accepted here and decoded to nothing.
   */
  lemma DashesOnly(param: string)
    requires Match(param)
    ensures InviteUrlToSteamID(param).None? <==> forall i :: 0 <= i < |param| ==> param[i] == '-'
  {
    NoDigits(param);
    DashIsNoLetter();
    forall i | 0 <= i < |param| ensures HexForLetter(param[i]).None? <==> param[i] == '-' {
      AlphabetIsDictionary(param[i]);
    }
  }

  lemma DashIsNoLetter()
    ensures HexForLetter('-').None?
  {
    DictionaryIsBijection('-');
    assert '-' !in InviteLetters;
  }

  lemma AllDashesExample()
    ensures Match("----") && InviteUrlToSteamID("----") == None
  {
    DashesOnly("----");
  }
}

=== FILE: player_achievements.dfy ===
/**
 * The document `getPlayerAchievements` returns: the cached unlock map, refreshed from
 * `GetPlayerAchievements` unless the cached copy may be served.
 */
module PlayerUnlocks {
  import opened Wrappers
  import opened Documents

  /**
   * Whether the cached copy is served: it must exist, the fetch must not be forced, and it must
   * not be stamped with a (nonzero) year older than a nonzero requested one.
   */
  predicate UseCached(cached: Option<PlayerAchievements>, forYear: int, forceFetch: bool) {
    cached.Some? && !forceFetch && !(cached.value.forYear != 0 && forYear != 0 && cached.value.forYear < forYear)
  }

  /** The `reduce` over the fetched unlocks: apiname to unlock time, a later entry overriding an earlier one. */
  function UnlocksOf(xs: seq<Unlock>): (m: map<string, int>)
    ensures forall k :: k in m <==> exists u :: u in xs && u.apiname == k
  {
    if xs == [] then map[]
    else
      var u := xs[|xs| - 1];
      assert forall v :: v in xs <==> v in xs[..|xs| - 1] || v == u;
      UnlocksOf(xs[..|xs| - 1])[u.apiname := u.unlocktime]
  }

  function CachedMap(cached: Option<PlayerAchievements>): map<string, int> {
    if cached.Some? then cached.value.achievements else map[]
  }

  /** The document written when the cached copy is not served. */
  function RefreshPlayer(cached: Option<PlayerAchievements>, answer: Option<PlayerStats>, forYear: int, now: int): PlayerAchievements {
    if answer.None? || !answer.value.success then
      PlayerAchievements(CachedMap(cached), false, forYear, now)
    else
      PlayerAchievements(CachedMap(cached) + UnlocksOf(answer.value.achievements), true, forYear, now)
  }

  /**
   * A refreshed copy, stamped with the year it was fetched for, is served to a later unforced
   * request exactly when either year is zero or the request is for the same or an earlier year.
   */
  lemma RefreshedServedUntilLaterYear(cached: Option<PlayerAchievements>, answer: Option<PlayerStats>, forYear: int,
                                      now: int, laterYear: int, forceFetch: bool)
    ensures UseCached(Some(RefreshPlayer(cached, answer, forYear, now)), laterYear, forceFetch) <==>
      !forceFetch && (forYear == 0 || laterYear == 0 || laterYear <= forYear)
  {
  }

  /**
   * The refreshed document: the requested year and instant, success exactly when Steam answered
   * with success, and an unlock map that keeps every cached apiname, takes every fetched entry
   * (the last one for a repeated apiname) on success, and holds nothing else.
   */
  lemma RefreshShape(cached: Option<PlayerAchievements>, answer: Option<PlayerStats>, forYear: int, now: int)
    ensures var r := RefreshPlayer(cached, answer, forYear, now);
      r.forYear == forYear && r.fetchedAt == now &&
      (r.success <==> answer.Some? && answer.value.success) &&
      CachedMap(cached).Keys <= r.achievements.Keys &&
      (!r.success ==> r.achievements == CachedMap(cached)) &&
      (r.success ==>
        (forall k :: k in UnlocksOf(answer.value.achievements) ==> r.achievements[k] == UnlocksOf(answer.value.achievements)[k]) &&
        (forall k :: k in r.achievements && k !in UnlocksOf(answer.value.achievements) ==> r.achievements[k] == CachedMap(cached)[k]) &&
        (forall k :: k in r.achievements <==> k in CachedMap(cached) || exists u :: u in answer.value.achievements && u.apiname == k))
  {
  }

  /** The unlock time recorded for an apiname is that of its last occurrence in the fetched list. */
  lemma {:induction false} LastUnlockWins(xs: seq<Unlock>, i: nat)
    requires i < |xs|
    requires forall j :: i < j < |xs| ==> xs[j].apiname != xs[i].apiname
    ensures xs[i].apiname in UnlocksOf(xs) && UnlocksOf(xs)[xs[i].apiname] == xs[i].unlocktime
  {
    if i < |xs| - 1 {
      LastUnlockWins(xs[..|xs| - 1], i);
    }
  }

  /** Refreshing twice with the same successful answer gives the same unlock map as refreshing once. */
  lemma RefreshIdempotent(cached: Option<PlayerAchievements>, answer: Option<PlayerStats>, forYear: int, now1: int, now2: int)
    ensures var once := RefreshPlayer(cached, answer, forYear, now1);
      RefreshPlayer(Some(once), answer, forYear, now2).achievements == once.achievements
  {
    var once := RefreshPlayer(cached, answer, forYear, now1);
    if answer.Some? && answer.value.success {
      var u := UnlocksOf(answer.value.achievements);
      assert (CachedMap(cached) + u) + u == CachedMap(cached) + u;
    }
  }
}

=== FILE: queue.dfy ===
/**
 * The refresh queue of `src/lib/server/queue.ts`: tasks wait in order and a worker with a
 * concurrency of one runs them, each as a forced refresh through the data layer.
 */
module RefreshQueue {
  import opened Wrappers
  import opened Documents
  import opened Store
  import Data
  import GameAchievementsMerge
  import YearAchievementsFold
  import PlayerUnlocks

  /** The four task kinds; `reason` is free text for the log. */
  datatype Task =
    | FetchProfile(steamid: string, loggedIn: Option<bool>, reason: Option<string>)
    | FetchGameAchievements(appid: nat, gameSteamid: Option<string>, reason: Option<string>)
    | FetchPlayerAchievements(appid: nat, year: int, steamid: string, reason: Option<string>)
    | FetchUserYearAchievements(year: int, steamid: string, appids: seq<nat>, reason: Option<string>)

  /** A call the worker makes into the data layer, with its arguments. */
  datatype Call =
    | GetUser(steamid: string, loggedInUser: bool, skipCache: bool)
    | GetProfileItems(steamid: string, skipCache: bool)
    | GetGameAchievements(appid: nat, steamid: string, forceFetch: bool)
    | GetPlayerAchievements(steamid: string, appid: nat, forYear: int, forceFetch: bool)
    | GetUserYearAchievements(steamid: string, year: int, appids: seq<nat>, skipCache: bool)

  /** The calls the worker makes for a task, in order. */
  function Plan(t: Task): (calls: seq<Call>)
    ensures |calls| == (if t.FetchProfile? then 2 else 1)
    ensures t.FetchProfile? ==> calls[0].GetUser? && calls[1].GetProfileItems?
  {
    match t
    case FetchProfile(steamid, loggedIn, _) =>
      [GetUser(steamid, loggedIn.GetOr(false), true), GetProfileItems(steamid, true)]
    case FetchGameAchievements(appid, steamid, _) =>
      [GetGameAchievements(appid, steamid.GetOr(GameAchievementsMerge.WendySteamId), true)]
    case FetchPlayerAchievements(appid, year, steamid, _) =>
      [GetPlayerAchievements(steamid, appid, year, true)]
    case FetchUserYearAchievements(year, steamid, appids, _) =>
      [GetUserYearAchievements(steamid, year, appids, true)]
  }

  /** Whether a call bypasses the cache. */
  predicate Forced(c: Call) {
    match c
    case GetUser(_, _, skipCache) => skipCache
    case GetProfileItems(_, skipCache) => skipCache
    case GetGameAchievements(_, _, forceFetch) => forceFetch
    case GetPlayerAchievements(_, _, _, forceFetch) => forceFetch
    case GetUserYearAchievements(_, _, _, skipCache) => skipCache
  }

  /** Every call the worker makes is a forced refresh. */
  lemma AllForced(t: Task)
    ensures forall c :: c in Plan(t) ==> Forced(c)
  {
  }

  /** The reason never changes what the worker does. */
  lemma ReasonIgnored(t: Task, reason: Option<string>)
    ensures Plan(t.(reason := reason)) == Plan(t)
  {
  }

  /** `fastq(worker, 1)` with its waiting tasks and a log of the work it did. */
  class Queue {
    const concurrency: nat
    const redis: Redis
    /** Tasks waiting, oldest first. */
    var pending: seq<Task>
    /** Tasks whose callback `cb(null)` ran, in order. */
    ghost var completed: seq<Task>
    /** The data-layer calls made, in order. */
    ghost var calls: seq<Call>

    constructor (redis: Redis)
      ensures this.redis == redis && concurrency == 1
      ensures pending == [] && completed == [] && calls == []
    {
      this.redis := redis;
      concurrency := 1;
      pending, completed, calls := [], [], [];
    }

    /** `q.push(task)`. */
    method Push(t: Task)
      modifies this`pending
      ensures pending == old(pending) + [t]
    {
      pending := pending + [t];
    }

    /**
     * The worker run on the oldest task: its calls are exactly `Plan(task)`, the callback runs once,
     * and the cache entry the task names is replaced by a freshly fetched document.
     */
    method Step(up: Upstream, now: int)
      requires pending != [] && redis.Valid()
      modifies this`pending, this`completed, this`calls
      modifies redis`users, redis`profileItems, redis`gameAch, redis`playerAch, redis`yearAch
      ensures redis.Valid()
      ensures pending == old(pending)[1..]
      ensures completed == old(completed) + [old(pending)[0]]
      ensures calls == old(calls) + Plan(old(pending)[0])
      ensures Effect(old(pending)[0], up, now, old(redis.users), redis.users, old(redis.profileItems), redis.profileItems,
                     old(redis.gameAch), redis.gameAch, old(redis.playerAch), redis.playerAch, old(redis.yearAch), redis.yearAch)
    {
      var t := pending[0];
      pending := pending[1..];
      var made := Work(redis, t, up, now);
      calls := calls + made;
      completed := completed + [t];
    }
  }

  /**
   * `worker(task, cb)` up to the callback: the data-layer calls for the task's kind. `made` lists
   * them with the arguments they were given, in the order they were made.
   */
  method Work(redis: Redis, t: Task, up: Upstream, now: int) returns (made: seq<Call>)
    requires redis.Valid()
    modifies redis`users, redis`profileItems, redis`gameAch, redis`playerAch, redis`yearAch
    ensures redis.Valid()
    ensures made == Plan(t)
    ensures Effect(t, up, now, old(redis.users), redis.users, old(redis.profileItems), redis.profileItems,
                   old(redis.gameAch), redis.gameAch, old(redis.playerAch), redis.playerAch, old(redis.yearAch), redis.yearAch)
  {
    match t {
      case FetchProfile(s, loggedIn, _) => made := WorkProfile(redis, t, up, now);
      case FetchGameAchievements(appid, sid, _) =>
        var steamid := sid.GetOr(GameAchievementsMerge.WendySteamId);
        var _ := Data.GetGameAchievements(redis, appid, steamid, true, up, now);
        made := [GetGameAchievements(appid, steamid, true)];
      case FetchPlayerAchievements(appid, year, s, _) =>
        var _ := Data.GetPlayerAchievements(redis, s, appid, year, true, up, now);
        made := [GetPlayerAchievements(s, appid, year, true)];
      case FetchUserYearAchievements(year, s, appids, _) =>
        var _ := Data.GetUserYearAchievements(redis, s, year, appids, true, up, now);
        made := [GetUserYearAchievements(s, year, appids, true)];
    }
  }

  /** The profile task: `getUser` then `getProfileItems`, both skipping the cache. */
  method WorkProfile(redis: Redis, t: Task, up: Upstream, now: int) returns (made: seq<Call>)
    requires redis.Valid() && t.FetchProfile?
    modifies redis`users, redis`profileItems
    ensures redis.Valid()
    ensures made == Plan(t)
    ensures Effect(t, up, now, old(redis.users), redis.users, old(redis.profileItems), redis.profileItems,
                   redis.gameAch, redis.gameAch, redis.playerAch, redis.playerAch, redis.yearAch, redis.yearAch)
  {
    var loggedInUser := t.loggedIn.GetOr(false);
    var _ := Data.GetUser(redis, t.steamid, loggedInUser, true, up, now);
    var _ := Data.GetProfileItems(redis, t.steamid, true, up, now);
    made := [GetUser(t.steamid, loggedInUser, true), GetProfileItems(t.steamid, true)];
  }

  function CachedGame(gameAch: map<nat, Entry<Option<GameAchievements>>>, appid: nat): Option<GameAchievements> {
    if appid in gameAch then gameAch[appid].value else None
  }

  function CachedPlayer(playerAch: map<(string, nat), Entry<PlayerAchievements>>, steamid: string, appid: nat): Option<PlayerAchievements> {
    if (steamid, appid) in playerAch then Some(playerAch[(steamid, appid)].value) else None
  }

  /**
   * What running a task does to the cache: the entry the task names is replaced by a freshly
   * fetched document (for a profile, the user and the profile items), and every other family of
   * keys is left as it was.
   */
  ghost predicate Effect(t: Task, up: Upstream, now: int,
                         users0: map<string, Entry<UserDoc>>, users: map<string, Entry<UserDoc>>,
                         items0: map<string, Entry<Option<Stamped>>>, items: map<string, Entry<Option<Stamped>>>,
                         game0: map<nat, Entry<Option<GameAchievements>>>, game: map<nat, Entry<Option<GameAchievements>>>,
                         player0: map<(string, nat), Entry<PlayerAchievements>>, player: map<(string, nat), Entry<PlayerAchievements>>,
                         year0: map<(string, int), Entry<YearAchievements>>, year: map<(string, int), Entry<YearAchievements>>)
  {
    match t
    case FetchProfile(s, _, _) =>
      (match up.summary(s)
       case Undefined => users == users0[s := Entry(Zero, Some(MissingUserTtl))]
       case Failed => users == users0
       case Found(doc) => users == users0[s := Entry(Summary(Stamped(doc, now)), None)]) &&
      items == items0[s := if up.profileItems(s).Some? then Entry(Some(Stamped(up.profileItems(s).value, now)), None)
                           else Entry(None, Some(MissingItemsTtl))] &&
      game == game0 && player == player0 && year == year0
    case FetchGameAchievements(appid, sid, _) =>
      game == game0[appid := Entry(GameAchievementsMerge.Refresh(CachedGame(game0, appid), up, appid,
                                     sid.GetOr(GameAchievementsMerge.WendySteamId), now), None)] &&
      users == users0 && items == items0 && player == player0 && year == year0
    case FetchPlayerAchievements(appid, y, s, _) =>
      player == player0[(s, appid) := Entry(PlayerUnlocks.RefreshPlayer(CachedPlayer(player0, s, appid),
                                              up.playerAchievements(s, appid), y, now), None)] &&
      users == users0 && items == items0 && game == game0 && year == year0
    case FetchUserYearAchievements(y, s, appids, _) =>
      year == year0[(s, y) := Entry(YearAchievementsFold.Fold(YearAchievementsFold.Initial(now),
                                      YearAchievementsFold.Parts(up, s, y, YearAchievementsFold.Batches(appids))), None)] &&
      users == users0 && items == items0 && game == game0 && player == player0
  }

  /** The cache keys the calls of a plan name, one set per family. */
  function UserKeys(calls: seq<Call>): set<string> { set c | c in calls && c.GetUser? :: c.steamid }
  function ItemKeys(calls: seq<Call>): set<string> { set c | c in calls && c.GetProfileItems? :: c.steamid }
  function GameKeys(calls: seq<Call>): set<nat> { set c | c in calls && c.GetGameAchievements? :: c.appid }
  function PlayerKeys(calls: seq<Call>): set<(string, nat)> { set c | c in calls && c.GetPlayerAchievements? :: (c.steamid, c.appid) }
  function YearKeys(calls: seq<Call>): set<(string, int)> { set c | c in calls && c.GetUserYearAchievements? :: (c.steamid, c.year) }

  /** `m` agrees with `m0` on every key outside `keys`. */
  ghost predicate SameOutside<K(!new), V>(m0: map<K, V>, m: map<K, V>, keys: set<K>) {
    (forall k :: k !in keys ==> (k in m <==> k in m0)) &&
    (forall k :: k in m && k !in keys ==> m[k] == m0[k])
  }

  /** Running a task changes the cache only at the keys its planned calls name. */
  lemma EffectConfined(t: Task, up: Upstream, now: int,
                       users0: map<string, Entry<UserDoc>>, users: map<string, Entry<UserDoc>>,
                       items0: map<string, Entry<Option<Stamped>>>, items: map<string, Entry<Option<Stamped>>>,
                       game0: map<nat, Entry<Option<GameAchievements>>>, game: map<nat, Entry<Option<GameAchievements>>>,
                       player0: map<(string, nat), Entry<PlayerAchievements>>, player: map<(string, nat), Entry<PlayerAchievements>>,
                       year0: map<(string, int), Entry<YearAchievements>>, year: map<(string, int), Entry<YearAchievements>>)
    requires Effect(t, up, now, users0, users, items0, items, game0, game, player0, player, year0, year)
    ensures var calls := Plan(t);
      SameOutside(users0, users, UserKeys(calls)) && SameOutside(items0, items, ItemKeys(calls)) &&
      SameOutside(game0, game, GameKeys(calls)) && SameOutside(player0, player, PlayerKeys(calls)) &&
      SameOutside(year0, year, YearKeys(calls))
  {
  }

  /**
   * Each call a task plans leaves at its key the document that call computes from its own
   * arguments: the user (kept when the summary request fails), the profile items, the merged game
   * achievements, the player's unlocks stamped with the call's `forYear`, the year document; every
   * written document carries the current instant.
   */
  lemma EffectFollowsPlan(t: Task, up: Upstream, now: int,
                          users0: map<string, Entry<UserDoc>>, users: map<string, Entry<UserDoc>>,
                          items0: map<string, Entry<Option<Stamped>>>, items: map<string, Entry<Option<Stamped>>>,
                          game0: map<nat, Entry<Option<GameAchievements>>>, game: map<nat, Entry<Option<GameAchievements>>>,
                          player0: map<(string, nat), Entry<PlayerAchievements>>, player: map<(string, nat), Entry<PlayerAchievements>>,
                          year0: map<(string, int), Entry<YearAchievements>>, year: map<(string, int), Entry<YearAchievements>>)
    requires Effect(t, up, now, users0, users, items0, items, game0, game, player0, player, year0, year)
    ensures forall c :: c in Plan(t) && c.GetUser? ==>
      (up.summary(c.steamid).Failed? ==> users == users0) &&
      (!up.summary(c.steamid).Failed? ==>
         c.steamid in users && (users[c.steamid].value.Summary? ==> users[c.steamid].value.summary.fetchedAt == now))
    ensures forall c :: c in Plan(t) && c.GetProfileItems? ==>
      c.steamid in items && (items[c.steamid].value.Some? ==> items[c.steamid].value.value.fetchedAt == now)
    ensures forall c :: c in Plan(t) && c.GetGameAchievements? ==>
      c.appid in game &&
      game[c.appid].value == GameAchievementsMerge.Refresh(CachedGame(game0, c.appid), up, c.appid, c.steamid, now)
    ensures forall c :: c in Plan(t) && c.GetPlayerAchievements? ==>
      (c.steamid, c.appid) in player &&
      player[(c.steamid, c.appid)].value.forYear == c.forYear && player[(c.steamid, c.appid)].value.fetchedAt == now
    ensures forall c :: c in Plan(t) && c.GetUserYearAchievements? ==>
      (c.steamid, c.year) in year &&
      year[(c.steamid, c.year)].value == YearAchievementsFold.Fold(YearAchievementsFold.Initial(now),
        YearAchievementsFold.Parts(up, c.steamid, c.year, YearAchievementsFold.Batches(c.appids))) &&
      year[(c.steamid, c.year)].value.fetchedAt == now
  {
    match t
    case FetchUserYearAchievements(y, s, appids, _) =>
      YearAchievementsFold.FetchStampKept(YearAchievementsFold.Initial(now),
        YearAchievementsFold.Parts(up, s, y, YearAchievementsFold.Batches(appids)), YearAchievementsFold.Sum);
    case _ =>
  }
}

=== FILE: server_util.dfy ===
/** `parseYear` of `src/lib/server/util.ts`: the year a request asks for through `?year=`. */
module ServerUtil {
  import opened Wrappers
  import opened Text
  import Util
  import YearParam

  /**
   * `parseYear(request)`, with the raw request URL, the value of its `year` query parameter as
   * `URL.searchParams.get` returns it, and the latest year as inputs. The query is consulted only
   * when the raw URL contains "?year=20"; the value must be exactly "20dd" and lie within
   * [MIN_YEAR, latest] to replace the latest year.
   */
  function ParseYear(rawUrl: string, yearParam: Option<string>, latest: int): (y: int)
    ensures !Contains(rawUrl, "?year=20") || yearParam.None? ==> y == latest
    ensures y != latest ==>
      Contains(rawUrl, "?year=20") && yearParam.Some? && YearParam.FullYear(yearParam.value) &&
      y == YearParam.YearOf(yearParam.value) && Util.MIN_YEAR <= y <= latest
    ensures (Contains(rawUrl, "?year=20") && yearParam.Some? && YearParam.FullYear(yearParam.value) &&
             Util.MIN_YEAR <= YearParam.YearOf(yearParam.value) <= latest) ==>
            y == YearParam.YearOf(yearParam.value)
    ensures latest >= Util.MIN_YEAR ==> Util.MIN_YEAR <= y <= latest
  {
    if Contains(rawUrl, "?year=20") && yearParam.Some? && yearParam.value != "" && YearParam.FullYear(yearParam.value) then
      YearParam.ParseFullYear(yearParam.value);
      var parsed := ParseInt(yearParam.value, None);
      if parsed.Some? && parsed.value >= Util.MIN_YEAR && parsed.value <= latest then parsed.value else latest
    else
      latest
  }

  /** A value that is not "20dd" never changes the result, whatever the URL. */
  lemma MalformedIgnored(rawUrl: string, value: string, latest: int)
    requires !YearParam.FullYear(value)
    ensures ParseYear(rawUrl, Some(value), latest) == latest
  {
  }

  /** The URL test is on the raw text: a URL that does not contain "?year=20" yields the latest year. */
  lemma QueryNeedsMarker(rawUrl: string, yearParam: Option<string>, latest: int)
    requires !Contains(rawUrl, "?year=20")
    ensures ParseYear(rawUrl, yearParam, latest) == latest
  {
  }
}

=== FILE: sse_manager.dfy ===
/**
 * The server-sent-event fan-out of `src/lib/server/sse/manager.ts`: connections waiting on the
 * same achievement job (`"<steamid>-<year>"`) form a group, and a periodic sweep drops groups
 * nobody listens to or nothing will answer, and tells the others their place in the queue.
 */
module SseManager {
  import opened Wrappers
  import opened Text

  /** The ready state of a connection; only `Ready` connections are accepted. */
  datatype ReadyState = Connecting | Ready | Closed

  /** The events a connection carries (`AnyMessageEvent`); achievement payloads are left out. */
  datatype Event =
    | Init(clientId: string, streaming: bool)
    | Ping(t: int)
    | Update(text: Option<string>, progress: Option<int>)
    | End(error: Option<string>)

  /** A queued achievement job, as far as the sweep reads it. */
  datatype AchTask = AchTask(steamid: string, year: int)

  /** A client's event stream: its state and the events sent on it so far. */
  class Connection {
    const id: string
    var state: ReadyState
    var received: seq<Event>

    constructor (id: string, state: ReadyState)
      ensures this.id == id && this.state == state && received == []
    {
      this.id := id;
      this.state := state;
      received := [];
    }

    method Send(e: Event)
      modifies this`received
      ensures received == old(received) + [e]
    {
      received := received + [e];
    }

    method Close()
      modifies this`state
      ensures state == Closed
    {
      state := Closed;
    }
  }

  // ---------------------------------------------------------------------------------------------
  // Job ids and the sweep's decision

  /** The text before the first `c` (all of `s` when there is none). */
  function UpTo(s: string, c: char): (r: string)
    ensures |r| <= |s| && r == s[..|r|] && c !in r
    ensures |r| < |s| ==> s[|r|] == c
  {
    if s == [] || s[0] == c then [] else [s[0]] + UpTo(s[1..], c)
  }

  /** `const [steamid, yearStr] = id.split('-')`: `yearStr` is absent without a dash. */
  function SplitJobId(id: string): (string, Option<string>) {
    var steamid := UpTo(id, '-');
    if |steamid| == |id| then (steamid, None) else (steamid, Some(UpTo(id[|steamid| + 1..], '-')))
  }

  /** `parseInt(yearStr, 10)`; `None` stands for NaN (including `parseInt(undefined)`). */
  function JobYear(id: string): Option<int> {
    match SplitJobId(id).1
    case None => None
    case Some(y) => ParseInt(y, Some(10))
  }

  /** `currentQueue.findIndex(...)`: the first queued task for this SteamID and year, or -1. */
  function FindTask(queue: seq<AchTask>, steamid: string, year: Option<int>): (r: int)
    ensures -1 <= r < |queue|
  {
    if queue == [] then -1
    else if queue[0].steamid == steamid && year == Some(queue[0].year) then 0
    else
      var r := FindTask(queue[1..], steamid, year);
      if r == -1 then -1 else r + 1
  }

  /** Whether a queued task is for this SteamID and year. */
  predicate Matches(t: AchTask, steamid: string, year: Option<int>) {
    t.steamid == steamid && year == Some(t.year)
  }

  /** `findIndex` finds the first matching task, and answers -1 exactly when none matches. */
  lemma {:induction false} FindTaskFirst(queue: seq<AchTask>, steamid: string, year: Option<int>)
    ensures var r := FindTask(queue, steamid, year);
      (r >= 0 ==> Matches(queue[r], steamid, year) && forall j :: 0 <= j < r ==> !Matches(queue[j], steamid, year)) &&
      (r == -1 <==> forall j :: 0 <= j < |queue| ==> !Matches(queue[j], steamid, year))
  {
    if queue != [] && !Matches(queue[0], steamid, year) {
      FindTaskFirst(queue[1..], steamid, year);
      assert forall j :: 1 <= j < |queue| ==> queue[j] == queue[1..][j - 1];
    }
  }

  /** What the sweep does with one group. */
  datatype Action = Drop | Notify(position: nat) | Leave

  function SweepAction(size: nat, id: string, queue: seq<AchTask>, running: Option<string>): Action {
    if size == 0 then Drop
    else
      var idx := FindTask(queue, SplitJobId(id).0, JobYear(id));
      if running != Some(id) && idx == -1 then Drop
      else if idx != -1 then Notify(idx + 1)
      else Leave
  }

  /** The update a queued group receives. */
  function QueueNotice(position: nat): Event {
    Update(Some("In queue: " + NatToString(position)), None)
  }

  /** What a client of a group receives from the sweep. */
  function Notice(action: Action): seq<Event> {
    if action.Notify? then [QueueNotice(action.position)] else []
  }

  /**
   * A group survives the sweep iff it has a client and its job is running or queued; a queued
   * group learns the 1-based position of the first matching task.
   */
  lemma SweepActionIff(size: nat, id: string, queue: seq<AchTask>, running: Option<string>)
    ensures var steamid := SplitJobId(id).0;
      var queued := exists j :: 0 <= j < |queue| && queue[j].steamid == steamid && JobYear(id) == Some(queue[j].year);
      (SweepAction(size, id, queue, running) == Drop <==> size == 0 || (running != Some(id) && !queued)) &&
      (SweepAction(size, id, queue, running).Notify? <==> size > 0 && queued) &&
      (SweepAction(size, id, queue, running).Notify? ==>
        var p := SweepAction(size, id, queue, running).position;
        1 <= p <= |queue| && queue[p - 1].steamid == steamid && JobYear(id) == Some(queue[p - 1].year) &&
        forall j :: 0 <= j < p - 1 ==> !(queue[j].steamid == steamid && JobYear(id) == Some(queue[j].year)))
  {
    FindTaskFirst(queue, SplitJobId(id).0, JobYear(id));
  }

  /** The id `"<steamid>-<year>"` of a job reads back as that SteamID and year. */
  lemma JobIdRoundTrip(steamid: string, year: string)
    requires '-' !in steamid
    requires |year| > 0 && forall i :: 0 <= i < |year| ==> IsDigit(year[i])
    ensures SplitJobId(steamid + "-" + year) == (steamid, Some(year))
    ensures JobYear(steamid + "-" + year) == Some(Value(year, 10))
  {
    JobIdSplits(steamid, year);
    ParseIntDecimal(year);
  }

  lemma JobIdSplits(steamid: string, year: string)
    requires '-' !in steamid && '-' !in year
    ensures SplitJobId(steamid + "-" + year) == (steamid, Some(year))
  {
    var id := steamid + "-" + year;
    assert id == steamid + ("-" + year);
    UpToPrefix(steamid, "-" + year, '-');
    assert UpTo(id, '-') == steamid && |steamid| < |id|;
    assert id[|steamid| + 1..] == year;
    UpToWhole(year, '-');
  }

  lemma {:induction false} UpToPrefix(a: string, b: string, c: char)
    requires c !in a && |b| > 0 && b[0] == c
    ensures UpTo(a + b, c) == a
  {
    if a == [] {
      assert a + b == b;
    } else {
      assert (a + b)[1..] == a[1..] + b;
      UpToPrefix(a[1..], b, c);
    }
  }

  lemma {:induction false} UpToWhole(a: string, c: char)
    requires c !in a
    ensures UpTo(a, c) == a
  {
    if a != [] {
      UpToWhole(a[1..], c);
    }
  }

  // ---------------------------------------------------------------------------------------------
  // Groups and the manager

  /** The connections waiting on one job, keyed by connection id. */
  class SSEGroup {
    const manager: SSEManager
    const id: string
    var clients: map<string, Connection>
    /** The events `send` was called with, in order. */
    ghost var sent: seq<Event>

    constructor (manager: SSEManager, id: string)
      ensures this.manager == manager && this.id == id && clients == map[] && sent == []
    {
      this.manager := manager;
      this.id := id;
      clients := map[];
      sent := [];
    }

    /** Every client is stored under its own id. */
    ghost predicate Valid()
      reads this`clients
    {
      forall k :: k in clients ==> clients[k].id == k
    }

    /**
     * `add(connection)`: a connection that is not ready is ignored; a ready one first receives
     * `init{id, streaming: true}` and is then registered under its id, which is returned.
     */
    method Add(connection: Connection) returns (r: Option<string>)
      requires Valid()
      modifies this`clients, connection`received
      ensures Valid()
      ensures old(connection.state) != Ready ==>
        r == None && clients == old(clients) && connection.received == old(connection.received)
      ensures old(connection.state) == Ready ==>
        r == Some(connection.id) && clients == old(clients)[connection.id := connection] &&
        connection.received == old(connection.received) + [Init(connection.id, true)]
    {
      if connection.state != Ready {
        return None;
      }
      connection.Send(Init(connection.id, true));
      clients := clients[connection.id := connection];
      r := Some(connection.id);
    }

    /** The `close` handler registered by `add`: the connection leaves the group. */
    method OnClose(connection: Connection)
      requires Valid()
      modifies this`clients
      ensures Valid()
      ensures clients == old(clients) - {connection.id}
    {
      clients := clients - {connection.id};
    }

    /**
     * `close(clientId)`: `false` for an unknown id; otherwise the connection is closed, its close
     * handler removes it, and the answer is `true`.
     */
    method Close(clientId: string) returns (found: bool)
      requires Valid()
      modifies this`clients, clients.Values`state
      ensures Valid()
      ensures found <==> clientId in old(clients)
      ensures clients == old(clients) - {clientId}
      ensures found ==> old(clients)[clientId].state == Closed
      ensures forall c :: c in old(clients.Values) && c.id != clientId ==> c.state == old(c.state)
    {
      if clientId !in clients {
        return false;
      }
      var connection := clients[clientId];
      connection.Close();
      OnClose(connection);
      found := true;
    }

    /** `send(event)`: every client currently in the group receives the event. */
    method Send(e: Event)
      requires Valid()
      modifies this`sent, clients.Values`received
      ensures clients == old(clients) && Valid()
      ensures sent == old(sent) + [e]
      ensures forall c :: c in clients.Values ==> c.received == old(c.received) + [e]
    {
      var left := clients.Keys;
      while left != {}
        invariant left <= clients.Keys
        invariant clients == old(clients) && sent == old(sent)
        invariant forall k :: k in clients && k !in left ==> clients[k].received == old(clients[k].received) + [e]
        invariant forall k :: k in left ==> clients[k].received == old(clients[k].received)
        decreases left
      {
        var k :| k in left;
        clients[k].Send(e);
        left := left - {k};
      }
      sent := sent + [e];
    }

    /**
     * `destroy()`: every client is closed and leaves the group, and the group leaves its
     * manager's `jobGroups`.
     */
    method Destroy()
      requires Valid()
      modifies this`clients, clients.Values`state, manager`jobGroups
      ensures Valid() && clients == map[]
      ensures manager.jobGroups == old(manager.jobGroups) - {id}
      ensures forall c :: c in old(clients.Values) ==> c.state == Closed
    {
      var ids := clients.Keys;
      while ids != {}
        invariant Valid()
        invariant manager.jobGroups == old(manager.jobGroups)
        invariant clients.Keys == ids
        invariant forall k :: k in clients ==> clients[k] == old(clients[k])
        invariant forall c :: c in old(clients.Values) && c.id !in ids ==> c.state == Closed
        decreases ids
      {
        var k :| k in ids;
        var _ := Close(k);
        ids := ids - {k};
      }
      manager.jobGroups := manager.jobGroups - {id};
    }
  }

  /** What a group shows: its clients and the events sent to it. */
  datatype GroupView = GroupView(clients: map<string, Connection>, sent: seq<Event>)

  /** The view of every group in `groups`. */
  ghost function GroupViews(groups: map<string, SSEGroup>): (r: map<string, GroupView>)
    reads groups.Values
    ensures r.Keys == groups.Keys
  {
    map k | k in groups :: GroupView(groups[k].clients, groups[k].sent)
  }

  /** A group after the sweep: dropped, it has no client left; queued, it was sent its position. */
  function SweptGroup(g: GroupView, action: Action): GroupView {
    match action
    case Drop => GroupView(map[], g.sent)
    case Notify(p) => GroupView(g.clients, g.sent + [QueueNotice(p)])
    case Leave => g
  }

  /** What a connection shows: the events it received and its state. */
  datatype View = View(received: seq<Event>, state: ReadyState)

  /** The view of every connection in `cs`. */
  ghost function Views(cs: set<Connection>): map<Connection, View>
    reads cs
  {
    map c | c in cs :: View(c.received, c.state)
  }

  /** A client after its group is swept: it gets the group's notice, and is closed when dropped. */
  function Swept(v: View, action: Action): (r: View)
    ensures r.received == v.received + Notice(action)
    ensures r.state == if action == Drop then Closed else v.state
  {
    View(v.received + Notice(action), if action == Drop then Closed else v.state)
  }

  /** `views` after sweeping one group, whose clients are `hit`, with `action`. */
  ghost function Apply(views: map<Connection, View>, hit: set<Connection>, action: Action): (r: map<Connection, View>)
    ensures r.Keys == views.Keys
    ensures forall c :: c in views && c in hit ==> r[c] == Swept(views[c], action)
    ensures forall c :: c in views && c !in hit ==> r[c] == views[c]
  {
    map c | c in views :: if c in hit then Swept(views[c], action) else views[c]
  }

  /** No connection is a client of two jobs. */
  ghost predicate Disjoint(cs: map<string, set<Connection>>) {
    forall k1, k2 :: k1 in cs && k2 in cs && k1 != k2 ==> cs[k1] !! cs[k2]
  }

  /** What the manager shows: its registered groups, and the views of its groups and connections. */
  datatype Snapshot = Snapshot(jobs: map<string, SSEGroup>, groups: map<string, GroupView>, conns: map<Connection, View>)

  /** `v` after sweeping the group under `k`, whose clients are `hit`, with `action`. */
  ghost function Step(v: Snapshot, k: string, hit: set<Connection>, action: Action): Snapshot {
    Snapshot(
      if action == Drop then v.jobs - {k} else v.jobs,
      if k in v.groups then v.groups[k := SweptGroup(v.groups[k], action)] else v.groups,
      Apply(v.conns, hit, action))
  }

  /** `v0` after the groups in `order` have been swept one after another, each with its own action. */
  ghost function Fold(v0: Snapshot, cs: map<string, set<Connection>>, acts: map<string, Action>, order: seq<string>): Snapshot
  {
    if order == [] then v0
    else
      var k := order[|order| - 1];
      var before := Fold(v0, cs, acts, order[..|order| - 1]);
      if k in cs && k in acts then Step(before, k, cs[k], acts[k]) else before
  }

  /** Sweeping one more group is one more `Step`. */
  lemma FoldSnoc(v0: Snapshot, cs: map<string, set<Connection>>, acts: map<string, Action>, order: seq<string>, k: string)
    requires k in cs && k in acts
    ensures Fold(v0, cs, acts, order + [k]) == Step(Fold(v0, cs, acts, order), k, cs[k], acts[k])
  {
    assert (order + [k])[..|order|] == order;
  }

  /** No group is swept twice. */
  ghost predicate Distinct(order: seq<string>) {
    forall i, j :: 0 <= i < j < |order| ==> order[i] != order[j]
  }

  /** `order` lists, once each, the jobs of `keys` that are not `left`. */
  ghost predicate Sweeping(order: seq<string>, left: set<string>, keys: set<string>) {
    left <= keys && (forall k :: k in order <==> k in keys && k !in left) && Distinct(order)
  }

  /** Sweeping one more job of `left` moves it to the end of `order`. */
  lemma SweepingStep(order: seq<string>, left: set<string>, keys: set<string>, k: string)
    requires Sweeping(order, left, keys) && k in left
    ensures Sweeping(order + [k], left - {k}, keys)
  {
  }

  /** Swept groups leave the registry exactly when dropped; the others stay registered as they were. */
  lemma {:induction false} FoldJobs(v0: Snapshot, cs: map<string, set<Connection>>, acts: map<string, Action>,
                                    order: seq<string>)
    requires forall k :: k in order ==> k in cs && k in acts
    ensures forall k :: k in Fold(v0, cs, acts, order).jobs <==> k in v0.jobs && !(k in order && acts[k] == Drop)
    ensures forall k :: k in Fold(v0, cs, acts, order).jobs ==> Fold(v0, cs, acts, order).jobs[k] == v0.jobs[k]
  {
    if order != [] {
      var prefix := order[..|order| - 1];
      FoldJobs(v0, cs, acts, prefix);
      assert forall k :: k in order <==> k in prefix || k == order[|order| - 1];
    }
  }

  /** With each group swept once, a swept group is what its action leaves of it, and the others are as they were. */
  lemma {:induction false} FoldGroups(v0: Snapshot, cs: map<string, set<Connection>>, acts: map<string, Action>,
                                      order: seq<string>, k: string)
    requires forall k :: k in order ==> k in cs && k in acts
    requires Distinct(order) && k in v0.groups
    ensures k in Fold(v0, cs, acts, order).groups
    ensures Fold(v0, cs, acts, order).groups[k] == if k in order then SweptGroup(v0.groups[k], acts[k]) else v0.groups[k]
  {
    if order != [] {
      var prefix := order[..|order| - 1];
      var last := order[|order| - 1];
      assert Distinct(prefix) by {
        assert forall i :: 0 <= i < |prefix| ==> prefix[i] == order[i];
      }
      FoldGroups(v0, cs, acts, prefix, k);
      assert forall j :: j in order <==> j in prefix || j == last;
    }
  }

  /**
   * With disjoint clients and each group swept once, a client of a swept group `k` shows `k`'s
   * action, and any other connection is as it was.
   */
  lemma {:induction false} FoldConns(v0: Snapshot, cs: map<string, set<Connection>>, acts: map<string, Action>,
                                     order: seq<string>, c: Connection)
    requires forall k :: k in order ==> k in cs && k in acts
    requires Distinct(order) && Disjoint(cs) && c in v0.conns
    ensures c in Fold(v0, cs, acts, order).conns
    ensures forall k :: k in order && c in cs[k] ==> Fold(v0, cs, acts, order).conns[c] == Swept(v0.conns[c], acts[k])
    ensures (forall k :: k in order ==> c !in cs[k]) ==> Fold(v0, cs, acts, order).conns[c] == v0.conns[c]
  {
    if order != [] {
      var prefix := order[..|order| - 1];
      var last := order[|order| - 1];
      assert Distinct(prefix) by {
        assert forall i :: 0 <= i < |prefix| ==> prefix[i] == order[i];
      }
      FoldConns(v0, cs, acts, prefix, c);
      assert forall k :: k in order <==> k in prefix || k == last;
      if c in cs[last] {
        forall k | k in prefix
          ensures c !in cs[k]
        {
          var i :| 0 <= i < |prefix| && prefix[i] == k;
          assert order[i] == k;
        }
      }
    }
  }

  /**
   * After sweeping every job of `cs` once, with disjoint clients: a job stays registered exactly
   * when its action is not `Drop`, each group is what its action leaves of it, each client shows
   * its own job's action, and any other connection is as it was.
   */
  lemma FoldAll(v0: Snapshot, cs: map<string, set<Connection>>, acts: map<string, Action>, order: seq<string>)
    requires Sweeping(order, {}, cs.Keys) && cs.Keys == acts.Keys == v0.groups.Keys == v0.jobs.Keys && Disjoint(cs)
    ensures var v := Fold(v0, cs, acts, order);
      (forall k :: k in v.jobs ==> k in v0.groups && k in v.groups && v.groups[k].clients == v0.groups[k].clients) &&
      (forall k :: k in v.jobs <==> k in v0.jobs && !(k in acts && acts[k] == Drop)) &&
      (forall k :: k in v.jobs ==> v.jobs[k] == v0.jobs[k]) &&
      (forall k :: k in v0.groups ==> k in v.groups && v.groups[k] == SweptGroup(v0.groups[k], acts[k])) &&
      (forall k, c :: k in cs && c in cs[k] && c in v0.conns ==> c in v.conns && v.conns[c] == Swept(v0.conns[c], acts[k])) &&
      (forall c :: c in v0.conns && (forall k :: k in cs ==> c !in cs[k]) ==> c in v.conns && v.conns[c] == v0.conns[c])
  {
    FoldJobs(v0, cs, acts, order);
    forall k | k in v0.groups
      ensures k in Fold(v0, cs, acts, order).groups && Fold(v0, cs, acts, order).groups[k] == SweptGroup(v0.groups[k], acts[k])
    {
      FoldGroups(v0, cs, acts, order, k);
    }
    forall c | c in v0.conns
      ensures c in Fold(v0, cs, acts, order).conns
      ensures forall k :: k in cs && c in cs[k] ==> Fold(v0, cs, acts, order).conns[c] == Swept(v0.conns[c], acts[k])
      ensures (forall k :: k in cs ==> c !in cs[k]) ==> Fold(v0, cs, acts, order).conns[c] == v0.conns[c]
    {
      FoldConns(v0, cs, acts, order, c);
    }
  }

  /** Group views whose clients are stored under their ids, lie in `conns`, and share no id across jobs. */
  ghost predicate Coherent(views: map<string, GroupView>, conns: set<Connection>) {
    (forall k, j :: k in views && j in views[k].clients ==> views[k].clients[j].id == j) &&
    (forall k :: k in views ==> views[k].clients.Values <= conns) &&
    (forall k1, k2 :: k1 in views && k2 in views && k1 != k2 ==> views[k1].clients.Keys !! views[k2].clients.Keys)
  }

  /** The action the sweep takes on each group, judged on its clients. */
  ghost function Actions(views: map<string, GroupView>, queue: seq<AchTask>, running: Option<string>): (r: map<string, Action>)
    ensures r.Keys == views.Keys
    ensures forall k :: k in views ==> r[k] == SweepAction(|views[k].clients|, k, queue, running)
  {
    map k | k in views :: SweepAction(|views[k].clients|, k, queue, running)
  }

  /** `Drop` for every job of `keys`, as `destroy()` does. */
  function Drops(keys: set<string>): (r: map<string, Action>)
    ensures r.Keys == keys && forall k :: k in keys ==> r[k] == Drop
  {
    map k | k in keys :: Drop
  }

  /** The connections of each group. */
  ghost function ClientSets(views: map<string, GroupView>): (r: map<string, set<Connection>>)
    ensures r.Keys == views.Keys
    ensures forall k :: k in views ==> r[k] == views[k].clients.Values
  {
    map k | k in views :: views[k].clients.Values
  }

  /** In coherent views, two jobs share no client connection. */
  lemma CoherentDisjoint(views: map<string, GroupView>, conns: set<Connection>)
    requires Coherent(views, conns)
    ensures Disjoint(ClientSets(views))
  {
    forall k1, k2, c | k1 in views && k2 in views && c in views[k1].clients.Values && c in views[k2].clients.Values
      ensures k1 == k2
    {
      var j1 :| j1 in views[k1].clients && views[k1].clients[j1] == c;
      var j2 :| j2 in views[k2].clients && views[k2].clients[j2] == c;
      assert j1 == c.id == j2;
    }
  }

  /**
   * When, of the groups `step.0`, only the one under `step.1` changed, and as the action `step.2`
   * says, the group views take that one step.
   */
  twostate lemma GroupViewsStep(step: (map<string, SSEGroup>, string, Action))
    requires step.1 in step.0 && forall j :: j in step.0 && j != step.1 ==> unchanged(step.0[j])
    requires GroupView(step.0[step.1].clients, step.0[step.1].sent)
      == SweptGroup(GroupView(old(step.0[step.1].clients), old(step.0[step.1].sent)), step.2)
    ensures GroupViews(step.0) == old(GroupViews(step.0))[step.1 := SweptGroup(old(GroupViews(step.0))[step.1], step.2)]
  {
  }

  /**
   * When, of the connections `step.0`, exactly those in `step.1` took `Swept` with the action
   * `step.2`, the connection views take that one step.
   */
  twostate lemma ViewsStep(step: (set<Connection>, set<Connection>, Action))
    requires forall c :: c in step.0 && c in step.1 ==>
      c.received == old(c.received) + Notice(step.2) && c.state == if step.2 == Drop then Closed else old(c.state)
    requires forall c :: c in step.0 && c !in step.1 ==> unchanged(c)
    ensures Views(step.0) == Apply(old(Views(step.0)), step.1, step.2)
  {
  }

  /** `SSEManager`: one group per job id. */
  class SSEManager {
    var jobGroups: map<string, SSEGroup>
    /** The groups this manager has created. */
    ghost var repr: set<SSEGroup>
    /** The connections its groups may hold. */
    ghost var conns: set<Connection>

    constructor ()
      ensures jobGroups == map[] && Valid()
    {
      jobGroups := map[];
      repr, conns := {}, {};
    }

    /**
     * Every group is registered under its own id, belongs to this manager, and is valid; the
     * groups and their clients lie in the footprints `repr` and `conns`; and no client id waits
     * on two jobs.
     */
    ghost predicate Valid()
      reads this, repr
    {
      (forall k :: k in jobGroups ==>
        jobGroups[k] in repr && jobGroups[k].id == k && jobGroups[k].manager == this &&
        jobGroups[k].Valid() && jobGroups[k].clients.Values <= conns) &&
      (forall k1, k2 :: k1 in jobGroups && k2 in jobGroups && k1 != k2 ==>
        jobGroups[k1].clients.Keys !! jobGroups[k2].clients.Keys)
    }

    /**
     * A manager whose registered groups are among `groups`, each registered under its own id and
     * showing the clients of coherent views `views`, is valid.
     */
    lemma ValidFrom(views: map<string, GroupView>, groups: map<string, SSEGroup>)
      requires Coherent(views, conns) && jobGroups.Keys <= groups.Keys == views.Keys
      requires forall k :: k in groups ==> groups[k] in repr && groups[k].id == k && groups[k].manager == this
      requires forall k :: k in jobGroups ==> jobGroups[k] == groups[k] && GroupViews(groups)[k].clients == views[k].clients
      ensures Valid()
    {
      assert forall k :: k in jobGroups ==> jobGroups[k].clients == views[k].clients;
    }

    /** The manager as seen through `groups`: its registry, those groups' views and its connections' views. */
    ghost function Snap(groups: map<string, SSEGroup>): Snapshot
      reads this, groups.Values, conns
    {
      Snapshot(jobGroups, GroupViews(groups), Views(conns))
    }

    /**
     * `jobGroups.get(jobId) ?? new SSEGroup(this, jobId)`, registered when it is new: the group
     * for `jobId`, created with no client when there is none.
     */
    method GroupFor(jobId: string) returns (group: SSEGroup)
      requires Valid()
      modifies this`jobGroups, this`repr
      ensures Valid() && conns == old(conns)
      ensures group.id == jobId && jobGroups == old(jobGroups)[jobId := group]
      ensures jobId in old(jobGroups) ==> group == old(jobGroups[jobId])
      ensures jobId !in old(jobGroups) ==> fresh(group) && group.clients == map[] && group.sent == []
    {
      if jobId in jobGroups {
        return jobGroups[jobId];
      }
      group := new SSEGroup(this, jobId);
      jobGroups := jobGroups[jobId := group];
      repr := repr + {group};
    }

    /**
     * `push(jobId, connection)`: the group for `jobId` is reused or created and registered, so
     * there is one group per job id, and the connection is added to it (receiving `init` when it
     * is ready). No other group and no other connection changes. No other job may already have a
     * client with the connection's id.
     */
    method Push(jobId: string, connection: Connection)
      requires Valid()
      requires forall k :: k in jobGroups && k != jobId ==> connection.id !in jobGroups[k].clients
      modifies this`jobGroups, this`repr, this`conns, connection`received
      modifies (if jobId in jobGroups then {jobGroups[jobId]} else {})`clients
      ensures Valid()
      ensures jobId in jobGroups && jobGroups == old(jobGroups)[jobId := jobGroups[jobId]]
      ensures jobId in old(jobGroups) ==> jobGroups[jobId] == old(jobGroups[jobId])
      ensures jobId !in old(jobGroups) ==> fresh(jobGroups[jobId]) && jobGroups[jobId].sent == []
      ensures var g := jobGroups[jobId];
        var before := if jobId in old(jobGroups) then old(jobGroups[jobId].clients) else map[];
        (old(connection.state) == Ready ==> g.clients == before[connection.id := connection]) &&
        (old(connection.state) != Ready ==> g.clients == before)
      ensures connection.received ==
        if old(connection.state) == Ready then old(connection.received) + [Init(connection.id, true)] else old(connection.received)
      ensures conns == old(conns) + {connection}
    {
      var group := GroupFor(jobId);
      Join(group, connection);
    }

    /**
     * `group.add(connection)` for a registered group: the connection becomes known to the manager
     * and, when ready, joins the group's clients and receives the init event; no other group changes.
     */
    method Join(group: SSEGroup, connection: Connection)
      requires Valid() && group.id in jobGroups && jobGroups[group.id] == group
      requires forall k :: k in jobGroups && k != group.id ==> connection.id !in jobGroups[k].clients
      modifies this`conns, {group}`clients, connection`received
      ensures Valid() && conns == old(conns) + {connection}
      ensures old(connection.state) != Ready ==>
        group.clients == old(group.clients) && connection.received == old(connection.received)
      ensures old(connection.state) == Ready ==>
        group.clients == old(group.clients)[connection.id := connection] &&
        connection.received == old(connection.received) + [Init(connection.id, true)]
    {
      conns := conns + {connection};
      var _ := group.Add(connection);
    }

    /**
     * `group.destroy()` for the group under `k`, which must be registered under its own id: seen
     * through the groups `groups`, registered under their own ids, the manager takes one `Step`
     * dropping that group, so it leaves `jobGroups` with no client left, its clients are closed
     * and sent nothing, and no other group or connection changes.
     */
    method DestroyGroup(k: string, ghost groups: map<string, SSEGroup>)
      requires k in jobGroups && jobGroups[k].id == k && jobGroups[k].manager == this && jobGroups[k].Valid()
      requires jobGroups[k].clients.Values <= conns
      requires k in groups && groups[k] == jobGroups[k] && forall j :: j in groups ==> groups[j].id == j
      modifies this`jobGroups, {jobGroups[k]}`clients, jobGroups[k].clients.Values`state
      ensures Snap(groups) == Step(old(Snap(groups)), k, old(jobGroups[k].clients.Values), Drop)
    {
      ghost var hit := jobGroups[k].clients.Values;
      var g := jobGroups[k];
      g.Destroy();
      GroupViewsStep((groups, k, Drop));
      ViewsStep((conns, hit, Drop));
    }

    /**
     * `group.send(update)` with the queue position `p`, for the group under `k`, registered under
     * its own id: seen through the groups `groups`, registered under their own ids, the manager
     * takes one `Step` notifying that group, so its clients receive the notice and no other group
     * or connection changes.
     */
    method NotifyGroup(k: string, p: nat, ghost groups: map<string, SSEGroup>)
      requires k in jobGroups && jobGroups[k].Valid() && jobGroups[k].clients.Values <= conns
      requires k in groups && groups[k] == jobGroups[k] && forall j :: j in groups ==> groups[j].id == j
      modifies {jobGroups[k]}`sent, jobGroups[k].clients.Values`received
      ensures Snap(groups) == Step(old(Snap(groups)), k, old(jobGroups[k].clients.Values), Notify(p))
    {
      ghost var hit := jobGroups[k].clients.Values;
      var g := jobGroups[k];
      g.Send(QueueNotice(p));
      GroupViewsStep((groups, k, Notify(p)));
      ViewsStep((conns, hit, Notify(p)));
    }

    /**
     * One step of `onIntervalTick()`, for the group under `k`, which must be registered under its
     * own id: it is destroyed when it has no client, or when its job is neither running nor
     * queued; a group whose job is queued is sent its 1-based queue position. Seen through the
     * groups `groups`, registered under their own ids, the manager takes one `Step` with that
     * action, so no other group or connection changes.
     */
    method SweepGroup(k: string, queue: seq<AchTask>, running: Option<string>, ghost groups: map<string, SSEGroup>)
      returns (action: Action)
      requires k in jobGroups && jobGroups[k].id == k && jobGroups[k].manager == this && jobGroups[k].Valid()
      requires jobGroups[k].clients.Values <= conns
      requires k in groups && groups[k] == jobGroups[k] && forall j :: j in groups ==> groups[j].id == j
      modifies this`jobGroups, {jobGroups[k]}`clients, {jobGroups[k]}`sent
      modifies jobGroups[k].clients.Values`state, jobGroups[k].clients.Values`received
      ensures action == SweepAction(|old(jobGroups[k].clients)|, k, queue, running)
      ensures Snap(groups) == Step(old(Snap(groups)), k, old(jobGroups[k].clients.Values), action)
    {
      ghost var v := Snap(groups);
      ghost var hit := jobGroups[k].clients.Values;
      var g := jobGroups[k];
      if |g.clients| == 0 {
        DestroyGroup(k, groups);
        return Drop;
      }
      var (steamid, _) := SplitJobId(g.id);
      var year := JobYear(g.id);
      var taskIndex := FindTask(queue, steamid, year);
      if running != Some(g.id) && taskIndex == -1 {
        DestroyGroup(k, groups);
        action := Drop;
      } else if taskIndex != -1 {
        NotifyGroup(k, taskIndex + 1, groups);
        action := Notify(taskIndex + 1);
      } else {
        action := Leave;
        assert v.groups[k := SweptGroup(v.groups[k], action)] == v.groups;
        assert forall c :: c in v.conns ==> Swept(v.conns[c], action) == v.conns[c];
        assert Apply(v.conns, hit, action) == v.conns;
      }
    }

    /**
     * After the groups `groups`, registered under their own ids with coherent views in the
     * snapshot `v0`, have each been swept once with the actions `acts`: the manager is valid, a
     * group stays registered exactly when its action is not `Drop`, each group is what its action
     * leaves of it, each client shows its own group's action, and any other connection is as it was.
     */
    lemma SweepOutcome(v0: Snapshot, cs: map<string, set<Connection>>, acts: map<string, Action>, order: seq<string>,
                       groups: map<string, SSEGroup>)
      requires v0.jobs == groups && Coherent(v0.groups, conns) && cs == ClientSets(v0.groups)
      requires v0.groups.Keys == groups.Keys == acts.Keys && v0.conns.Keys == conns
      requires forall k :: k in groups ==> groups[k] in repr && groups[k].id == k && groups[k].manager == this
      requires Sweeping(order, {}, cs.Keys) && Snap(groups) == Fold(v0, cs, acts, order)
      ensures Valid()
      ensures forall k :: k in jobGroups <==> k in groups && acts[k] != Drop
      ensures forall k :: k in jobGroups ==> jobGroups[k] == groups[k]
      ensures forall k :: k in groups ==> GroupViews(groups)[k] == SweptGroup(v0.groups[k], acts[k])
      ensures forall k, c :: k in groups && c in v0.groups[k].clients.Values ==> Views(conns)[c] == Swept(v0.conns[c], acts[k])
      ensures forall c :: c in conns && (forall k :: k in groups ==> c !in v0.groups[k].clients.Values) ==>
        Views(conns)[c] == v0.conns[c]
    {
      CoherentDisjoint(v0.groups, conns);
      FoldAll(v0, cs, acts, order);
      ValidFrom(v0.groups, groups);
    }

    /**
     * `onIntervalTick()` against the queued tasks and the running job id: each group, judged on
     * its clients before the sweep, is destroyed (its clients closed), told its place in the
     * queue, or left alone, as `SweepAction` decides; no group is created or replaced. A client
     * of a queued group receives exactly that group's notice, and a connection in no group is
     * untouched.
     */
    method OnIntervalTick(queue: seq<AchTask>, running: Option<string>)
      requires Valid()
      modifies this`jobGroups, repr`clients, repr`sent, conns`state, conns`received
      ensures Valid()
      ensures forall k :: k in jobGroups <==>
        k in old(jobGroups) && SweepAction(|old(jobGroups[k].clients)|, k, queue, running) != Drop
      ensures forall k :: k in jobGroups ==> jobGroups[k] == old(jobGroups[k])
      ensures forall k :: k in old(jobGroups) ==>
        GroupViews(old(jobGroups))[k] ==
        SweptGroup(old(GroupViews(jobGroups))[k], SweepAction(|old(jobGroups[k].clients)|, k, queue, running))
      ensures forall k, c :: k in old(jobGroups) && c in old(jobGroups[k].clients.Values) ==>
        Views(conns)[c] == Swept(old(Views(conns))[c], SweepAction(|old(jobGroups[k].clients)|, k, queue, running))
      ensures forall c :: c in conns && (forall k :: k in old(jobGroups) ==> c !in old(jobGroups[k].clients.Values)) ==>
        Views(conns)[c] == old(Views(conns))[c]
    {
      ghost var v0 := Snap(jobGroups);
      assert Coherent(v0.groups, conns);
      ghost var order, acts, cs := SweepAll(queue, running);
      assert forall k :: k in old(jobGroups) ==> acts[k] == SweepAction(|old(jobGroups[k].clients)|, k, queue, running);
      SweepOutcome(v0, cs, acts, order, old(jobGroups));
    }

    /**
     * The loop of `onIntervalTick()` over groups registered under their own ids whose views are
     * coherent: each group is swept once, in the order `order`, with the action `acts` gives it
     * on its clients before the sweep, so the manager ends up as `Fold` says.
     */
    method SweepAll(queue: seq<AchTask>, running: Option<string>)
      returns (ghost order: seq<string>, ghost acts: map<string, Action>, ghost cs: map<string, set<Connection>>)
      requires Coherent(GroupViews(jobGroups), conns)
      requires forall k :: k in jobGroups ==> jobGroups[k] in repr && jobGroups[k].id == k && jobGroups[k].manager == this
      modifies this`jobGroups, repr`clients, repr`sent, conns`state, conns`received
      ensures acts == Actions(old(GroupViews(jobGroups)), queue, running)
      ensures cs == ClientSets(old(GroupViews(jobGroups)))
      ensures Sweeping(order, {}, cs.Keys)
      ensures Snap(old(jobGroups)) == Fold(old(Snap(jobGroups)), cs, acts, order)
    {
      ghost var groups := jobGroups;
      ghost var v0 := Snap(groups);
      acts := Actions(v0.groups, queue, running);
      cs := ClientSets(v0.groups);
      order := [];
      var left := jobGroups.Keys;
      while left != {}
        invariant Sweeping(order, left, groups.Keys)
        invariant Snap(groups) == Fold(v0, cs, acts, order)
        decreases left
      {
        var k :| k in left;
        FoldJobs(v0, cs, acts, order);
        FoldGroups(v0, cs, acts, order, k);
        var action := SweepGroup(k, queue, running, groups);
        FoldSnoc(v0, cs, acts, order, k);
        SweepingStep(order, left, groups.Keys, k);
        order := order + [k];
        left := left - {k};
      }
    }

    /**
     * `destroy()`: every group is destroyed, which closes all their clients and sends nothing; a
     * connection in no group is untouched.
     */
    method Destroy()
      requires Valid()
      modifies this`jobGroups, repr`clients, conns`state
      ensures Valid() && jobGroups == map[]
      ensures forall k :: k in old(jobGroups) ==> GroupViews(old(jobGroups))[k] == SweptGroup(old(GroupViews(jobGroups))[k], Drop)
      ensures forall k, c :: k in old(jobGroups) && c in old(jobGroups[k].clients.Values) ==>
        Views(conns)[c] == Swept(old(Views(conns))[c], Drop)
      ensures forall c :: c in conns && (forall k :: k in old(jobGroups) ==> c !in old(jobGroups[k].clients.Values)) ==>
        Views(conns)[c] == old(Views(conns))[c]
    {
      ghost var v0 := Snap(jobGroups);
      assert Coherent(v0.groups, conns);
      ghost var order, drops, cs := DestroyAll();
      CoherentDisjoint(v0.groups, conns);
      FoldAll(v0, cs, drops, order);
    }

    /** The loop of `destroy()` over groups registered under their own ids: each is dropped once, as `Fold` says. */
    method DestroyAll() returns (ghost order: seq<string>, ghost drops: map<string, Action>, ghost cs: map<string, set<Connection>>)
      requires Coherent(GroupViews(jobGroups), conns)
      requires forall k :: k in jobGroups ==> jobGroups[k] in repr && jobGroups[k].id == k && jobGroups[k].manager == this
      modifies this`jobGroups, repr`clients, conns`state
      ensures drops == Drops(old(jobGroups.Keys))
      ensures cs == ClientSets(old(GroupViews(jobGroups)))
      ensures Sweeping(order, {}, cs.Keys)
      ensures Snap(old(jobGroups)) == Fold(old(Snap(jobGroups)), cs, drops, order)
    {
      ghost var groups := jobGroups;
      ghost var v0 := Snap(groups);
      drops := Drops(groups.Keys);
      cs := ClientSets(v0.groups);
      order := [];
      var left := jobGroups.Keys;
      while left != {}
        invariant Sweeping(order, left, groups.Keys)
        invariant Snap(groups) == Fold(v0, cs, drops, order)
        decreases left
      {
        var k :| k in left;
        FoldJobs(v0, cs, drops, order);
        FoldGroups(v0, cs, drops, order, k);
        DestroyGroup(k, groups);
        FoldSnoc(v0, cs, drops, order, k);
        SweepingStep(order, left, groups.Keys, k);
        order := order + [k];
        left := left - {k};
      }
    }
  }
}

=== FILE: store.dfy ===
/**
 * The Redis keyspace `src/lib/server/data.ts` uses, one map per key prefix. Each entry holds
 * the document its JSON text encodes and the expiry (in seconds) of the `SET` that wrote it;
 * expiry itself is not modelled.
 */
module Store {
  import opened Wrappers
  import opened Documents

  /** A stored value with the `EX` seconds it was written with (`None`: no expiry). */
  datatype Entry<T> = Entry(value: T, ttl: Option<nat>)

  /** Expiries the data layer writes. */
  const MissedAppTtl: nat := 86400
  const MissingUserTtl: nat := 3600
  const TagsTtl: nat := 86400
  const EmptyReviewTtl: nat := 60
  const VanityTtl: nat := 86400
  const MissingItemsTtl: nat := 60

  /** The name the last entry for `id` in `apps` gives it (`""` when none does). */
  function LastName(apps: seq<SteamApp>, id: nat): string {
    if apps == [] then ""
    else if apps[|apps| - 1].appid == id then apps[|apps| - 1].name
    else LastName(apps[..|apps| - 1], id)
  }

  /**
   * `LastName` is the name at the last index listing the id, and it is a name the list gives
   * that id.
   */
  lemma {:induction false} LastNameMeaning(apps: seq<SteamApp>)
    ensures forall j :: 0 <= j < |apps| && (forall k :: j < k < |apps| ==> apps[k].appid != apps[j].appid) ==>
      LastName(apps, apps[j].appid) == apps[j].name
    ensures forall a :: a in apps ==> SteamApp(a.appid, LastName(apps, a.appid)) in apps
  {
    if apps != [] {
      var init := apps[..|apps| - 1];
      LastNameMeaning(init);
      assert forall j :: 0 <= j < |init| ==> init[j] == apps[j];
      assert forall a :: a in apps ==> a in init || a == apps[|apps| - 1];
    }
  }

  class Redis {
    /** `appname:<appid>`; `""` marks an app the app list does not name. */
    var appNames: map<nat, Entry<string>>
    /** `tags:<lang>`. */
    var tags: map<string, Entry<seq<SteamTag>>>
    /** `user:<steamid>`. */
    var users: map<string, Entry<UserDoc>>
    /** `yearinreview:<steamid>:<year>`. */
    var yearInReview: map<(string, int), Entry<Json>>
    /** `vanity:<vanity>`. */
    var vanity: map<string, Entry<string>>
    /** `profileitems:<steamid>`; `None` is the stored `null` of a failed fetch. */
    var profileItems: map<string, Entry<Option<Stamped>>>
    /** `gameach:<appid>`; `None` is a stored `null`. */
    var gameAch: map<nat, Entry<Option<GameAchievements>>>
    /** `yearach:<steamid>:<year>`. */
    var yearAch: map<(string, int), Entry<YearAchievements>>
    /** `playerach:<steamid>:<appid>`. */
    var playerAch: map<(string, nat), Entry<PlayerAchievements>>

    /**
     * The shape of what the data layer writes: short-lived entries are exactly the negative
     * answers (a missed app name, a missing user, an empty year in review, failed profile items),
     * tags and vanity resolutions expire after a day, and the achievement documents never expire.
     */
    predicate Valid()
      reads this
    {
      (forall id :: id in appNames ==>
        appNames[id].ttl == None || (appNames[id].ttl == Some(MissedAppTtl) && appNames[id].value == "")) &&
      (forall lang :: lang in tags ==> tags[lang].ttl == Some(TagsTtl)) &&
      (forall s :: s in users ==> (users[s].ttl == Some(MissingUserTtl) <==> users[s].value.Zero?) &&
                                  (users[s].ttl == None <==> users[s].value.Summary?)) &&
      (forall k :: k in yearInReview ==> (yearInReview[k].ttl == Some(EmptyReviewTtl) <==> yearInReview[k].value == map[]) &&
                                         (yearInReview[k].ttl == None <==> yearInReview[k].value != map[])) &&
      (forall v :: v in vanity ==> vanity[v].ttl == Some(VanityTtl)) &&
      (forall s :: s in profileItems ==> (profileItems[s].ttl == Some(MissingItemsTtl) <==> profileItems[s].value.None?) &&
                                         (profileItems[s].ttl == None <==> profileItems[s].value.Some?)) &&
      (forall a :: a in gameAch ==> gameAch[a].ttl == None) &&
      (forall k :: k in yearAch ==> yearAch[k].ttl == None) &&
      (forall k :: k in playerAch ==> playerAch[k].ttl == None)
    }

    constructor ()
      ensures Valid()
      ensures appNames == map[] && tags == map[] && users == map[] && yearInReview == map[] &&
              vanity == map[] && profileItems == map[] && gameAch == map[] && yearAch == map[] && playerAch == map[]
    {
      appNames, tags, users, yearInReview := map[], map[], map[], map[];
      vanity, profileItems, gameAch, yearAch, playerAch := map[], map[], map[], map[], map[];
    }

    /**
     * `MSET appname:<id> <name> ...` for a page of the app list: each listed id takes the name of
     * its last occurrence in the page, without expiry; other ids are untouched.
     */
    method SetAppNames(apps: seq<SteamApp>)
      requires Valid()
      modifies this`appNames
      ensures Valid()
      ensures appNames.Keys == old(appNames).Keys + set a | a in apps :: a.appid
      ensures forall id :: id in old(appNames) && id !in (set a | a in apps :: a.appid) ==> appNames[id] == old(appNames)[id]
      ensures forall a :: a in apps ==> appNames[a.appid] == Entry(LastName(apps, a.appid), None)
    {
      for i := 0 to |apps|
        invariant Valid()
        invariant appNames.Keys == old(appNames).Keys + set a | a in apps[..i] :: a.appid
        invariant forall id :: id in old(appNames) && id !in (set a | a in apps[..i] :: a.appid) ==> appNames[id] == old(appNames)[id]
        invariant forall a :: a in apps[..i] ==> appNames[a.appid] == Entry(LastName(apps[..i], a.appid), None)
      {
        assert forall a :: a in apps[..i + 1] <==> a in apps[..i] || a == apps[i];
        assert apps[..i + 1][..i] == apps[..i];
        appNames := appNames[apps[i].appid := Entry(apps[i].name, None)];
      }
      assert apps[..|apps|] == apps;
    }

    /** `SET appname:<id> "" EX 86400` for each missed id, in order. */
    method SetMissedApps(ids: seq<nat>)
      requires Valid()
      modifies this`appNames
      ensures Valid()
      ensures appNames.Keys == old(appNames).Keys + set id | id in ids
      ensures forall id :: id in ids ==> appNames[id] == Entry("", Some(MissedAppTtl))
      ensures forall id :: id in old(appNames) && id !in ids ==> appNames[id] == old(appNames)[id]
    {
      for i := 0 to |ids|
        invariant Valid()
        invariant appNames.Keys == old(appNames).Keys + set id | id in ids[..i]
        invariant forall id :: id in ids[..i] ==> appNames[id] == Entry("", Some(MissedAppTtl))
        invariant forall id :: id in old(appNames) && id !in ids[..i] ==> appNames[id] == old(appNames)[id]
      {
        assert ids[..i + 1] == ids[..i] + [ids[i]];
        appNames := appNames[ids[i] := Entry("", Some(MissedAppTtl))];
      }
      assert ids[..|ids|] == ids;
    }
  }
}

=== FILE: text.dfy ===
/**
 * The string and number primitives of JavaScript that the modelled code leans on:
 * `parseInt`, `Number.prototype.toString(radix)`, `String.prototype.trim`,
 * `toLowerCase` (ASCII part), `startsWith` and `includes`.
 */
module Text {
  import opened Wrappers

  predicate IsDigit(c: char) {
    '0' <= c <= '9'
  }

  /** The value of `c` as a digit of `radix` (letters in either case count 10 and up), as `parseInt` reads it. */
  function DigitOf(c: char, radix: nat): (d: Option<nat>)
    ensures d.Some? ==> d.value < radix
    ensures IsDigit(c) && radix == 10 ==> d == Some((c as int) - ('0' as int))
  {
    var v := if '0' <= c <= '9' then (c as int) - ('0' as int)
             else if 'a' <= c <= 'z' then (c as int) - ('a' as int) + 10
             else if 'A' <= c <= 'Z' then (c as int) - ('A' as int) + 10
             else 36;
    if v < radix then Some(v) else None
  }

  predicate AllDigits(s: string, radix: nat) {
    forall i :: 0 <= i < |s| ==> DigitOf(s[i], radix).Some?
  }

  /** The number that the digit string `s` denotes in `radix`; the empty string denotes 0. */
  function Value(s: string, radix: nat): nat
    requires AllDigits(s, radix)
  {
    if s == [] then 0 else Value(s[..|s| - 1], radix) * radix + DigitOf(s[|s| - 1], radix).value
  }

  function Pow(radix: nat, k: nat): (p: nat)
    ensures radix > 0 ==> p > 0
  {
    if k == 0 then 1 else radix * Pow(radix, k - 1)
  }

  /** The lower-case digit character for `d` (what `toString(radix)` prints). */
  function DigitChar(d: nat): char
    requires d < 16
  {
    if d < 10 then ('0' as int + d) as char else ('a' as int + d - 10) as char
  }

  lemma DigitCharValue(d: nat, radix: nat)
    requires d < radix <= 16
    ensures DigitOf(DigitChar(d), radix) == Some(d)
  {
  }

  /** `n.toString(radix)`: the digits of `n` without leading zeros, "0" for zero. */
  function Digits(n: nat, radix: nat): (s: string)
    requires 2 <= radix <= 16
    ensures |s| > 0 && AllDigits(s, radix)
    ensures n == 0 ==> s == "0"
    ensures n > 0 ==> s[0] != '0'
    ensures forall i :: 0 <= i < |s| ==> s[i] == DigitChar(DigitOf(s[i], radix).value)
  {
    if n < radix then
      DigitCharValue(n, radix);
      [DigitChar(n)]
    else
      DivShrinks(n, radix);
      DigitCharValue(n % radix, radix);
      var p := Digits(n / radix, radix);
      var s := p + [DigitChar(n % radix)];
      assert forall i :: 0 <= i < |p| ==> s[i] == p[i];
      s
  }

  lemma DivShrinks(n: nat, radix: nat)
    requires 2 <= radix <= n
    ensures 1 <= n / radix < n && n % radix < radix
  {
    var q, d := n / radix, n % radix;
    assert n == q * radix + d;
    MulMonotone(2, radix, q);
  }

  lemma ValueAppend(p: string, c: char, radix: nat)
    requires AllDigits(p, radix) && DigitOf(c, radix).Some?
    ensures AllDigits(p + [c], radix)
    ensures Value(p + [c], radix) == Value(p, radix) * radix + DigitOf(c, radix).value
  {
    assert (p + [c])[..|p|] == p;
  }

  /** The digits printed by `toString(radix)` read back as the number printed. */
  lemma {:induction false} ValueOfDigits(n: nat, radix: nat)
    requires 2 <= radix <= 16
    ensures Value(Digits(n, radix), radix) == n
  {
    if n >= radix {
      var q, d := n / radix, n % radix;
      DivShrinks(n, radix);
      ValueOfDigits(q, radix);
      DigitCharValue(d, radix);
      ValueAppend(Digits(q, radix), DigitChar(d), radix);
      DivSplit(n, radix);
    }
  }

  lemma DivSplit(n: nat, radix: nat)
    requires radix > 0
    ensures n == (n / radix) * radix + n % radix
  {
  }

  /** Decimal notation of a natural number (`String(n)`). */
  function NatToString(n: nat): string {
    Digits(n, 10)
  }

  /** Value of a digit string whose first digit is not zero is at least one. */
  lemma {:induction false} ValuePositive(s: string, radix: nat)
    requires radix > 0 && |s| > 0 && AllDigits(s, radix) && DigitOf(s[0], radix).value > 0
    ensures Value(s, radix) >= 1
  {
    if |s| > 1 {
      ValuePositive(s[..|s| - 1], radix);
    }
  }

  /** A `k`-digit string denotes a number below `radix^k`. */
  lemma {:induction false} ValueBound(s: string, radix: nat)
    requires radix > 0 && AllDigits(s, radix)
    ensures Value(s, radix) < Pow(radix, |s|)
  {
    if s != [] {
      var p := s[..|s| - 1];
      ValueBound(p, radix);
      var d := DigitOf(s[|s| - 1], radix).value;
      var v, q := Value(p, radix), Pow(radix, |p|);
      assert Value(s, radix) == v * radix + d;
      assert Pow(radix, |s|) == radix * q;
      MulMonotone(v + 1, q, radix);
      MulSuccessor(v, radix);
    }
  }

  lemma MulSuccessor(v: nat, c: nat)
    ensures (v + 1) * c == v * c + c
  {
  }

  lemma MulMonotone(a: nat, b: nat, c: nat)
    requires a <= b
    ensures a * c <= b * c
  {
  }

  /** Leading zeros do not change the value of a digit string. */
  lemma {:induction false} ValueLeadingZero(s: string, radix: nat)
    requires radix > 0 && AllDigits(s, radix)
    ensures AllDigits("0" + s, radix) && Value("0" + s, radix) == Value(s, radix)
  {
    var z := "0" + s;
    assert DigitOf('0', radix) == Some(0);
    assert AllDigits(z, radix) by {
      forall i | 0 <= i < |z| ensures DigitOf(z[i], radix).Some? {
        if i > 0 { assert z[i] == s[i - 1]; }
      }
    }
    if s != [] {
      var p := s[..|s| - 1];
      assert z[..|z| - 1] == "0" + p;
      ValueLeadingZero(p, radix);
    }
  }

  /**
   * `toString(radix)` inverts the value of a canonical digit string (lower-case digits,
   * no leading zero unless the string is "0").
   */
  lemma {:induction false} DigitsOfValue(s: string, radix: nat)
    requires 2 <= radix <= 16 && |s| > 0 && AllDigits(s, radix)
    requires forall i :: 0 <= i < |s| ==> s[i] == DigitChar(DigitOf(s[i], radix).value)
    requires |s| > 1 ==> s[0] != '0'
    ensures Digits(Value(s, radix), radix) == s
  {
    var n := Value(s, radix);
    var d := DigitOf(s[|s| - 1], radix).value;
    if |s| == 1 {
      assert s[..|s| - 1] == [];
      assert Value(s[..|s| - 1], radix) == 0;
      assert n == 0 * radix + d;
    } else {
      var p := s[..|s| - 1];
      assert p[0] == s[0];
      assert AllDigits(p, radix) by {
        forall i | 0 <= i < |p| ensures DigitOf(p[i], radix).Some? { assert p[i] == s[i]; }
      }
      assert forall i :: 0 <= i < |p| ==> p[i] == DigitChar(DigitOf(p[i], radix).value) by {
        forall i | 0 <= i < |p| ensures p[i] == DigitChar(DigitOf(p[i], radix).value) { assert p[i] == s[i]; }
      }
      assert DigitOf(p[0], radix).value != 0;
      ValuePositive(p, radix);
      DigitsOfValue(p, radix);
      var v := Value(p, radix);
      assert n == v * radix + d;
      MulMonotone(1, v, radix);
      DivModUnique(n, radix, v, d);
      assert Digits(n, radix) == Digits(v, radix) + [DigitChar(d)];
      assert s[|s| - 1] == DigitChar(d);
      assert s == p + [s[|s| - 1]];
    }
  }

  lemma DivModUnique(n: nat, radix: nat, q: nat, d: nat)
    requires 0 <= d < radix && n == q * radix + d
    ensures n / radix == q && n % radix == d
  {
    var q', d' := n / radix, n % radix;
    assert n == q' * radix + d';
    if q < q' {
      MulMonotone(q + 1, q', radix);
    } else if q' < q {
      MulMonotone(q' + 1, q, radix);
    }
  }

  /** JavaScript's white space and line terminators, as `trim` and `parseInt` skip them. */
  predicate IsSpace(c: char) {
    var k := c as int;
    (9 <= k <= 13) || k == 0x20 || k == 0xA0 || k == 0x1680 || (0x2000 <= k <= 0x200A) ||
    k == 0x2028 || k == 0x2029 || k == 0x202F || k == 0x205F || k == 0x3000 || k == 0xFEFF
  }

  function TrimStart(s: string): (r: string)
    ensures |r| <= |s| && r == s[|s| - |r|..]
    ensures |r| > 0 ==> !IsSpace(r[0])
  {
    if |s| > 0 && IsSpace(s[0]) then TrimStart(s[1..]) else s
  }

  function TrimEnd(s: string): (r: string)
    ensures |r| <= |s| && r == s[..|r|]
    ensures |r| > 0 ==> !IsSpace(r[|r| - 1])
  {
    if |s| > 0 && IsSpace(s[|s| - 1]) then TrimEnd(s[..|s| - 1]) else s
  }

  /** `String.prototype.trim`. */
  function Trim(s: string): string {
    TrimEnd(TrimStart(s))
  }

  /** ASCII part of `toLowerCase`. */
  function LowerChar(c: char): char {
    if 'A' <= c <= 'Z' then (c as int + 32) as char else c
  }

  function Lower(s: string): string {
    seq(|s|, i requires 0 <= i < |s| => LowerChar(s[i]))
  }

  predicate StartsWith(s: string, prefix: string) {
    prefix <= s
  }

  /** `s.includes(sub)`. */
  predicate Contains(s: string, sub: string) {
    exists i :: 0 <= i <= |s| - |sub| && OccursAt(s, sub, i)
  }

  predicate OccursAt(s: string, sub: string, i: int)
    requires 0 <= i <= |s| - |sub|
  {
    s[i..i + |sub|] == sub
  }

  /** The longest prefix of `s` made of digits of `radix`. */
  function DigitPrefix(s: string, radix: nat): (p: string)
    ensures p <= s && AllDigits(p, radix)
    ensures |p| < |s| ==> DigitOf(s[|p|], radix).None?
  {
    if |s| > 0 && DigitOf(s[0], radix).Some? then
      var t := DigitPrefix(s[1..], radix);
      assert AllDigits([s[0]] + t, radix) by {
        forall i | 0 <= i < |t| + 1 ensures DigitOf(([s[0]] + t)[i], radix).Some? {
          if i > 0 { assert ([s[0]] + t)[i] == t[i - 1]; }
        }
      }
      [s[0]] + t
    else
      []
  }

  /**
   * `parseInt(s, radix)`, where `radix == None` stands for a call without a radix: leading
   * white space is skipped, a sign is read, a `0x`/`0X` prefix switches to hexadecimal when no
   * radix or radix 16 was given, and the longest digit prefix is read. `None` stands for NaN.
   */
  function ParseInt(s: string, radix: Option<nat>): (r: Option<int>)
    requires radix.Some? ==> 2 <= radix.value <= 36
  {
    var t := TrimStart(s);
    var negative := |t| > 0 && t[0] == '-';
    var u := if |t| > 0 && (t[0] == '-' || t[0] == '+') then t[1..] else t;
    var hexPrefix := (radix == None || radix == Some(16)) && HasHexPrefix(u);
    var base := if hexPrefix then 16 else radix.GetOr(10);
    match ParseDigits(if hexPrefix then u[2..] else u, base)
    case None => None
    case Some(m) =>
      var v: int := if negative then -(m as int) else m;
      Some(v)
  }

  predicate HasHexPrefix(u: string) {
    |u| >= 2 && u[0] == '0' && (u[1] == 'x' || u[1] == 'X')
  }

  /** The value of the longest digit prefix of `u`, or `None` when `u` does not start with a digit. */
  function ParseDigits(u: string, base: nat): (r: Option<nat>) {
    var ds := DigitPrefix(u, base);
    if ds == [] then None else Some(Value(ds, base))
  }

  lemma {:induction false} DigitPrefixOfDigits(s: string, radix: nat)
    requires AllDigits(s, radix)
    ensures DigitPrefix(s, radix) == s
  {
    if |s| > 0 {
      assert AllDigits(s[1..], radix) by {
        forall i | 0 <= i < |s| - 1 ensures DigitOf(s[1..][i], radix).Some? {
          assert s[1..][i] == s[i + 1];
        }
      }
      DigitPrefixOfDigits(s[1..], radix);
      assert s == [s[0]] + s[1..];
    }
  }

  /** `parseInt` reads a plain decimal digit string as its value. */
  lemma ParseIntDecimal(s: string)
    requires |s| > 0 && forall i :: 0 <= i < |s| ==> IsDigit(s[i])
    ensures AllDigits(s, 10)
    ensures ParseInt(s, None) == Some(Value(s, 10)) && ParseInt(s, Some(10)) == Some(Value(s, 10))
  {
    assert AllDigits(s, 10) by {
      forall i | 0 <= i < |s| ensures DigitOf(s[i], 10).Some? {
        assert IsDigit(s[i]);
      }
    }
    assert !IsSpace(s[0]);
    DigitPrefixOfDigits(s, 10);
    assert !HasHexPrefix(s) by {
      if |s| >= 2 { assert IsDigit(s[1]); }
    }
    ParseIntUnsigned(s, None, Value(s, 10));
    ParseIntUnsigned(s, Some(10), Value(s, 10));
  }

  /** A string with no leading space, sign or hex prefix is read as its digit prefix in base 10. */
  lemma ParseIntUnsigned(s: string, radix: Option<nat>, v: nat)
    requires radix == None || radix == Some(10)
    requires |s| > 0 && !IsSpace(s[0]) && s[0] != '-' && s[0] != '+' && !HasHexPrefix(s)
    requires ParseDigits(s, 10) == Some(v)
    ensures ParseInt(s, radix) == Some(v)
  {
    assert TrimStart(s) == s;
  }
}

=== FILE: util.dfy ===
/**
 * The shared helpers of `src/lib/util.ts`: the year clamp and the invite-code codec that maps
 * the low 32 bits of a SteamID64 (the account id) to a string of 16 consonants, one per hex digit.
 */
module Util {
  import opened Wrappers
  import opened Text

  /** The first year the site covers. */
  const MIN_YEAR: int := 2022

  /** The argument of `clampYear`: a string (read by `parseInt`) or an integral number. */
  datatype YearInput = YearText(text: string) | YearNumber(number: int)

  /** The year `clampYear` reads from its argument; `None` stands for NaN. */
  function ReadYear(input: YearInput): Option<int> {
    match input
    case YearText(s) => ParseInt(s, None)
    case YearNumber(n) => Some(n)
  }

  /**
   * `clampYear(unparsedYear)` with the clock-derived latest year as a parameter: an unreadable
   * year or year 0 gives the latest year, any other year is clamped into [MIN_YEAR, latest].
   */
  function ClampYear(input: YearInput, latest: int): (y: int)
    ensures ReadYear(input) == None || ReadYear(input) == Some(0) ==> y == latest
    ensures latest >= MIN_YEAR ==> MIN_YEAR <= y <= latest
    ensures ReadYear(input).Some? && MIN_YEAR <= ReadYear(input).value <= latest ==> y == ReadYear(input).value
    ensures ReadYear(input).Some? && ReadYear(input).value != 0 && ReadYear(input).value < MIN_YEAR ==> y == MIN_YEAR
    ensures ReadYear(input).Some? && ReadYear(input).value > latest && latest >= MIN_YEAR ==> y == latest
    ensures ReadYear(input).Some? && ReadYear(input).value != 0 && latest < MIN_YEAR ==> y == MIN_YEAR
  {
    match ReadYear(input)
    case None => latest
    case Some(year) =>
      if year == 0 then latest
      else
        var capped := if year < latest then year else latest;
        if MIN_YEAR > capped then MIN_YEAR else capped
  }

  /** `inviteUrlDictionary`, in its declaration order (the order `Object.entries` yields). */
  const InviteUrlEntries: seq<(char, char)> := [
    ('b', '0'), ('c', '1'), ('d', '2'), ('f', '3'), ('g', '4'), ('h', '5'), ('j', '6'), ('k', '7'),
    ('m', '8'), ('n', '9'), ('p', 'a'), ('q', 'b'), ('r', 'c'), ('t', 'd'), ('v', 'e'), ('w', 'f')]

  const InviteLetters: string := "bcdfghjkmnpqrtvw"
  const HexAlphabet: string := "0123456789abcdef"

  /** The first entry of `entries` whose key (`byValue == false`) or value (`byValue == true`) is `c`. */
  function FindEntry(entries: seq<(char, char)>, c: char, byValue: bool): (r: Option<(char, char)>)
    ensures r.Some? ==> r.value in entries && (if byValue then r.value.1 else r.value.0) == c
    ensures r.None? ==> forall e :: e in entries ==> (if byValue then e.1 else e.0) != c
  {
    if entries == [] then None
    else if (if byValue then entries[0].1 else entries[0].0) == c then Some(entries[0])
    else FindEntry(entries[1..], c, byValue)
  }

  /** `inviteUrlDictionary[c]`: the hex digit of an invite-code letter. */
  function HexForLetter(c: char): Option<char> {
    match FindEntry(InviteUrlEntries, c, false)
    case Some(e) => Some(e.1)
    case None => None
  }

  /** `Object.entries(inviteUrlDictionary).find(([, h]) => h === c)?.[0]`: the letter of a hex digit. */
  function LetterForHex(h: char): Option<char> {
    match FindEntry(InviteUrlEntries, h, true)
    case Some(e) => Some(e.0)
    case None => None
  }

  function Key(e: (char, char), byValue: bool): char {
    if byValue then e.1 else e.0
  }

  ghost predicate Distinct(entries: seq<(char, char)>, byValue: bool) {
    forall i, j :: 0 <= i < j < |entries| ==> Key(entries[i], byValue) != Key(entries[j], byValue)
  }

  /** With distinct keys, looking up the key of an entry finds that entry. */
  lemma {:induction false} FindDistinct(entries: seq<(char, char)>, i: nat, byValue: bool)
    requires Distinct(entries, byValue) && i < |entries|
    ensures FindEntry(entries, Key(entries[i], byValue), byValue) == Some(entries[i])
  {
    if i > 0 {
      assert Key(entries[0], byValue) != Key(entries[i], byValue);
      FindDistinct(entries[1..], i - 1, byValue);
    }
  }

  ghost predicate Increasing(entries: seq<(char, char)>, byValue: bool) {
    forall i :: 0 <= i < |entries| - 1 ==> Key(entries[i], byValue) < Key(entries[i + 1], byValue)
  }

  lemma {:induction false} IncreasingIsDistinct(entries: seq<(char, char)>, byValue: bool)
    requires Increasing(entries, byValue)
    ensures Distinct(entries, byValue)
    ensures forall j :: 0 < j < |entries| ==> Key(entries[0], byValue) < Key(entries[j], byValue)
  {
    if |entries| > 1 {
      var rest := entries[1..];
      assert Increasing(rest, byValue) by {
        forall i | 0 <= i < |rest| - 1 ensures Key(rest[i], byValue) < Key(rest[i + 1], byValue) {
          assert rest[i] == entries[i + 1] && rest[i + 1] == entries[i + 2];
        }
      }
      IncreasingIsDistinct(rest, byValue);
      forall j | 0 < j < |entries| ensures Key(entries[0], byValue) < Key(entries[j], byValue) {
        if j > 1 { assert entries[j] == rest[j - 1]; }
      }
      forall i, j | 0 <= i < j < |entries| ensures Key(entries[i], byValue) != Key(entries[j], byValue) {
        if i > 0 { assert entries[i] == rest[i - 1] && entries[j] == rest[j - 1]; }
      }
    }
  }

  lemma DictionaryShape()
    ensures |InviteUrlEntries| == 16
    ensures forall i :: 0 <= i < 16 ==> InviteUrlEntries[i].0 == InviteLetters[i] && InviteUrlEntries[i].1 == HexAlphabet[i]
    ensures Distinct(InviteUrlEntries, false) && Distinct(InviteUrlEntries, true)
  {
    DictionaryColumns();
    DictionaryIncreasing();
    IncreasingIsDistinct(InviteUrlEntries, false);
    IncreasingIsDistinct(InviteUrlEntries, true);
  }

  lemma DictionaryColumns()
    ensures |InviteUrlEntries| == 16
    ensures forall i :: 0 <= i < 16 ==> InviteUrlEntries[i].0 == InviteLetters[i] && InviteUrlEntries[i].1 == HexAlphabet[i]
  {
  }

  lemma DictionaryIncreasing()
    ensures Increasing(InviteUrlEntries, false) && Increasing(InviteUrlEntries, true)
  {
    DictionaryColumns();
    LettersIncreasing();
    HexIncreasing();
  }

  lemma LettersIncreasing()
    ensures forall i :: 0 <= i < 15 ==> InviteLetters[i] < InviteLetters[i + 1]
  {
  }

  lemma HexIncreasing()
    ensures forall i :: 0 <= i < 15 ==> HexAlphabet[i] < HexAlphabet[i + 1]
  {
  }

  /** Every letter the dictionary maps to is a lower-case hex digit. */
  lemma HexForLetterIsHex(c: char)
    ensures HexForLetter(c).Some? ==> HexForLetter(c).value in HexAlphabet
  {
    var r := FindEntry(InviteUrlEntries, c, false);
    if r.Some? {
      DictionaryColumns();
      var i :| 0 <= i < |InviteUrlEntries| && InviteUrlEntries[i] == r.value;
      assert r.value.1 == HexAlphabet[i];
    }
  }

  /** The dictionary is a bijection between the 16 consonants and the 16 lower-case hex digits. */
  lemma DictionaryIsBijection(c: char)
    ensures HexForLetter(c).Some? <==> c in InviteLetters
    ensures LetterForHex(c).Some? <==> c in HexAlphabet
    ensures HexForLetter(c).Some? ==> LetterForHex(HexForLetter(c).value) == Some(c)
    ensures LetterForHex(c).Some? ==> HexForLetter(LetterForHex(c).value) == Some(c)
  {
    DictionaryShape();
    var es := InviteUrlEntries;
    if c in InviteLetters {
      var i :| 0 <= i < 16 && InviteLetters[i] == c;
      FindDistinct(es, i, false);
      FindDistinct(es, i, true);
    } else {
      assert forall e :: e in es ==> e.0 != c;
    }
    if c in HexAlphabet {
      var i :| 0 <= i < 16 && HexAlphabet[i] == c;
      FindDistinct(es, i, true);
      FindDistinct(es, i, false);
    } else {
      assert forall e :: e in es ==> e.1 != c;
    }
  }

  /** `(1n << 56n) | (1n << 52n) | (1n << 32n)`: three non-overlapping bits, so the OR is their sum. */
  const SteamIdBase: nat := 0x0110_0001_0000_0000

  /** 2^32: `& 0xFFFFFFFFn` keeps the value modulo this. */
  const AccountIdSpan: nat := 0x1_0000_0000

  /** `a | b` on non-negative BigInts, bit by bit. */
  function Or(a: nat, b: nat): nat
    decreases a
  {
    if a == 0 then b
    else if b == 0 then a
    else 2 * Or(a / 2, b / 2) + (if a % 2 == 1 || b % 2 == 1 then 1 else 0)
  }

  /** OR-ing a value below 2^k into a multiple of 2^k is addition. */
  lemma {:induction false} OrDisjoint(hi: nat, v: nat, k: nat)
    requires v < Pow(2, k)
    ensures Or(hi * Pow(2, k), v) == hi * Pow(2, k) + v
  {
    var a := hi * Pow(2, k);
    if k > 0 && hi != 0 && v != 0 {
      var half := hi * Pow(2, k - 1);
      assert a == 2 * half;
      DivModUnique(a, 2, half, 0);
      OrDisjoint(hi, v / 2, k - 1);
    } else if k == 0 {
      assert v == 0;
    }
  }

  lemma {:induction false} PowAdd(b: nat, m: nat, n: nat)
    ensures Pow(b, m + n) == Pow(b, m) * Pow(b, n)
  {
    if m > 0 {
      PowAdd(b, m - 1, n);
      assert Pow(b, m + n) == b * Pow(b, m - 1 + n);
    }
  }

  lemma PowOfTwo32()
    ensures Pow(2, 32) == AccountIdSpan
  {
    assert Pow(2, 2) == 4;
    PowAdd(2, 2, 2);
    PowAdd(2, 4, 4);
    PowAdd(2, 8, 8);
    PowAdd(2, 16, 16);
  }

  lemma SteamIdBaseOr(v: nat)
    requires v < AccountIdSpan
    ensures Or(SteamIdBase, v) == SteamIdBase + v
  {
    PowOfTwo32();
    assert SteamIdBase == 0x0110_0001 * Pow(2, 32);
    OrDisjoint(0x0110_0001, v, 32);
  }

  /** `inviteCode.split('').map((c) => inviteUrlDictionary[c]).filter((c) => !!c).join('')`. */
  function MappedDigits(code: string): (hex: string)
    ensures |hex| <= |code|
  {
    if code == [] then []
    else
      (match HexForLetter(code[0]) case Some(h) => [h] case None => []) + MappedDigits(code[1..])
  }

  /**
   * `inviteUrlToSteamID`: the account id written in the code's letters, with the individual-account
   * bits set; `None` when no letter is in the dictionary (`BigInt(NaN)` throws and the catch returns null).
   */
  function InviteUrlToSteamID(code: string): Option<nat> {
    var hex := MappedDigits(code);
    if hex == [] then None
    else
      assert AllDigits(hex, 16) by { MappedDigitsAreHex(code); }
      Some(Or(SteamIdBase, Value(hex, 16)))
  }

  lemma {:induction false} MappedDigitsAreHex(code: string)
    ensures forall i :: 0 <= i < |MappedDigits(code)| ==> MappedDigits(code)[i] in HexAlphabet
    ensures AllDigits(MappedDigits(code), 16)
  {
    var hex := MappedDigits(code);
    if code != [] {
      MappedDigitsAreHex(code[1..]);
      HexForLetterIsHex(code[0]);
      var head := match HexForLetter(code[0]) case Some(h) => [h] case None => [];
      assert hex == head + MappedDigits(code[1..]);
      forall i | 0 <= i < |hex| ensures hex[i] in HexAlphabet {
        if i >= |head| { assert hex[i] == MappedDigits(code[1..])[i - |head|]; }
      }
    }
    forall i | 0 <= i < |hex| ensures DigitOf(hex[i], 16).Some? {
      HexCharCanonical(hex[i]);
    }
  }

  /** `BigInt(s)` on a string: trimmed, empty means 0, a signed decimal or an unsigned 0b/0o/0x literal. */
  function ParseBigInt(s: string): Option<int> {
    ParseBigIntLiteral(Trim(s))
  }

  /** `BigInt` on text without surrounding white space. */
  function ParseBigIntLiteral(t: string): Option<int> {
    if t == [] then Some(0)
    else if |t| >= 2 && t[0] == '0' && PrefixRadix(t[1]).Some? then
      var radix := PrefixRadix(t[1]).value;
      var ds := t[2..];
      if ds != [] && AllDigits(ds, radix) then Some(Value(ds, radix)) else None
    else
      var negative := t[0] == '-';
      var ds := if t[0] == '-' || t[0] == '+' then t[1..] else t;
      if ds != [] && AllDigits(ds, 10) then
        var v: int := Value(ds, 10);
        Some(if negative then -v else v)
      else None
  }

  function PrefixRadix(c: char): Option<nat> {
    if c == 'b' || c == 'B' then Some(2)
    else if c == 'o' || c == 'O' then Some(8)
    else if c == 'x' || c == 'X' then Some(16)
    else None
  }

  /** `h => Object.entries(inviteUrlDictionary).find(...)?.[0] || ''` applied to each hex digit and joined. */
  function LettersOf(hex: string): (code: string)
    ensures |code| <= |hex|
  {
    if hex == [] then []
    else (match LetterForHex(hex[0]) case Some(l) => [l] case None => []) + LettersOf(hex[1..])
  }

  /** The body of `steamIdToInviteUrl` once the id is parsed: the low 32 bits, in hex, as letters. */
  function AccountIdToCode(id: int): string {
    LettersOf(Digits(id % AccountIdSpan, 16))
  }

  /** `steamIdToInviteUrl(steamid)`; `None` when `BigInt` rejects the text. */
  function SteamIdToInviteUrl(steamid: string): Option<string> {
    match ParseBigInt(steamid)
    case Some(id) => Some(AccountIdToCode(id))
    case None => None
  }

  /** Every hex digit has a letter, and the letters read back as the same digits. */
  lemma {:induction false} LettersRoundTrip(hex: string)
    requires forall i :: 0 <= i < |hex| ==> hex[i] in HexAlphabet
    ensures |LettersOf(hex)| == |hex|
    ensures MappedDigits(LettersOf(hex)) == hex
    ensures forall i :: 0 <= i < |hex| ==> LettersOf(hex)[i] in InviteLetters
  {
    if hex != [] {
      DictionaryIsBijection(hex[0]);
      var l := LetterForHex(hex[0]).value;
      DictionaryIsBijection(l);
      LettersRoundTrip(hex[1..]);
      assert LettersOf(hex) == [l] + LettersOf(hex[1..]);
    }
  }

  /** Dictionary letters read as digits, and the digits print back as the same letters. */
  lemma {:induction false} DigitsRoundTrip(code: string)
    requires forall i :: 0 <= i < |code| ==> code[i] in InviteLetters
    ensures |MappedDigits(code)| == |code|
    ensures LettersOf(MappedDigits(code)) == code
    ensures forall i :: 0 <= i < |code| ==> HexForLetter(code[i]) == Some(MappedDigits(code)[i])
  {
    if code != [] {
      DictionaryIsBijection(code[0]);
      var h := HexForLetter(code[0]).value;
      DictionaryIsBijection(h);
      DigitsRoundTrip(code[1..]);
      var hex := MappedDigits(code);
      assert hex == [h] + MappedDigits(code[1..]);
      forall i | 0 <= i < |code| ensures HexForLetter(code[i]) == Some(hex[i]) {
        if i > 0 { assert code[i] == code[1..][i - 1] && hex[i] == MappedDigits(code[1..])[i - 1]; }
      }
    }
  }

  /**
   * Round trip from an id: the code of any id decodes to an id with the same low 32 bits and
   * the fixed individual-account high bits.
   */
  lemma IdRoundTrip(id: int)
    ensures InviteUrlToSteamID(AccountIdToCode(id)) == Some(SteamIdBase + id % AccountIdSpan)
  {
    var m := id % AccountIdSpan;
    var hex := Digits(m, 16);
    forall i | 0 <= i < |hex| ensures hex[i] in HexAlphabet {
      var d := DigitOf(hex[i], 16).value;
      assert hex[i] == DigitChar(d);
      assert HexAlphabet[d] == DigitChar(d);
    }
    LettersRoundTrip(hex);
    ValueOfDigits(m, 16);
    SteamIdBaseOr(m);
  }

  /** A lower-case hex digit is printed back as itself by `toString(16)`. */
  lemma HexCharCanonical(c: char)
    requires c in HexAlphabet
    ensures DigitOf(c, 16).Some? && DigitChar(DigitOf(c, 16).value) == c
    ensures DigitOf(c, 16).value == 0 <==> c == '0'
  {
    assert '0' <= c <= '9' || 'a' <= c <= 'f';
  }

  /** The digits read from dictionary letters are canonical hex, without a leading zero unless the code starts with 'b'. */
  lemma CanonicalDigits(code: string)
    requires code != [] && forall i :: 0 <= i < |code| ==> code[i] in InviteLetters
    ensures |MappedDigits(code)| == |code| && AllDigits(MappedDigits(code), 16)
    ensures forall i :: 0 <= i < |code| ==>
      MappedDigits(code)[i] == DigitChar(DigitOf(MappedDigits(code)[i], 16).value)
    ensures code[0] != 'b' ==> MappedDigits(code)[0] != '0'
  {
    DigitsRoundTrip(code);
    MappedDigitsAreHex(code);
    var hex := MappedDigits(code);
    forall i | 0 <= i < |hex| ensures hex[i] == DigitChar(DigitOf(hex[i], 16).value) {
      HexCharCanonical(hex[i]);
    }
    DictionaryIsBijection('0');
    DictionaryShape();
  }

  /**
   * Round trip from a code: a non-empty code of dictionary letters that does not start with 'b'
   * (the letter of a leading zero) and whose value fits in 32 bits is reproduced from its id.
   */
  lemma CodeRoundTrip(code: string)
    requires code != [] && code[0] != 'b'
    requires forall i :: 0 <= i < |code| ==> code[i] in InviteLetters
    requires AllDigits(MappedDigits(code), 16) && Value(MappedDigits(code), 16) < AccountIdSpan
    ensures InviteUrlToSteamID(code).Some?
    ensures AccountIdToCode(InviteUrlToSteamID(code).value) == code
  {
    CanonicalDigits(code);
    DigitsRoundTrip(code);
    var hex := MappedDigits(code);
    var v := Value(hex, 16);
    DigitsOfValue(hex, 16);
    SteamIdBaseOr(v);
    var id := InviteUrlToSteamID(code).value;
    assert id == SteamIdBase + v;
    DivModUnique(id, AccountIdSpan, 0x0110_0001, v);
    assert AccountIdToCode(id) == LettersOf(Digits(v, 16));
  }
}

=== FILE: wrappers.dfy ===
/** The absence-or-value wrapper used for every nullable value of the system. */
module Wrappers {

  datatype Option<+T> = None | Some(value: T) {

    /** The value, or `default` when absent (JavaScript's `x ?? default`). */
    function GetOr(default: T): T {
      match this
      case Some(v) => v
      case None => default
    }

    /** The first present value of the two (JavaScript's `x ?? y` on two nullable values). */
    function OrElse(other: Option<T>): Option<T> {
      if Some? then this else other
    }
  }
}

=== FILE: year_achievements.dfy ===
/**
 * The batching and accumulation of `getUserYearAchievements`: the requested app ids, without
 * duplicates, are asked for in batches of 300, and each batch's answer is folded into one
 * `YearAchievements` document. A batch with no answer, or an empty one, marks the result incomplete.
 */
module YearAchievementsFold {
  import opened Wrappers
  import opened Documents
  import Text

  /** `YEAR_ACH_BATCH_AMOUNT`. */
  const BatchSize: nat := 300

  /** `[...new Set(xs)]`: the first occurrence of each id, in order. */
  function Dedup(xs: seq<nat>): (r: seq<nat>)
    ensures forall x :: x in r <==> x in xs
    ensures forall i, j :: 0 <= i < j < |r| ==> r[i] != r[j]
  {
    if xs == [] then []
    else
      var r := Dedup(xs[..|xs| - 1]);
      assert forall x :: x in xs <==> x in xs[..|xs| - 1] || x == xs[|xs| - 1];
      if xs[|xs| - 1] in r then r else r + [xs[|xs| - 1]]
  }

  /** Where `x` first occurs in `xs`. */
  function FirstIndex(xs: seq<nat>, x: nat): (i: nat)
    requires x in xs
    ensures i < |xs| && xs[i] == x && forall k :: 0 <= k < i ==> xs[k] != x
  {
    if xs[0] == x then 0 else 1 + FirstIndex(xs[1..], x)
  }

  /**
   * `Dedup` keeps the ids in the order of their first occurrence; with its own contract this
   * determines it completely.
   */
  lemma {:induction false} DedupFirstOccurrenceOrder(xs: seq<nat>)
    ensures forall i, j :: 0 <= i < j < |Dedup(xs)| ==> FirstIndex(xs, Dedup(xs)[i]) < FirstIndex(xs, Dedup(xs)[j])
  {
    if xs != [] {
      var init, last := xs[..|xs| - 1], xs[|xs| - 1];
      assert xs == init + [last];
      DedupFirstOccurrenceOrder(init);
      var r0, r := Dedup(init), Dedup(xs);
      assert r == if last in init then r0 else r0 + [last];
      forall i, j | 0 <= i < j < |r| ensures FirstIndex(xs, r[i]) < FirstIndex(xs, r[j]) {
        FirstIndexAppend(init, last, r[i]);
        if j < |r0| {
          FirstIndexAppend(init, last, r[j]);
        } else {
          assert r[j] == last && FirstIndex(xs, last) == |init|;
        }
      }
    }
  }

  /** An id of `init` first occurs in `init + [last]` where it first occurs in `init`. */
  lemma FirstIndexAppend(init: seq<nat>, last: nat, v: nat)
    requires v in init
    ensures FirstIndex(init + [last], v) == FirstIndex(init, v)
  {
    assert (init + [last])[FirstIndex(init, v)] == v;
  }

  function Flatten(cs: seq<seq<nat>>): seq<nat> {
    if cs == [] then [] else cs[0] + Flatten(cs[1..])
  }

  /** `split(xs, n)`: consecutive pieces of `n`, the last one possibly shorter, none empty. */
  function Chunks(xs: seq<nat>, n: nat): (cs: seq<seq<nat>>)
    requires n > 0
    ensures forall i :: 0 <= i < |cs| ==> 0 < |cs[i]| <= n
    ensures forall i :: 0 <= i < |cs| - 1 ==> |cs[i]| == n
    decreases |xs|
  {
    if xs == [] then [] else if |xs| <= n then [xs] else [xs[..n]] + Chunks(xs[n..], n)
  }

  /** The pieces, put back together, are the input: nothing is lost, repeated or reordered. */
  lemma {:induction false} ChunksFlatten(xs: seq<nat>, n: nat)
    requires n > 0
    ensures Flatten(Chunks(xs, n)) == xs
    decreases |xs|
  {
    if xs != [] && |xs| > n {
      ChunksFlatten(xs[n..], n);
      assert Chunks(xs, n)[1..] == Chunks(xs[n..], n);
      assert xs == xs[..n] + xs[n..];
    } else if xs != [] {
      assert Chunks(xs, n) == [xs];
      assert Flatten([xs]) == xs + Flatten([]);
    }
  }

  /** There are as many pieces as `Math.ceil(|xs| / n)`. */
  lemma {:induction false} ChunksCount(xs: seq<nat>, n: nat)
    requires n > 0
    ensures |Chunks(xs, n)| == (|xs| + n - 1) / n
    decreases |xs|
  {
    if xs != [] && |xs| > n {
      ChunksCount(xs[n..], n);
      CeilStep(|xs| - n, n);
    } else if xs != [] {
      CeilOne(|xs|, n);
    }
  }

  lemma CeilStep(m: nat, n: nat)
    requires n > 0
    ensures (m + n + n - 1) / n == 1 + (m + n - 1) / n
  {
    var q, r := (m + n - 1) / n, (m + n - 1) % n;
    assert m + n - 1 == q * n + r;
    assert m + n + n - 1 == (q + 1) * n + r;
    Text.DivModUnique(m + n + n - 1, n, q + 1, r);
  }

  lemma CeilOne(m: nat, n: nat)
    requires 0 < m <= n
    ensures (m + n - 1) / n == 1
  {
    Text.DivModUnique(m + n - 1, n, 1, m - 1);
  }

  /** `Object.keys(partResult).length === 0`. */
  predicate EmptyPart(p: YearPart) {
    p.games.None? && p.totalAchievements.None? && p.totalRare.None? && p.gamesWithAchievements.None?
  }

  function AppOf(g: GameYear): AppYear {
    AppYear(g.achievements.GetOr([]), g.allTimeUnlocked, g.futureUnlocks)
  }

  /** The `reduce` over a batch's games: one entry per app id, a later game overriding an earlier one. */
  function AppsOf(games: seq<GameYear>): (m: map<nat, AppYear>)
    ensures forall k :: k in m <==> exists g :: g in games && g.appid == k
    ensures forall i :: 0 <= i < |games| && (forall j :: i < j < |games| ==> games[j].appid != games[i].appid) ==>
      m[games[i].appid] == AppOf(games[i])
  {
    if games == [] then map[]
    else
      var g := games[|games| - 1];
      assert forall h :: h in games <==> h in games[..|games| - 1] || h == g;
      assert forall i :: 0 <= i < |games| - 1 ==> games[..|games| - 1][i] == games[i];
      AppsOf(games[..|games| - 1])[g.appid := AppOf(g)]
  }

  /** How a reported total is combined with the running one. */
  function Sum(running: int, reported: int): int { running + reported }
  /** `result.total =+ x`, which parses as `result.total = +x`. */
  function Replace(running: int, reported: int): int { reported }

  function Combine(running: int, reported: Option<int>, add: (int, int) -> int): int {
    if reported.Some? then add(running, reported.value) else running
  }

  /** One iteration of the loop over batches, with the totals combined by `add`. */
  function AbsorbWith(acc: YearAchievements, part: Option<YearPart>, add: (int, int) -> int): YearAchievements {
    if part.None? || EmptyPart(part.value) then acc.(complete := false)
    else
      var p := part.value;
      acc.(apps := if p.games.Some? then acc.apps + AppsOf(p.games.value) else acc.apps,
           total := Combine(acc.total, p.totalAchievements, add),
           totalRare := Combine(acc.totalRare, p.totalRare, add),
           gamesWithAchievements := Combine(acc.gamesWithAchievements, p.gamesWithAchievements, add))
  }

  /** The document after folding in `parts`, one per batch, in order. */
  function FoldWith(acc: YearAchievements, parts: seq<Option<YearPart>>, add: (int, int) -> int): YearAchievements {
    if parts == [] then acc else AbsorbWith(FoldWith(acc, parts[..|parts| - 1], add), parts[|parts| - 1], add)
  }

  /** The loop as written, where each total ends up as the last reported one. */
  function FoldAsWritten(acc: YearAchievements, parts: seq<Option<YearPart>>): YearAchievements {
    FoldWith(acc, parts, Replace)
  }

  /** The loop with the totals summed, as evidently intended; the data layer uses this one. */
  function Fold(acc: YearAchievements, parts: seq<Option<YearPart>>): YearAchievements {
    FoldWith(acc, parts, Sum)
  }

  /** The document the loop starts from. */
  function Initial(now: int): YearAchievements {
    YearAchievements(map[], 0, 0, 0, true, now)
  }

  /** The answer for each batch. */
  function Parts(up: Upstream, steamid: string, year: int, batches: seq<seq<nat>>): seq<Option<YearPart>> {
    seq(|batches|, i requires 0 <= i < |batches| => up.yearAchievements(steamid, year, batches[i]))
  }

  /** The batches `getUserYearAchievements` asks for. */
  function Batches(appids: seq<nat>): seq<seq<nat>> {
    Chunks(Dedup(appids), BatchSize)
  }

  /**
   * Every requested app is asked for exactly once: the batches, put together, list each requested
   * id once, in the order of its first request, in as many batches of at most 300 as needed.
   */
  lemma BatchesAskEachAppOnce(appids: seq<nat>)
    ensures var all := Flatten(Batches(appids));
      (forall x :: x in all <==> x in appids) &&
      (forall i, j :: 0 <= i < j < |all| ==> all[i] != all[j] && FirstIndex(appids, all[i]) < FirstIndex(appids, all[j]))
    ensures forall i :: 0 <= i < |Batches(appids)| ==> 0 < |Batches(appids)[i]| <= BatchSize
    ensures |Batches(appids)| == (|Dedup(appids)| + BatchSize - 1) / BatchSize
  {
    ChunksFlatten(Dedup(appids), BatchSize);
    assert Flatten(Batches(appids)) == Dedup(appids);
    DedupFirstOccurrenceOrder(appids);
    ChunksCount(Dedup(appids), BatchSize);
  }

  // ---------------------------------------------------------------------------------------------
  // Properties of the fold.

  predicate Answered(part: Option<YearPart>) {
    part.Some? && !EmptyPart(part.value)
  }

  /** The result is complete iff it started complete and every batch was answered with something. */
  lemma {:induction false} CompleteIff(acc: YearAchievements, parts: seq<Option<YearPart>>, add: (int, int) -> int)
    ensures FoldWith(acc, parts, add).complete <==> acc.complete && forall i :: 0 <= i < |parts| ==> Answered(parts[i])
  {
    if parts != [] {
      var init := parts[..|parts| - 1];
      CompleteIff(acc, init, add);
      assert forall i :: 0 <= i < |init| ==> init[i] == parts[i];
    }
  }

  /** The sum of the totals the answered batches report under `field`. */
  function Reported(parts: seq<Option<YearPart>>, field: YearPart -> Option<int>): int {
    if parts == [] then 0
    else
      var last := parts[|parts| - 1];
      Reported(parts[..|parts| - 1], field) + (if Answered(last) && field(last.value).Some? then field(last.value).value else 0)
  }

  /** The last total an answered batch reports under `field`, if any. */
  function LastReported(parts: seq<Option<YearPart>>, field: YearPart -> Option<int>): Option<int> {
    if parts == [] then None
    else
      var last := parts[|parts| - 1];
      if Answered(last) && field(last.value).Some? then field(last.value) else LastReported(parts[..|parts| - 1], field)
  }

  function TotalOf(p: YearPart): Option<int> { p.totalAchievements }
  function RareOf(p: YearPart): Option<int> { p.totalRare }
  function GamesOf(p: YearPart): Option<int> { p.gamesWithAchievements }

  /** With the totals summed, each total is the starting value plus the sum over all batches. */
  lemma {:induction false} TotalsAreSums(acc: YearAchievements, parts: seq<Option<YearPart>>)
    ensures Fold(acc, parts).total == acc.total + Reported(parts, TotalOf)
    ensures Fold(acc, parts).totalRare == acc.totalRare + Reported(parts, RareOf)
    ensures Fold(acc, parts).gamesWithAchievements == acc.gamesWithAchievements + Reported(parts, GamesOf)
  {
    if parts != [] {
      TotalsAreSums(acc, parts[..|parts| - 1]);
    }
  }

  /** As written, each total is the one the last answering batch reported (or the starting value). */
  lemma {:induction false} TotalsAsWrittenAreLast(acc: YearAchievements, parts: seq<Option<YearPart>>)
    ensures FoldAsWritten(acc, parts).total == LastReported(parts, TotalOf).GetOr(acc.total)
    ensures FoldAsWritten(acc, parts).totalRare == LastReported(parts, RareOf).GetOr(acc.totalRare)
    ensures FoldAsWritten(acc, parts).gamesWithAchievements == LastReported(parts, GamesOf).GetOr(acc.gamesWithAchievements)
  {
    if parts != [] {
      TotalsAsWrittenAreLast(acc, parts[..|parts| - 1]);
    }
  }

  /**
   * Two batches reporting 5 and 3 achievements: as written the total is 3, summed it is 8.
   */
  lemma TotalsOverwrittenAsWritten()
    ensures var parts := [Some(YearPart(None, Some(5), None, None)), Some(YearPart(None, Some(3), None, None))];
      FoldAsWritten(Initial(0), parts).total == 3 && Fold(Initial(0), parts).total == 8
  {
    var parts := [Some(YearPart(None, Some(5), None, None)), Some(YearPart(None, Some(3), None, None))];
    assert parts[..1] == [parts[0]] && parts[..1][..0] == [];
    var first := FoldAsWritten(Initial(0), parts[..1]);
    assert first == AbsorbWith(FoldWith(Initial(0), [], Replace), parts[0], Replace);
    assert first.total == 5;
    var firstSum := Fold(Initial(0), parts[..1]);
    assert firstSum == AbsorbWith(FoldWith(Initial(0), [], Sum), parts[0], Sum);
    assert firstSum.total == 5;
  }

  /** The app ids some answered batch lists. */
  function ReportedApps(parts: seq<Option<YearPart>>): set<nat> {
    if parts == [] then {}
    else
      var last := parts[|parts| - 1];
      ReportedApps(parts[..|parts| - 1]) +
      (if Answered(last) && last.value.games.Some? then AppsOf(last.value.games.value).Keys else {})
  }

  /** The entry the latest batch listing app `k` gives it. */
  function LatestApp(parts: seq<Option<YearPart>>, k: nat): AppYear
    requires k in ReportedApps(parts)
  {
    var last := parts[|parts| - 1];
    if Answered(last) && last.value.games.Some? && k in AppsOf(last.value.games.value) then AppsOf(last.value.games.value)[k]
    else LatestApp(parts[..|parts| - 1], k)
  }

  /**
   * The apps of the result are those it started with and those some batch reported; an app some
   * batch reports takes the entry of the latest batch listing it, and every other app keeps its
   * starting entry.
   */
  lemma {:induction false} AppsFromBatches(acc: YearAchievements, parts: seq<Option<YearPart>>, add: (int, int) -> int)
    ensures FoldWith(acc, parts, add).apps.Keys == acc.apps.Keys + ReportedApps(parts)
    ensures forall k :: k in ReportedApps(parts) ==> FoldWith(acc, parts, add).apps[k] == LatestApp(parts, k)
    ensures forall k :: k in acc.apps && k !in ReportedApps(parts) ==> FoldWith(acc, parts, add).apps[k] == acc.apps[k]
  {
    if parts != [] {
      AppsFromBatches(acc, parts[..|parts| - 1], add);
    }
  }

  /** The loop never changes the fetch stamp. */
  lemma {:induction false} FetchStampKept(acc: YearAchievements, parts: seq<Option<YearPart>>, add: (int, int) -> int)
    ensures FoldWith(acc, parts, add).fetchedAt == acc.fetchedAt
  {
    if parts != [] {
      FetchStampKept(acc, parts[..|parts| - 1], add);
    }
  }

  /** 301 distinct ids are asked for in two batches, of 300 and of 1. */
  lemma ThreeHundredOne(xs: seq<nat>)
    requires |xs| == 301
    ensures |Chunks(xs, BatchSize)| == 2 && |Chunks(xs, BatchSize)[0]| == 300 && |Chunks(xs, BatchSize)[1]| == 1
  {
    assert Chunks(xs[300..], 300) == [xs[300..]];
  }
}
